=== FILE: README.md ===
# Maven compilation cleaner, modelled in Dafny

LibImpactAnalyzer's `com.iwata.MavenCompiler` package repairs a Maven project
by deleting source until it compiles. Each round runs `mvn clean compile` and
extracts the file/line diagnostics from the output. For every reported file, it
deletes the Spoon AST elements that start on an error line, patches methods
that would no longer compile with a default `return`, removes imports on error
lines and writes the file back. It stops on a clean build, on a round that
changes nothing, or after `MAX_ITERATIONS` (20) rounds, and it keeps metrics
along the way.

The model is a set of Dafny modules that follow the Java classes:

| module | file | models |
|---|---|---|
| `JavaText` | java_text.dfy | `\d`, `endsWith`, `Integer.parseInt` on digit runs, Java `int` wrap-around |
| `ErrorInfos` | error_info.dfy | `ErrorInfo`: file name, path and a set of error lines |
| `Metrics` | metrics.dfy | `CompilationMetrics`: counters, the per-kind histogram, the modified-file set |
| `FileUtility` | file_utility.dfy | counting and locating `.java` files over walk results; `calculateDeletedLines` with `split("\\r?\\n")` |
| `ErrorPattern` | error_pattern.dfy | `Matcher.find()` of the error pattern (a file name ending in `.java`, then the nearest `[digits,`) on one output line |
| `MavenCompiler` | maven_compiler.dfy | the extraction loops of `runMavenCompileAndExtractErrors` / `runMavenTestCompileAndExtractErrors`, and `runMavenTest` |
| `Syntax` | syntax.dfy | an abstract Spoon model: elements with optional positions, methods, blocks, imports, units |
| `DefaultValue` | default_value.dfy | `createDefaultValue` and the synthesised `return` |
| `Deletion` | deletion.dfy | deleting every element that starts on a line |
| `Fallback` | fallback.dfy | `handleMissingElement` |
| `Completion` | completion.dfy | `fixIncompleteMethods`, `hasReturnStatement`, `hasUnreachableCodeAfterReturn` |
| `Imports` | imports.dfy | the import step of `processImportsAndSave` |
| `ErrorFileProcessor` | error_file_processor.dfy | `processErrorFile` |
| `CleanerConfig`, `Cleaner` | cleaner.dfy | `MAX_ITERATIONS` and `MavenCompilationCleaner.run` |

The world outside the decision logic enters as parameters:
- the Maven output, as a function from the file system to output lines;
- Spoon's parser, as a partial function from path and content to a unit;
- Spoon's printer;
- whether a write succeeds;
- directory walks, as sequences of entries.

`HashSet` and `HashMap` iteration orders are left open: the methods pick any
order, and every contract holds for all of them.

### Behaviour worth knowing

- The fallback patches the first eligible method in model (pre-)order. When
  methods nest, for instance through a local or anonymous class, that is the
  outermost method whose span holds the error line.
- The completeness sweep is not idempotent. A method with a statement after a
  top-level `return` is flagged again on every sweep, because the statement
  stays (`Completion.SecondSweep`, `Completion.DeadCodeNotCured`).
- The sweep gives every value-returning method without a body, abstract or
  interface methods included, a body holding only a default `return`
  (`Completion.AbstractMethodGetsBody`).
- A file with no error lines is still rewritten when the sweep changes it
  (`ErrorFileProcessor.NoErrorLinesStillRewritten`).
- When no compilation unit carries the reported file name, the file is not
  written, yet `processErrorFile` reports it as modified whenever the deletion
  or the sweep changed the in-memory model
  (`ErrorFileProcessor.UnmatchedUnitModifiedButNotWritten`).
- `removeAll` compares imports by content, so an import on a clean line goes
  too when an identical import stands on an error line
  (`Imports.DuplicateImportRemoved`).

## Model

| member | source | states |
|---|---|---|
| JavaText.ParseInt | LibImpactAnalyzer/src/main/java/com/iwata/MavenCompiler/MavenCompiler.java:62 | `Integer.parseInt` on a run of ASCII digits succeeds exactly when the value fits in `int`, and then yields that value |
| JavaText.Int32 | LibImpactAnalyzer/src/main/java/com/iwata/MavenCompiler/MavenCompiler.java:107-108 | Java `int` arithmetic: the result lies in the `int` range, is congruent to the exact value modulo 2^32, and equals it when no overflow occurs |
| ErrorInfos.NewErrorInfo | LibImpactAnalyzer/src/main/java/com/iwata/MavenCompiler/ErrorInfo.java:13-17 | a new record has the given name and path and no error line |
| ErrorInfos.AddErrorLine | LibImpactAnalyzer/src/main/java/com/iwata/MavenCompiler/ErrorInfo.java:27 | the line set becomes old ∪ {n}: n is in, every other line is in exactly when it was, the size grows by one exactly for a new line; name and path kept |
| ErrorInfos.SetFileName | LibImpactAnalyzer/src/main/java/com/iwata/MavenCompiler/ErrorInfo.java:21 | only the file name changes |
| ErrorInfos.SetFilePath | LibImpactAnalyzer/src/main/java/com/iwata/MavenCompiler/ErrorInfo.java:24 | only the file path changes |
| ErrorInfos.AddErrorLineIdempotent | LibImpactAnalyzer/src/main/java/com/iwata/MavenCompiler/ErrorInfo.java:27 | adding the same line twice equals adding it once |
| ErrorInfos.AddErrorLineCommutes | LibImpactAnalyzer/src/main/java/com/iwata/MavenCompiler/ErrorInfo.java:27 | the record does not depend on the order in which two lines are added |
| Metrics.Fresh | LibImpactAnalyzer/src/main/java/com/iwata/MavenCompiler/CompilationMetrics.java:9-15 | a new metrics object has every counter at 0, no modified file, an empty histogram, and a histogram that sums to the total |
| Metrics.IncrementDeletedElements | LibImpactAnalyzer/src/main/java/com/iwata/MavenCompiler/CompilationMetrics.java:18-21 | the total rises by 1, the count of `t` rises by 1 (inserted as 1 when absent), every other kind keeps its count and presence, the other fields are kept, and the histogram still sums to the total |
| Metrics.IncrementTimes | LibImpactAnalyzer/src/main/java/com/iwata/MavenCompiler/CompilationMetrics.java:18-21 | n increments under one kind: total and that kind's count rise by n, other kinds and fields unchanged, the sum invariant kept |
| Metrics.IncrementAll | LibImpactAnalyzer/src/main/java/com/iwata/MavenCompiler/ErrorFileProcessor.java:49-55 | one increment per deleted element: the total rises by the number of kinds and each kind's count by its number of occurrences |
| Metrics.AddModifiedFile | LibImpactAnalyzer/src/main/java/com/iwata/MavenCompiler/CompilationMetrics.java:54 | set insertion: the name is in, other names unchanged, the size grows exactly for a new name, nothing else changes |
| Metrics.AddModifiedFileTwice | LibImpactAnalyzer/src/main/java/com/iwata/MavenCompiler/CompilationMetrics.java:54 | re-adding a name leaves the metrics (and the set's size) as they were |
| Metrics.AddDeletedLines | LibImpactAnalyzer/src/main/java/com/iwata/MavenCompiler/CompilationMetrics.java:63 | `deletedLines` rises by k and nothing else changes |
| Metrics.SetIterationCount | LibImpactAnalyzer/src/main/java/com/iwata/MavenCompiler/CompilationMetrics.java:51 | overwrites only the iteration count |
| Metrics.SetTotalFiles | LibImpactAnalyzer/src/main/java/com/iwata/MavenCompiler/CompilationMetrics.java:57 | overwrites only the file total |
| Metrics.SetTotalLines | LibImpactAnalyzer/src/main/java/com/iwata/MavenCompiler/CompilationMetrics.java:60 | overwrites only the line total |
| Metrics.ValidAfterAnyCalls | LibImpactAnalyzer/src/main/java/com/iwata/MavenCompiler/CompilationMetrics.java:14-21 | after any sequence of public mutator calls the histogram still sums to `deletedElements`, which grew by the number of increment calls |
| FileUtility.CountJava | LibImpactAnalyzer/src/main/java/com/iwata/MavenCompiler/FileUtility.java:34-39 | the count of regular `.java` files is at most the number of entries; it is 0 exactly when none qualifies and full exactly when all do |
| FileUtility.CountJavaFrom | LibImpactAnalyzer/src/main/java/com/iwata/MavenCompiler/FileUtility.java:34-39 | counting the walk from any index on gives exactly the number of indices there that hold a regular `.java` file |
| FileUtility.CountJavaAppend | LibImpactAnalyzer/src/main/java/com/iwata/MavenCompiler/FileUtility.java:34-39 | the count of two concatenated walks is the sum of their counts |
| FileUtility.CountJavaFilesInDirectory | LibImpactAnalyzer/src/main/java/com/iwata/MavenCompiler/FileUtility.java:26-44 | 0 for a missing or unreadable directory; otherwise exactly the number of walk entries that are regular `.java` files, so at most the walk size and 0 exactly when there is none |
| FileUtility.FirstNamed | LibImpactAnalyzer/src/main/java/com/iwata/MavenCompiler/FileUtility.java:111-125 | none exactly when no regular file has the name; otherwise the path of the first such entry in walk order |
| FileUtility.FindJavaFileInDirectory | LibImpactAnalyzer/src/main/java/com/iwata/MavenCompiler/FileUtility.java:104-130 | null exactly when the directory is missing, unreadable or lacks the name; otherwise the first match in walk order |
| FileUtility.FindJavaFile | LibImpactAnalyzer/src/main/java/com/iwata/MavenCompiler/FileUtility.java:90-99 | the source-tree match whenever there is one, the test-tree lookup otherwise; null exactly when neither tree has the file |
| FileUtility.DropTrailingEmpty | LibImpactAnalyzer/src/main/java/com/iwata/MavenCompiler/FileUtility.java:136-137 | `split` keeps a prefix of the pieces that does not end in an empty piece, and only empty pieces are dropped |
| FileUtility.LineCount | LibImpactAnalyzer/src/main/java/com/iwata/MavenCompiler/FileUtility.java:136-137 | `split("\\r?\\n").length`: 1 for text without a line feed; otherwise a count of pieces whose last counted piece is non-empty and after which only empty pieces follow |
| FileUtility.CalculateDeletedLines | LibImpactAnalyzer/src/main/java/com/iwata/MavenCompiler/FileUtility.java:135-139 | original minus modified line count when positive, 0 otherwise; never negative |
| FileUtility.DeletedLinesOfIdentical | LibImpactAnalyzer/src/main/java/com/iwata/MavenCompiler/FileUtility.java:135-139 | identical contents give 0 |
| FileUtility.CrlfSplitsLikeLf | LibImpactAnalyzer/src/main/java/com/iwata/MavenCompiler/FileUtility.java:136-137 | turning every LF into CRLF leaves the pieces and the line count unchanged |
| FileUtility.LineCountOfTerminated | LibImpactAnalyzer/src/main/java/com/iwata/MavenCompiler/FileUtility.java:136-137 | n lines each followed by a newline (the last non-empty) count n: the trailing empty piece is dropped |
| FileUtility.DeletedWholeLines | LibImpactAnalyzer/src/main/java/com/iwata/MavenCompiler/FileUtility.java:135-139 | rewriting a file of n lines to one of k ≤ n lines counts n − k deleted lines |
| FileUtility.LineCountEdgeCases | LibImpactAnalyzer/src/main/java/com/iwata/MavenCompiler/FileUtility.java:136-137 | "a\n" and "a\r\n" count 1, "\n" counts 0, "" counts 1, "a\n\nb" counts 3 |
| ErrorPattern.LazyBracket | LibImpactAnalyzer/src/main/java/com/iwata/MavenCompiler/MavenCompiler.java:53 | `.*?\[(\d+),` finds the nearest bracket-digits-comma reachable without a line terminator, and none is reachable when it fails |
| ErrorPattern.DecompositionAtEnd | LibImpactAnalyzer/src/main/java/com/iwata/MavenCompiler/MavenCompiler.java:53 | for a fixed group 1, a match exists exactly when the lazy search succeeds, and the search gives the nearest bracket |
| ErrorPattern.GreedyName | LibImpactAnalyzer/src/main/java/com/iwata/MavenCompiler/MavenCompiler.java:53 | backtracking the greedy name run: the longest group 1 that admits a match, with its nearest bracket, and no match ends later |
| ErrorPattern.MatchAt | LibImpactAnalyzer/src/main/java/com/iwata/MavenCompiler/MavenCompiler.java:53 | the match anchored at a start: longest group 1, then nearest bracket; none exactly when no match starts there |
| ErrorPattern.FindFrom | LibImpactAnalyzer/src/main/java/com/iwata/MavenCompiler/MavenCompiler.java:59-60 | the leftmost match at or after a position, with no match starting earlier |
| ErrorPattern.Find | LibImpactAnalyzer/src/main/java/com/iwata/MavenCompiler/MavenCompiler.java:59-60 | `find()` fails exactly when the line holds no match; otherwise it is leftmost, then longest in group 1, then nearest in group 2 |
| ErrorPattern.MatchLine | LibImpactAnalyzer/src/main/java/com/iwata/MavenCompiler/MavenCompiler.java:59-62 | group 1 ends in ".java" and holds no backslash, slash, colon, star, question mark, double quote, angle bracket or bar; group 2 is a non-empty run of ASCII digits |
| ErrorPattern.SlashNotInName | LibImpactAnalyzer/src/main/java/com/iwata/MavenCompiler/MavenCompiler.java:53 | '/' is outside the name class, so a path never enters group 1 |
| ErrorPattern.ExampleMatch | LibImpactAnalyzer/src/main/java/com/iwata/MavenCompiler/MavenCompiler.java:59-62 | on a Maven error line with a path, group 1 is the bare file name and group 2 the line number |
| MavenCompiler.StepSpec | LibImpactAnalyzer/src/main/java/com/iwata/MavenCompiler/MavenCompiler.java:59-69 | one output line raises exactly when its line number overflows `int`; otherwise it adds its line to the record of a resolving file (created with the resolved path at first sight) and leaves the map alone when the file does not resolve |
| MavenCompiler.ExtractErrorsSpec | LibImpactAnalyzer/src/main/java/com/iwata/MavenCompiler/MavenCompiler.java:52-74 | extraction fails exactly when some matching line overflows; otherwise the map holds exactly the resolving reported files, each keyed by its own name, with its resolved path and exactly the lines reported for it |
| MavenCompiler.NoMatchNoErrors | LibImpactAnalyzer/src/main/java/com/iwata/MavenCompiler/MavenCompiler.java:56-71 | output with no matching line yields an empty map |
| MavenCompiler.ExtractedNamesWellFormed | LibImpactAnalyzer/src/main/java/com/iwata/MavenCompiler/MavenCompiler.java:53-66 | every key ends in ".java" and avoids the excluded characters |
| MavenCompiler.RunMavenTestCompileAndExtractErrors | LibImpactAnalyzer/src/main/java/com/iwata/MavenCompiler/MavenCompiler.java:120-153 | the test-compile variant fails exactly when some matching line overflows, and otherwise aggregates exactly the resolving reported files with their lines |
| MavenCompiler.SummaryAt | LibImpactAnalyzer/src/main/java/com/iwata/MavenCompiler/MavenCompiler.java:93 | an anchored result is a summary match there: the literal text with four non-empty digit runs, the last one not followed by a digit |
| MavenCompiler.SummaryAtExact | LibImpactAnalyzer/src/main/java/com/iwata/MavenCompiler/MavenCompiler.java:93 | conversely, any summary match at a position is the one the anchored search returns there |
| MavenCompiler.FindSummaryFromSpec | LibImpactAnalyzer/src/main/java/com/iwata/MavenCompiler/MavenCompiler.java:99 | the search from a position fails exactly when no match starts at or after it, and otherwise returns a match with none starting earlier |
| MavenCompiler.FindSummarySpec | LibImpactAnalyzer/src/main/java/com/iwata/MavenCompiler/MavenCompiler.java:99-100 | `find()` fails exactly when the line holds no summary match anywhere; otherwise it returns a match at some position with none starting before it |
| MavenCompiler.FindSummaryLeftmost | LibImpactAnalyzer/src/main/java/com/iwata/MavenCompiler/MavenCompiler.java:99-100 | the leftmost summary match of a line is exactly what `find()` returns |
| MavenCompiler.SummaryResult | LibImpactAnalyzer/src/main/java/com/iwata/MavenCompiler/MavenCompiler.java:106-109 | total = run, skipped = skipped, passed + failed + skipped = total in `int` arithmetic; for consistent counts (non-negative, failures + errors + skipped ≤ run) failed = failures + errors and passed = run − failures − errors − skipped, exactly |
| MavenCompiler.ParseSummary | LibImpactAnalyzer/src/main/java/com/iwata/MavenCompiler/MavenCompiler.java:101-109 | the four groups parse left to right; any overflow raises, otherwise the result is built from the four values |
| MavenCompiler.RunMavenTestFails | LibImpactAnalyzer/src/main/java/com/iwata/MavenCompiler/MavenCompiler.java:96-111 | `runMavenTest` raises exactly when some summary line does not fit in `int` |
| MavenCompiler.RunMavenTestNoSummary | LibImpactAnalyzer/src/main/java/com/iwata/MavenCompiler/MavenCompiler.java:90-114 | with no line holding a summary match anywhere, all four counts stay 0 |
| MavenCompiler.RunMavenTestLastWins | LibImpactAnalyzer/src/main/java/com/iwata/MavenCompiler/MavenCompiler.java:96-111 | the last line holding a summary match determines the result: a successful run equals the parse of that line's leftmost match; values are overwritten, not summed |
| MavenCompiler.RunMavenTest | LibImpactAnalyzer/src/main/java/com/iwata/MavenCompiler/MavenCompiler.java:80-115 | passed + failed + skipped = total (modulo `int` wrap-around) for every successful result |
| MavenCompiler.ExampleSummaryResult | LibImpactAnalyzer/src/main/java/com/iwata/MavenCompiler/MavenCompiler.java:93-109 | "Tests run: 10, Failures: 2, Errors: 1, Skipped: 0" gives 10 total, 7 passed, 3 failed, 0 skipped |
| DefaultValue.UnboxSpec | LibImpactAnalyzer/src/main/java/com/iwata/MavenCompiler/ErrorFileProcessor.java:208 | `unbox()` maps each of the eight box types to the primitive it boxes and leaves every other name as it is |
| DefaultValue.CreateDefaultValueSpec | LibImpactAnalyzer/src/main/java/com/iwata/MavenCompiler/ErrorFileProcessor.java:207-216 | `false` exactly for `boolean`/`Boolean`, `'\0'` exactly for `char`/`Character`, `0` exactly for the six numeric primitives and their boxes, `null` exactly for everything else |
| DefaultValue.DefaultReturn | LibImpactAnalyzer/src/main/java/com/iwata/MavenCompiler/ErrorFileProcessor.java:128-130 | the synthesised `return` is a return, has no source position, contains no method and starts on no line |
| DefaultValue.DefaultValueAccepted | LibImpactAnalyzer/src/main/java/com/iwata/MavenCompiler/ErrorFileProcessor.java:207-215 | false / '\0' / 0 / null is assignable to every non-void return type except `Long`, `Float` and `Double` |
| DefaultValue.BoxedLongRejectsDefault | LibImpactAnalyzer/src/main/java/com/iwata/MavenCompiler/ErrorFileProcessor.java:207-215 | `Long` unboxes to `long`, gets the `int` literal 0, and `Long` does not accept it |
| DefaultValue.NullDefaultIffReference | LibImpactAnalyzer/src/main/java/com/iwata/MavenCompiler/ErrorFileProcessor.java:207-215 | the default is `null` exactly for types that are neither primitives nor their boxes |
| Syntax.ContainsReturn | LibImpactAnalyzer/src/main/java/com/iwata/MavenCompiler/ErrorFileProcessor.java:218-221 | a statement list holds a `return` exactly when one of its statements does, at any depth |
| Deletion.Prune | LibImpactAnalyzer/src/main/java/com/iwata/MavenCompiler/ErrorFileProcessor.java:43-55 | afterwards nothing starts on the line; a forest with nothing on the line is unchanged; the elements removed are exactly the subtrees of the outermost elements starting on the line (at least one per target) |
| Deletion.PruneOf | LibImpactAnalyzer/src/main/java/com/iwata/MavenCompiler/ErrorFileProcessor.java:49-52 | an element not on the line keeps its kind and position and loses every target inside it, and exactly the covered subtrees: a node keeps its kind with its children pruned, a literal stays as it is, a method keeps its return type with its parameters pruned and its body handled as `PruneBody` does |
| Deletion.PruneBody | LibImpactAnalyzer/src/main/java/com/iwata/MavenCompiler/ErrorFileProcessor.java:49-52 | a missing body stays missing; a body starting on the line is deleted with its statements; any other body keeps its position with its statements pruned, losing its targets and exactly the covered subtrees |
| Deletion.PruneSurvivors | LibImpactAnalyzer/src/main/java/com/iwata/MavenCompiler/ErrorFileProcessor.java:43-55 | the result holds one element per element not starting on the line, in the same order: the k-th such element, with its own targets removed, sits after exactly the survivors before it; nothing else is deleted and nothing is reordered |
| Deletion.TargetKindsBound | LibImpactAnalyzer/src/main/java/com/iwata/MavenCompiler/ErrorFileProcessor.java:44-47 | the elements found on a line are no more than the elements of the tree |
| Deletion.PruneKeepsClearLines | LibImpactAnalyzer/src/main/java/com/iwata/MavenCompiler/ErrorFileProcessor.java:43-55 | deleting one line's elements makes no element appear on another line |
| Deletion.PruneIdempotent | LibImpactAnalyzer/src/main/java/com/iwata/MavenCompiler/ErrorFileProcessor.java:44-52 | deleting a line's elements twice equals deleting them once |
| Fallback.FirstEligible | LibImpactAnalyzer/src/main/java/com/iwata/MavenCompiler/ErrorFileProcessor.java:84-97 | the first method in model order whose span contains the line, with a non-void type and a body; no earlier method qualifies |
| Fallback.AppendDefault | LibImpactAnalyzer/src/main/java/com/iwata/MavenCompiler/ErrorFileProcessor.java:96-102 | the method keeps position, type and header; its body gets the default `return` appended |
| Fallback.FallbackSeq | LibImpactAnalyzer/src/main/java/com/iwata/MavenCompiler/ErrorFileProcessor.java:84-112 | when no method is changed the forest is unchanged |
| Fallback.FallbackSeqSpec | LibImpactAnalyzer/src/main/java/com/iwata/MavenCompiler/ErrorFileProcessor.java:84-112 | a method is changed exactly when some method is eligible; then the first eligible one gains the default `return` and every later method in model order is unchanged |
| Fallback.FallbackOfSpec | LibImpactAnalyzer/src/main/java/com/iwata/MavenCompiler/ErrorFileProcessor.java:84-112 | the same for the methods of one element's subtree |
| Fallback.FallbackSeqReplaces | LibImpactAnalyzer/src/main/java/com/iwata/MavenCompiler/ErrorFileProcessor.java:84-112 | when some method is eligible, the forest after the fallback differs from the one before in exactly one place: the chosen (first eligible) method becomes that method with the default `return` appended, and every other element of the whole forest is unchanged |
| Fallback.FallbackOfReplaces | LibImpactAnalyzer/src/main/java/com/iwata/MavenCompiler/ErrorFileProcessor.java:84-112 | the same for one element's subtree |
| Fallback.FallbackKeepsTargets | LibImpactAnalyzer/src/main/java/com/iwata/MavenCompiler/ErrorFileProcessor.java:99-102 | the added `return` has no position: every line's elements are unchanged |
| Completion.HasUnreachableCodeAfterReturn | LibImpactAnalyzer/src/main/java/com/iwata/MavenCompiler/ErrorFileProcessor.java:223-235 | true exactly when some top-level non-return statement follows a top-level `return` |
| Completion.SweptSeq | LibImpactAnalyzer/src/main/java/com/iwata/MavenCompiler/ErrorFileProcessor.java:119-157 | the sweep acts on each element in place and keeps the forest's length |
| Completion.SweptOf | LibImpactAnalyzer/src/main/java/com/iwata/MavenCompiler/ErrorFileProcessor.java:122-156 | kind, position and return type kept; children, header and the old body statements are swept in place (a body keeps its position); a method's statement count grows by one exactly when it needs a fix, and then the old statements are followed by the default `return`; a method that needs no fix keeps its body's presence; a literal is unchanged |
| Completion.Completed | LibImpactAnalyzer/src/main/java/com/iwata/MavenCompiler/ErrorFileProcessor.java:126-136 | the body (a new one when there was none) is the old statements followed by the default `return` |
| Completion.FixCountPositive | LibImpactAnalyzer/src/main/java/com/iwata/MavenCompiler/ErrorFileProcessor.java:139-159 | some method is fixed exactly when the fix count is positive |
| Completion.FixIncompleteMethods | LibImpactAnalyzer/src/main/java/com/iwata/MavenCompiler/ErrorFileProcessor.java:115-160 | the returned forest is the forest with every element swept (`SweptSeq`); the result is true exactly when some method needs a fix; total and "CtReturn (added)" rise by the number of fixed methods, every other kind and field is unchanged |
| Completion.MethodsSwept | LibImpactAnalyzer/src/main/java/com/iwata/MavenCompiler/ErrorFileProcessor.java:119-120 | the swept forest's methods are the swept versions of the original methods, in the same order: each is judged on its original body |
| Completion.SweptKeepsReturns | LibImpactAnalyzer/src/main/java/com/iwata/MavenCompiler/ErrorFileProcessor.java:136-149 | the sweep only adds: a `return` anywhere stays |
| Completion.SweptMethodComplete | LibImpactAnalyzer/src/main/java/com/iwata/MavenCompiler/ErrorFileProcessor.java:125-155 | a swept value-returning method has a body holding a `return` |
| Completion.SweepCompletes | LibImpactAnalyzer/src/main/java/com/iwata/MavenCompiler/ErrorFileProcessor.java:115-160 | after the sweep no value-returning method lacks a body or a `return` |
| Completion.DeadCodeSwept | LibImpactAnalyzer/src/main/java/com/iwata/MavenCompiler/ErrorFileProcessor.java:223-235 | sweeping a statement list neither creates nor removes dead code |
| Completion.SweptNeedsFix | LibImpactAnalyzer/src/main/java/com/iwata/MavenCompiler/ErrorFileProcessor.java:141-154 | a swept method needs a fix again exactly when it had dead code: a method that merely lacked a `return` is left alone by a second sweep |
| Completion.FixCountSwept | LibImpactAnalyzer/src/main/java/com/iwata/MavenCompiler/ErrorFileProcessor.java:138-152 | a second sweep fixes exactly the methods with dead code |
| Completion.SecondSweep | LibImpactAnalyzer/src/main/java/com/iwata/MavenCompiler/ErrorFileProcessor.java:115-160 | a second sweep changes nothing exactly when no value-returning method had dead code |
| Completion.DeadCodeNotCured | LibImpactAnalyzer/src/main/java/com/iwata/MavenCompiler/ErrorFileProcessor.java:141-154 | `int f() { return 0; g(); }` is flagged again after it is swept |
| Completion.AbstractMethodGetsBody | LibImpactAnalyzer/src/main/java/com/iwata/MavenCompiler/ErrorFileProcessor.java:132-136 | a body-less value-returning method gets a new block holding only the default `return` |
| Completion.SweepKeepsTargets | LibImpactAnalyzer/src/main/java/com/iwata/MavenCompiler/ErrorFileProcessor.java:128-136 | the sweep adds no positioned element: every line's elements are unchanged |
| Imports.Flagged | LibImpactAnalyzer/src/main/java/com/iwata/MavenCompiler/ErrorFileProcessor.java:174-184 | the collected imports are imports on error lines, and every import on an error line is collected |
| Imports.FlaggedSplit | LibImpactAnalyzer/src/main/java/com/iwata/MavenCompiler/ErrorFileProcessor.java:174-184 | around any import, the collected list is what is collected before it, then the import itself exactly when it stands on an error line, then what is collected after it: the unit's order, each import once |
| Imports.FlaggedAppend | LibImpactAnalyzer/src/main/java/com/iwata/MavenCompiler/ErrorFileProcessor.java:174-184 | collecting from two parts of the import list gives the two collections one after the other |
| Imports.FlaggedCount | LibImpactAnalyzer/src/main/java/com/iwata/MavenCompiler/ErrorFileProcessor.java:174-184 | the collected list, and so the "CtImport" increment, has exactly one entry per import position on an error line |
| Imports.RemoveAll | LibImpactAnalyzer/src/main/java/com/iwata/MavenCompiler/ErrorFileProcessor.java:185 | the kept imports are exactly the imports whose content no collected import has |
| Imports.RemoveAllSplit | LibImpactAnalyzer/src/main/java/com/iwata/MavenCompiler/ErrorFileProcessor.java:185 | around any import, what remains is what remains before it, then the import itself exactly when no collected import has its content, then what remains after it: order and duplicates of the kept imports are preserved |
| Imports.RemoveAllAppend | LibImpactAnalyzer/src/main/java/com/iwata/MavenCompiler/ErrorFileProcessor.java:185 | removing from two parts of the import list gives the two remainders one after the other |
| Imports.RemoveAllCount | LibImpactAnalyzer/src/main/java/com/iwata/MavenCompiler/ErrorFileProcessor.java:185 | exactly one import remains per position whose content no collected import has |
| Imports.RemoveNothing | LibImpactAnalyzer/src/main/java/com/iwata/MavenCompiler/ErrorFileProcessor.java:185 | removing nothing keeps the imports as they are |
| Imports.RemovesExactlyOnErrorLines | LibImpactAnalyzer/src/main/java/com/iwata/MavenCompiler/ErrorFileProcessor.java:174-185 | with no duplicate import, an import is kept exactly when it is not on an error line |
| Imports.DuplicateImportRemoved | LibImpactAnalyzer/src/main/java/com/iwata/MavenCompiler/ErrorFileProcessor.java:185 | an import on a clean line is removed when an equal import is on an error line |
| ErrorFileProcessor.DeleteLine | LibImpactAnalyzer/src/main/java/com/iwata/MavenCompiler/ErrorFileProcessor.java:43-61 | with elements on the line: the forest becomes exactly `Prune` of it, and each deleted element is counted once under its kind; with none: the forest becomes the fallback's result, and the total and the "CtReturn (added)" count rise by one exactly when some method is eligible, every other count staying; in every case the result records a change exactly when something was counted |
| ErrorFileProcessor.DeleteLines | LibImpactAnalyzer/src/main/java/com/iwata/MavenCompiler/ErrorFileProcessor.java:43-61 | the loop over the error lines records a change exactly when the count grew, and keeps every other field |
| ErrorFileProcessor.DeleteLineFallback | LibImpactAnalyzer/src/main/java/com/iwata/MavenCompiler/ErrorFileProcessor.java:58-59 | on a line with no element, a change is recorded exactly when some method is eligible; then the first eligible one gains the default `return` and nothing else in the types changes; otherwise the types are unchanged |
| ErrorFileProcessor.DeleteLineClears | LibImpactAnalyzer/src/main/java/com/iwata/MavenCompiler/ErrorFileProcessor.java:44-59 | after a line is handled nothing starts on it, and a clear line stays clear |
| ErrorFileProcessor.DeleteLinesClears | LibImpactAnalyzer/src/main/java/com/iwata/MavenCompiler/ErrorFileProcessor.java:43-61 | after the loop nothing starts on any error line, whatever the order |
| ErrorFileProcessor.ProcessErrorFile | LibImpactAnalyzer/src/main/java/com/iwata/MavenCompiler/ErrorFileProcessor.java:24-78 | unreadable input gives false with metrics unchanged; a saved unit is the parsed unit with its types run through the deletion loop and the sweep, and its imports minus those matching an import on an error line; when the unit matches and the write succeeds, the file is written exactly when the result is true, and the result is true exactly when something was deleted, appended or removed; when the unit matches but the write fails, the result is false; deleted lines are added only for a written file, by the line-count drop of the printed text; run-level fields are untouched |
| ErrorFileProcessor.ProcessErrorFileCounts | LibImpactAnalyzer/src/main/java/com/iwata/MavenCompiler/ErrorFileProcessor.java:40-190 | for a readable file, the total deleted is what the deletion loop counted plus one per appended return plus, when the unit is the reported file, one per collected import; "CtImport" grows by exactly that import count over the deletion loop's; every other kind is counted as the sweep left it |
| ErrorFileProcessor.ProcessErrorFileRepairs | LibImpactAnalyzer/src/main/java/com/iwata/MavenCompiler/ErrorFileProcessor.java:40-68 | a written unit has nothing starting on an error line, no import on one, and every value-returning method has a body with a `return`, for every line order |
| ErrorFileProcessor.NoErrorLinesStillRewritten | LibImpactAnalyzer/src/main/java/com/iwata/MavenCompiler/ErrorFileProcessor.java:63-68 | a file with no error line is rewritten when a value-returning method lacks a body |
| ErrorFileProcessor.UnmatchedUnitModifiedButNotWritten | LibImpactAnalyzer/src/main/java/com/iwata/MavenCompiler/ErrorFileProcessor.java:167-204 | a unit whose file name differs from the reported one is not written, yet the file counts as modified |
| Cleaner.EnumerateLines | LibImpactAnalyzer/src/main/java/com/iwata/MavenCompiler/ErrorFileProcessor.java:43 | some iteration order of the error-line set: every line exactly once |
| Cleaner.ProcessOne | LibImpactAnalyzer/src/main/java/com/iwata/MavenCompiler/MavenCompilationCleaner.java:71-78 | the file is parsed from the current contents and handed to `processErrorFile`; the result is its modified flag, and the new contents are the printed repaired unit exactly when it saved one; an unparsable file changes nothing; only the processed file may change, only when reported modified, and only to a repaired unit; its name is added to the modified files exactly then |
| Cleaner.StepNamesSpec | LibImpactAnalyzer/src/main/java/com/iwata/MavenCompiler/MavenCompilationCleaner.java:71-74 | a name is recorded exactly when some step modified a file of that name |
| Cleaner.ProcessEntry | LibImpactAnalyzer/src/main/java/com/iwata/MavenCompiler/MavenCompilationCleaner.java:65-78 | a file whose path does not exist is skipped, leaving files and metrics as they were; otherwise the files, flag and metrics are what `ProcessOne` gives for some order of its error lines; any changed file is the entry's own path, holding a repaired unit |
| Cleaner.ProcessFiles | LibImpactAnalyzer/src/main/java/com/iwata/MavenCompiler/MavenCompilationCleaner.java:64-79 | every entry of the error map is handled once, in some order, missing files skipped: the files and metrics pass through one intermediate state per entry, in the order the steps are listed, each step for a present file being what `ProcessOne` gives for some order of its error lines (so its modified flag is `processErrorFile`'s), a missing file leaving state unchanged; every changed file was reported modified by a step for its path and holds that step's repaired unit; exactly the names of modified files are added; the histogram stays consistent; no file is created or removed |
| Cleaner.Iterate | LibImpactAnalyzer/src/main/java/com/iwata/MavenCompiler/MavenCompilationCleaner.java:47-79 | the round is clean exactly when the error map is empty, aborts exactly when extraction raises, and otherwise repairs over exactly the non-empty map the compile reported, the files passing through one `ProcessOne` step per entry as in `ProcessFiles`, every changed file holding a repaired unit; a round that does not repair changes nothing |
| Cleaner.Run | LibImpactAnalyzer/src/main/java/com/iwata/MavenCompiler/MavenCompilationCleaner.java:32-97 | between 1 and 20 rounds, and the iteration count equals their number; the file states run from the initial to the final files, each round relating consecutive states as `Iterate` does (compile result, one `ProcessOne` step per reported file, repaired contents); success exactly when the last round compiled clean, and then the final files compile without errors; a round with no modified file stops without success; every earlier round modified a file; the limit is reached only after 20 such rounds; totals set and modified files tracked over all rounds |

## Left out

- `ExcelReportGenerator`, `printMetrics`, `TestResult.getPassRate` and all console output: reporting and floating-point rates, no decision logic.
- Process plumbing of `MavenCompiler` (`ProcessBuilder`, stream reading, `waitFor`): the build output is an input sequence of lines.
- Spoon itself (`Launcher`, model building, `delete()`, the sniper printer): the model is an abstract element tree, and printing is a parameter.
- File reading and writing: the file system is a map from path to content; a failed read or parse gives no source, and a failed write is a boolean parameter.
- `countJavaLinesInDirectory` and `countAllJavaLines`: the total line count is a parameter of `Cleaner.Run`.
- `countAllJavaFiles` is modelled without a contract of its own: it is the sum of two `FileUtility.CountJavaFilesInDirectory` results, and its value only feeds the file total.
- `CleanerConfig` paths and `getMavenCmd`: directory walks are inputs, and the command line is not modelled. `FileUtility` refers to a `TEST_DIR` that `CleanerConfig.java` does not define; the test root is an input.
- `HashMap` and `HashSet` iteration orders: left open; every contract holds for every order.
- Java `int` overflow of the metrics counters: they are unbounded integers.
- Type references are not elements of the tree, and `unbox()` is modelled on simple names only.
- MavenCompiler.RunMavenCompileAndExtractErrors: carries no contract of its own; it is `ExtractErrors` on the output, whose behaviour `MavenCompiler.ExtractErrorsSpec` states.
- DefaultValue.CreateDefaultValue and DefaultValue.Unbox: their contracts are the lemmas `DefaultValue.CreateDefaultValueSpec` and `DefaultValue.UnboxSpec`.
- Cleaner.Run: a rewritten file holds the printed form of the unit `processErrorFile` saves for some order of that file's error lines; which order stays open, because it is Java's `HashSet` iteration order, and the parse itself is Spoon's.
- Cleaner.Run: does not restate that the deletion histogram stays consistent across rounds; `Cleaner.ProcessFiles` states it for each round and `Metrics.ValidAfterAnyCalls` for any sequence of metric updates.
- Cleaner.Iterate: likewise leaves histogram consistency to `Cleaner.ProcessFiles`.

=== FILE: cleaner.dfy ===
/** `CleanerConfig`: the iteration bound of the repair loop. */
module CleanerConfig {
  const MaxIterations: int := 20
}

/**
 * `MavenCompilationCleaner.run`: compile, repair every file the compiler
 * complains about, and repeat until the build is clean, a round changes no
 * file, or the iteration bound is reached.
 *
 * The project is a map from file path to content. What Maven prints for a
 * given project, how Spoon parses a file, how a unit is printed back and
 * whether a file can be written are parameters. The iteration orders of
 * `HashMap.values()` and of each error-line `HashSet` are unspecified: the
 * model picks them nondeterministically, so every property holds whatever
 * the order.
 */
module Cleaner {
  import opened Wrappers
  import opened Syntax
  import opened Metrics
  import opened ErrorInfos
  import opened FileUtility
  import opened MavenCompiler
  import opened ErrorFileProcessor
  import opened CleanerConfig

  /** File path to file content. */
  type FileSystem = map<string, string>

  /** The parts of the world the loop consults but does not model. */
  datatype Env = Env(
    mavenOutput: FileSystem -> seq<string>,
    parse: (string, string) -> Option<Unit>,
    prettyPrint: Unit -> string,
    canWrite: string -> bool)

  /** What happened to one entry of the error map. */
  datatype FileStep = FileStep(key: string, info: ErrorInfo, found: bool, modified: bool)

  /** One iteration of the loop. */
  datatype Round =
    | Clean
    | BuildFailed(failure: BuildFailure)
    | Repaired(errors: map<string, ErrorInfo>, steps: seq<FileStep>)

  /** How the loop ended: clean build, a round without changes, the bound, or an exception from the build. */
  datatype Status = Compiled | Stuck | OutOfIterations | Aborted(failure: BuildFailure)

  /** The rounds, the project before each round and after the last one, and the final state. */
  datatype RunResult = RunResult(status: Status, rounds: seq<Round>, states: seq<FileSystem>, fs: FileSystem,
                                 metrics: CompilationMetrics)

  /** The file names the steps report as modified. */
  function StepNames(steps: seq<FileStep>): set<string> {
    if steps == [] then {}
    else StepNames(steps[..|steps| - 1]) + (if steps[|steps| - 1].modified then {steps[|steps| - 1].info.fileName} else {})
  }

  predicate AnyModified(steps: seq<FileStep>) {
    exists k :: 0 <= k < |steps| && steps[k].modified
  }

  /** The file names modified over all rounds. */
  function RoundNames(rounds: seq<Round>): set<string> {
    if rounds == [] then {}
    else RoundNames(rounds[..|rounds| - 1]) + (if rounds[|rounds| - 1].Repaired? then StepNames(rounds[|rounds| - 1].steps) else {})
  }

  /** The run-level fields other than the modified files are kept. */
  predicate KeepsRunFields(m: CompilationMetrics, r: CompilationMetrics) {
    r.iterationCount == m.iterationCount && r.totalFiles == m.totalFiles && r.totalLines == m.totalLines
  }

  /** The steps of a round: each entry of the error map once, found exactly when its path exists. */
  ghost predicate CoversErrors(steps: seq<FileStep>, errors: map<string, ErrorInfo>, paths: set<string>) {
    && (forall k :: 0 <= k < |steps| ==> steps[k].key in errors && steps[k].info == errors[steps[k].key])
    && (forall key :: key in errors ==> exists k :: 0 <= k < |steps| && steps[k].key == key)
    && (forall a, b :: 0 <= a < b < |steps| ==> steps[a].key != steps[b].key)
    && (forall k :: 0 <= k < |steps| ==> (steps[k].found <==> steps[k].info.filePath in paths))
    && (forall k :: 0 <= k < |steps| && !steps[k].found ==> !steps[k].modified)
  }

  /** Some element of a non-empty set: the witness a nondeterministic pick needs. */
  ghost function AnyOf<T>(s: set<T>): (x: T)
    requires s != {}
    ensures x in s
  {
    var x :| x in s; x
  }

  /** An iteration order of a `HashSet<Integer>`: some enumeration of the set. */
  method EnumerateLines(lines: set<int>) returns (order: seq<int>)
    ensures Enumerates(order, lines)
  {
    order := [];
    var rest := lines;
    while rest != {}
      invariant rest <= lines
      invariant forall l :: l in order ==> l in lines && l !in rest
      invariant forall l :: l in lines ==> l in order || l in rest
      invariant forall a, b :: 0 <= a < b < |order| ==> order[a] != order[b]
      decreases |rest|
    {
      ghost var w := AnyOf(rest);
      assert w in rest;
      var l :| l in rest;
      order := order + [l];
      rest := rest - {l};
    }
  }

  /** The file as read and parsed: `None` when Spoon could not build a model of it. */
  function ParsedInput(fs: FileSystem, path: string, env: Env): (r: Option<Source>)
    requires path in fs
    ensures r.Some? <==> env.parse(path, fs[path]).Some?
    ensures r.Some? ==> r.value.content == fs[path] && r.value.unit == env.parse(path, fs[path]).value
  {
    var unit := env.parse(path, fs[path]);
    if unit.Some? then Some(Source(fs[path], unit.value)) else None
  }

  /** The step modified its file, and `content` is the printed form of a repaired unit. */
  ghost predicate WrittenBy(step: FileStep, content: string, env: Env) {
    step.modified && exists u :: ErrorFileProcessor.Repaired(u, step.info.errorLines) && content == env.prettyPrint(u)
  }

  /** `ProcessOne` with the error lines taken in some order produced `fs'`, `modified` and `m'`. */
  ghost predicate ProcessedInSomeOrder(fs: FileSystem, info: ErrorInfo, env: Env, m: CompilationMetrics,
                                       fs': FileSystem, modified: bool, m': CompilationMetrics)
    requires info.filePath in fs
  {
    exists order :: Enumerates(order, info.errorLines) && (fs', modified, m') == ProcessOne(fs, info, order, env, m)
  }

  /** The only file that may differ is the step's own, and then the step wrote it. */
  ghost predicate OnlyWrote(fs: FileSystem, fs': FileSystem, step: FileStep, env: Env) {
    forall p :: p in fs && p in fs' && fs'[p] != fs[p] ==> p == step.info.filePath && WrittenBy(step, fs'[p], env)
  }

  /** Every file that differs between `fs` and `fs'` was written by one of the steps. */
  ghost predicate Changes(fs: FileSystem, fs': FileSystem, steps: seq<FileStep>, env: Env) {
    forall p :: p in fs && p in fs' && fs'[p] != fs[p] ==>
      exists k :: 0 <= k < |steps| && steps[k].info.filePath == p && WrittenBy(steps[k], fs'[p], env)
  }

  /**
   * The step took the files from `fs` to `fs'` and the metrics from `m` to
   * `m'` as `ProcessEntry` does: a missing file changes nothing, an existing
   * one is processed with its error lines in some order.
   */
  ghost predicate EntryStep(fs: FileSystem, m: CompilationMetrics, step: FileStep, env: Env,
                            fs': FileSystem, m': CompilationMetrics) {
    if step.found then step.info.filePath in fs && ProcessedInSomeOrder(fs, step.info, env, m, fs', step.modified, m')
    else fs' == fs && m' == m
  }

  /** The steps, one after the other: step `k` leads from `fss[k]`, `ms[k]` to `fss[k + 1]`, `ms[k + 1]`. */
  ghost predicate StepsThrough(fss: seq<FileSystem>, ms: seq<CompilationMetrics>, steps: seq<FileStep>, env: Env) {
    && |fss| == |steps| + 1 && |ms| == |steps| + 1
    && forall k :: 0 <= k < |steps| ==> EntryStep(fss[k], ms[k], steps[k], env, fss[k + 1], ms[k + 1])
  }

  /** Taking the steps in order leads from `fs`, `m` to `fs'`, `m'`. */
  ghost predicate Threaded(fs: FileSystem, m: CompilationMetrics, steps: seq<FileStep>, env: Env,
                           fs': FileSystem, m': CompilationMetrics) {
    exists fss, ms :: StepsThrough(fss, ms, steps, env) && fss[0] == fs && ms[0] == m && fss[|steps|] == fs' && ms[|steps|] == m'
  }

  /** The same, for the files alone, from some starting metrics. */
  ghost predicate FilesThreaded(fs: FileSystem, steps: seq<FileStep>, env: Env, fs': FileSystem) {
    exists fss, ms :: StepsThrough(fss, ms, steps, env) && fss[0] == fs && fss[|steps|] == fs'
  }

  /** The loop over the entries so far: the steps lead through `fss`, `ms` from `fs`, `m` to `fs'`, `m'`. */
  ghost predicate Progress(fss: seq<FileSystem>, ms: seq<CompilationMetrics>, steps: seq<FileStep>, env: Env,
                           fs: FileSystem, m: CompilationMetrics, fs': FileSystem, m': CompilationMetrics) {
    StepsThrough(fss, ms, steps, env) && fss[0] == fs && ms[0] == m && fss[|steps|] == fs' && ms[|steps|] == m'
  }

  lemma ThreadedBy(fss: seq<FileSystem>, ms: seq<CompilationMetrics>, steps: seq<FileStep>, env: Env,
                   fs: FileSystem, m: CompilationMetrics, fs': FileSystem, m': CompilationMetrics)
    requires Progress(fss, ms, steps, env, fs, m, fs', m')
    ensures Threaded(fs, m, steps, env, fs', m')
  {
  }

  lemma ThroughAppend(fss: seq<FileSystem>, ms: seq<CompilationMetrics>, steps: seq<FileStep>, env: Env,
                      step: FileStep, fs': FileSystem, m': CompilationMetrics)
    requires StepsThrough(fss, ms, steps, env)
    requires EntryStep(fss[|steps|], ms[|steps|], step, env, fs', m')
    ensures StepsThrough(fss + [fs'], ms + [m'], steps + [step], env)
    ensures (fss + [fs'])[0] == fss[0] && (ms + [m'])[0] == ms[0]
    ensures (fss + [fs'])[|steps| + 1] == fs' && (ms + [m'])[|steps| + 1] == m'
  {
    var f2, m2, s2 := fss + [fs'], ms + [m'], steps + [step];
    assert f2[..|fss|] == fss && m2[..|ms|] == ms && s2[..|steps|] == steps;
    assert f2[|steps| + 1] == fs' && m2[|steps| + 1] == m' && s2[|steps|] == step;
  }

  /** `processor.processErrorFile(file, errorInfo, metrics)` on an existing file, then `addModifiedFile` if it changed. */
  function ProcessOne(fs: FileSystem, info: ErrorInfo, order: seq<int>, env: Env, m: CompilationMetrics)
    : (r: (FileSystem, bool, CompilationMetrics))
    requires info.filePath in fs && Enumerates(order, info.errorLines)
    ensures var o := ProcessErrorFile(ParsedInput(fs, info.filePath, env), info, order, env.prettyPrint,
                                      env.canWrite(info.filePath), m);
      && r.1 == o.modified
      && r.0 == (if o.saved.Some? then fs[info.filePath := env.prettyPrint(o.saved.value)] else fs)
    ensures r.0.Keys == fs.Keys
    ensures forall p :: p in fs && p != info.filePath ==> r.0[p] == fs[p]
    ensures r.0 != fs ==> r.1
    ensures r.0 != fs ==> exists u :: ErrorFileProcessor.Repaired(u, info.errorLines) && r.0[info.filePath] == env.prettyPrint(u)
    ensures env.parse(info.filePath, fs[info.filePath]).None? ==> r == (fs, false, m)
    ensures r.2.modifiedFiles == m.modifiedFiles + (if r.1 then {info.fileName} else {})
    ensures KeepsRunFields(m, r.2)
    ensures Valid(m) ==> Valid(r.2)
  {
    var path := info.filePath;
    var input := ParsedInput(fs, path, env);
    var outcome := ProcessErrorFile(input, info, order, env.prettyPrint, env.canWrite(path), m);
    ProcessErrorFileRepairs(input, info, order, env.prettyPrint, env.canWrite(path), m);
    var fs' := if outcome.saved.Some? then fs[path := env.prettyPrint(outcome.saved.value)] else fs;
    var m' := if outcome.modified then AddModifiedFile(outcome.metrics, info.fileName) else outcome.metrics;
    (fs', outcome.modified, m')
  }

  lemma StepNamesAppend(steps: seq<FileStep>, s: FileStep)
    ensures StepNames(steps + [s]) == StepNames(steps) + (if s.modified then {s.info.fileName} else {})
  {
    assert (steps + [s])[..|steps|] == steps;
  }

  /** A name is recorded exactly when some step modified a file of that name. */
  lemma {:induction false} StepNamesSpec(steps: seq<FileStep>, name: string)
    ensures name in StepNames(steps) <==> exists k :: 0 <= k < |steps| && steps[k].modified && steps[k].info.fileName == name
  {
    if steps != [] {
      var front := steps[..|steps| - 1];
      StepNamesSpec(front, name);
      if exists k :: 0 <= k < |front| && front[k].modified && front[k].info.fileName == name {
        var k :| 0 <= k < |front| && front[k].modified && front[k].info.fileName == name;
        assert steps[k] == front[k];
      }
      if exists k :: 0 <= k < |steps| && steps[k].modified && steps[k].info.fileName == name {
        var k :| 0 <= k < |steps| && steps[k].modified && steps[k].info.fileName == name;
        if k < |front| {
          assert front[k] == steps[k];
        }
      }
    }
  }

  /**
   * From `m` to `r` the loop over the entries recorded exactly the names of
   * the steps that modified a file, kept the run-level fields, and kept the
   * histogram consistent.
   */
  ghost predicate Tracks(m: CompilationMetrics, r: CompilationMetrics, steps: seq<FileStep>) {
    && r.modifiedFiles == m.modifiedFiles + StepNames(steps)
    && KeepsRunFields(m, r)
    && (Valid(m) ==> Valid(r))
  }

  /** Recording one more step. */
  lemma TracksStep(m: CompilationMetrics, m1: CompilationMetrics, m2: CompilationMetrics, steps: seq<FileStep>, step: FileStep)
    requires Tracks(m, m1, steps)
    requires m2.modifiedFiles == m1.modifiedFiles + (if step.modified then {step.info.fileName} else {})
    requires KeepsRunFields(m1, m2) && (Valid(m1) ==> Valid(m2))
    ensures Tracks(m, m2, steps + [step])
  {
    StepNamesAppend(steps, step);
  }

  /** The steps so far: the entries with keys in `done`, each once, found exactly when the path exists. */
  ghost predicate CoversSome(steps: seq<FileStep>, errors: map<string, ErrorInfo>, done: set<string>, paths: set<string>) {
    && done <= errors.Keys
    && (forall k :: 0 <= k < |steps| ==> steps[k].key in done && steps[k].info == errors[steps[k].key])
    && (forall key :: key in done ==> exists k :: 0 <= k < |steps| && steps[k].key == key)
    && (forall a, b :: 0 <= a < b < |steps| ==> steps[a].key != steps[b].key)
    && (forall k :: 0 <= k < |steps| ==> (steps[k].found <==> steps[k].info.filePath in paths))
    && (forall k :: 0 <= k < |steps| && !steps[k].found ==> !steps[k].modified)
  }

  lemma CoversSomeAppend(steps: seq<FileStep>, errors: map<string, ErrorInfo>, done: set<string>, paths: set<string>, s: FileStep)
    requires CoversSome(steps, errors, done, paths)
    requires s.key in errors && s.key !in done && s.info == errors[s.key]
    requires (s.found <==> s.info.filePath in paths) && (!s.found ==> !s.modified)
    ensures CoversSome(steps + [s], errors, done + {s.key}, paths)
  {
    var all := steps + [s];
    forall key | key in done + {s.key} ensures exists k :: 0 <= k < |all| && all[k].key == key {
      if key == s.key {
        assert all[|steps|].key == key;
      } else {
        var k :| 0 <= k < |steps| && steps[k].key == key;
        assert all[k].key == key;
      }
    }
  }

  lemma CoversAll(steps: seq<FileStep>, errors: map<string, ErrorInfo>, paths: set<string>)
    requires CoversSome(steps, errors, errors.Keys, paths)
    ensures CoversErrors(steps, errors, paths)
  {
  }

  /**
   * One entry of the error map: skipped when its file does not exist;
   * otherwise its error lines are taken in some order and the file is
   * processed with `ProcessOne`.
   */
  method ProcessEntry(fs: FileSystem, key: string, info: ErrorInfo, env: Env, m: CompilationMetrics)
    returns (fs': FileSystem, step: FileStep, m': CompilationMetrics)
    ensures fs'.Keys == fs.Keys
    ensures step.key == key && step.info == info
    ensures (step.found <==> info.filePath in fs) && (!step.found ==> !step.modified)
    ensures !step.found ==> fs' == fs && m' == m
    ensures step.found ==> ProcessedInSomeOrder(fs, info, env, m, fs', step.modified, m')
    ensures EntryStep(fs, m, step, env, fs', m')
    ensures OnlyWrote(fs, fs', step, env)
    ensures m'.modifiedFiles == m.modifiedFiles + (if step.modified then {info.fileName} else {})
    ensures KeepsRunFields(m, m')
    ensures Valid(m) ==> Valid(m')
  {
    if info.filePath !in fs {
      return fs, FileStep(key, info, false, false), m;
    }
    var order := EnumerateLines(info.errorLines);
    var r := ProcessOne(fs, info, order, env, m);
    fs', step, m' := r.0, FileStep(key, info, true, r.1), r.2;
    assert (fs', step.modified, m') == ProcessOne(fs, info, order, env, m);
  }

  /**
   * The loop over `errorFiles.values()`: skip missing files, process the
   * rest. A file that changed holds what a step that modified it wrote.
   */
  method ProcessFiles(fs: FileSystem, errors: map<string, ErrorInfo>, env: Env, m: CompilationMetrics)
    returns (fs': FileSystem, steps: seq<FileStep>, m': CompilationMetrics)
    ensures fs'.Keys == fs.Keys
    ensures CoversErrors(steps, errors, fs.Keys)
    ensures Changes(fs, fs', steps, env)
    ensures Threaded(fs, m, steps, env, fs', m')
    ensures m'.modifiedFiles == m.modifiedFiles + StepNames(steps)
    ensures KeepsRunFields(m, m')
    ensures Valid(m) ==> Valid(m')
  {
    fs', steps, m' := fs, [], m;
    var done: set<string> := {};
    ghost var fss, ms := [fs], [m];
    while done != errors.Keys
      invariant fs'.Keys == fs.Keys
      invariant CoversSome(steps, errors, done, fs.Keys)
      invariant Tracks(m, m', steps)
      invariant Changes(fs, fs', steps, env)
      invariant Progress(fss, ms, steps, env, fs, m, fs', m')
      decreases |errors.Keys - done|
    {
      var step;
      fs', step, m' := ProcessNext(fs, fs', errors, done, steps, env, m, m', fss, ms);
      fss, ms := fss + [fs'], ms + [m'];
      steps := steps + [step];
      done := done + {step.key};
    }
    CoversAll(steps, errors, fs.Keys);
    ThreadedBy(fss, ms, steps, env, fs, m, fs', m');
  }

  /** One turn of the loop over the entries: some entry not yet done, processed. */
  method ProcessNext(fs: FileSystem, fs1: FileSystem, errors: map<string, ErrorInfo>, done: set<string>,
                     steps: seq<FileStep>, env: Env, m: CompilationMetrics, m1: CompilationMetrics,
                     ghost fss: seq<FileSystem>, ghost ms: seq<CompilationMetrics>)
    returns (fs2: FileSystem, step: FileStep, m2: CompilationMetrics)
    requires done != errors.Keys && fs1.Keys == fs.Keys
    requires CoversSome(steps, errors, done, fs.Keys) && Tracks(m, m1, steps) && Changes(fs, fs1, steps, env)
    requires Progress(fss, ms, steps, env, fs, m, fs1, m1)
    ensures step.key in errors.Keys - done && fs2.Keys == fs.Keys
    ensures CoversSome(steps + [step], errors, done + {step.key}, fs.Keys)
    ensures Tracks(m, m2, steps + [step]) && Changes(fs, fs2, steps + [step], env)
    ensures Progress(fss + [fs2], ms + [m2], steps + [step], env, fs, m, fs2, m2)
  {
    ghost var w := AnyOf(errors.Keys - done);
    assert w in errors.Keys - done;
    var key :| key in errors.Keys - done;
    fs2, step, m2 := ProcessEntry(fs1, key, errors[key], env, m1);
    FilesStep(fs, fs1, fs2, errors, done, steps, step, env, m, m1, m2);
    ThroughAppend(fss, ms, steps, env, step, fs2, m2);
    assert Progress(fss + [fs2], ms + [m2], steps + [step], env, fs, m, fs2, m2);
  }

  /** One more step: a file it changed was written by it, any other change is as before. */
  lemma ChangesStep(fs: FileSystem, fs1: FileSystem, fs2: FileSystem, steps: seq<FileStep>, step: FileStep, env: Env)
    requires fs1.Keys == fs.Keys && fs2.Keys == fs.Keys
    requires Changes(fs, fs1, steps, env)
    requires OnlyWrote(fs1, fs2, step, env)
    ensures Changes(fs, fs2, steps + [step], env)
  {
    var all := steps + [step];
    forall p | p in fs && p in fs2 && fs2[p] != fs[p]
      ensures exists k :: 0 <= k < |all| && all[k].info.filePath == p && WrittenBy(all[k], fs2[p], env)
    {
      if fs2[p] != fs1[p] {
        assert all[|steps|] == step;
      } else {
        var k :| 0 <= k < |steps| && steps[k].info.filePath == p && WrittenBy(steps[k], fs1[p], env);
        assert all[k] == steps[k];
      }
    }
  }

  /** The invariant of the loop over the entries survives one more entry. */
  lemma FilesStep(fs: FileSystem, fs1: FileSystem, fs2: FileSystem, errors: map<string, ErrorInfo>, done: set<string>,
                  steps: seq<FileStep>, step: FileStep, env: Env, m: CompilationMetrics, m1: CompilationMetrics,
                  m2: CompilationMetrics)
    requires fs1.Keys == fs.Keys && fs2.Keys == fs.Keys
    requires CoversSome(steps, errors, done, fs.Keys) && Tracks(m, m1, steps) && Changes(fs, fs1, steps, env)
    requires step.key in errors && step.key !in done && step.info == errors[step.key]
    requires (step.found <==> step.info.filePath in fs) && (!step.found ==> !step.modified)
    requires m2.modifiedFiles == m1.modifiedFiles + (if step.modified then {step.info.fileName} else {})
    requires KeepsRunFields(m1, m2) && (Valid(m1) ==> Valid(m2))
    requires OnlyWrote(fs1, fs2, step, env)
    ensures CoversSome(steps + [step], errors, done + {step.key}, fs.Keys)
    ensures Tracks(m, m2, steps + [step]) && Changes(fs, fs2, steps + [step], env)
  {
    ChangesStep(fs, fs1, fs2, steps, step, env);
    TracksStep(m, m1, m2, steps, step);
    CoversSomeAppend(steps, errors, done, fs.Keys, step);
  }

  lemma RoundNamesAppend(rounds: seq<Round>, round: Round)
    ensures RoundNames(rounds + [round]) ==
      RoundNames(rounds) + (if round.Repaired? then StepNames(round.steps) else {})
  {
    assert (rounds + [round])[..|rounds|] == rounds;
  }

  /** The run's metrics after `rounds`: totals as set at the start and the modified names of every round. */
  ghost predicate RunTracks(m0: CompilationMetrics, m: CompilationMetrics, rounds: seq<Round>, totalFiles: int, totalLines: int) {
    && m.totalFiles == totalFiles && m.totalLines == totalLines
    && m.modifiedFiles == m0.modifiedFiles + RoundNames(rounds)
  }

  /** Every round that repaired files covered the whole non-empty error map. */
  ghost predicate RoundsWellFormed(rounds: seq<Round>, paths: set<string>) {
    forall k :: 0 <= k < |rounds| && rounds[k].Repaired? ==>
      |rounds[k].errors| > 0 && CoversErrors(rounds[k].steps, rounds[k].errors, paths)
  }

  /** Every round repaired files and modified at least one: the loop went on after each. */
  ghost predicate Continued(rounds: seq<Round>) {
    forall k :: 0 <= k < |rounds| ==> rounds[k].Repaired? && AnyModified(rounds[k].steps)
  }

  lemma RoundTracks(m0: CompilationMetrics, m1: CompilationMetrics, m2: CompilationMetrics, rounds: seq<Round>,
                    round: Round, totalFiles: int, totalLines: int)
    requires RunTracks(m0, m1, rounds, totalFiles, totalLines)
    requires m2.modifiedFiles == m1.modifiedFiles + (if round.Repaired? then StepNames(round.steps) else {})
    requires m2.totalFiles == m1.totalFiles && m2.totalLines == m1.totalLines
    ensures RunTracks(m0, m2, rounds + [round], totalFiles, totalLines)
  {
    RoundNamesAppend(rounds, round);
  }

  lemma RoundsAppend(rounds: seq<Round>, round: Round, paths: set<string>)
    requires Continued(rounds) && RoundsWellFormed(rounds, paths)
    requires round.Repaired? ==> |round.errors| > 0 && CoversErrors(round.steps, round.errors, paths)
    ensures RoundsWellFormed(rounds + [round], paths)
    ensures (rounds + [round])[..|rounds|] == rounds
    ensures round.Repaired? && AnyModified(round.steps) ==> Continued(rounds + [round])
  {
    var all := rounds + [round];
    assert all[..|rounds|] == rounds;
    assert forall k :: 0 <= k < |rounds| ==> all[k] == rounds[k];
  }

  /**
   * A round on the project `before`, leaving `after`: it saw what Maven
   * reported for `before`, a build that failed or was clean changed nothing,
   * and a repair changed only files its steps wrote.
   */
  ghost predicate RoundOn(before: FileSystem, after: FileSystem, round: Round, env: Env, roots: SourceRoots) {
    var compiled := RunMavenCompileAndExtractErrors(env.mavenOutput(before), roots);
    && after.Keys == before.Keys
    && (round.Clean? ==> compiled == Success(map[]))
    && (round.BuildFailed? ==> compiled == Failure(round.failure))
    && (round.Repaired? ==> compiled == Success(round.errors) && Changes(before, after, round.steps, env))
    && (round.Repaired? ==> FilesThreaded(before, round.steps, env, after))
    && (!round.Repaired? ==> after == before)
  }

  /** One iteration of the loop body after `setIterationCount`: compile, and repair when there are errors. */
  method Iterate(fs: FileSystem, roots: SourceRoots, env: Env, m: CompilationMetrics)
    returns (round: Round, fs': FileSystem, m': CompilationMetrics)
    ensures fs'.Keys == fs.Keys
    ensures round.Repaired? ==> RunMavenCompileAndExtractErrors(env.mavenOutput(fs), roots) == Success(round.errors)
    ensures RoundOn(fs, fs', round, env, roots)
    ensures round.Clean? <==> RunMavenCompileAndExtractErrors(env.mavenOutput(fs), roots) == Success(map[])
    ensures round.BuildFailed? <==> RunMavenCompileAndExtractErrors(env.mavenOutput(fs), roots).Failure?
    ensures round.BuildFailed? ==> RunMavenCompileAndExtractErrors(env.mavenOutput(fs), roots).error == round.failure
    ensures !round.Repaired? ==> fs' == fs && m' == m
    ensures round.Repaired? ==> |round.errors| > 0 && CoversErrors(round.steps, round.errors, fs.Keys)
    ensures m'.modifiedFiles == m.modifiedFiles + (if round.Repaired? then StepNames(round.steps) else {})
    ensures KeepsRunFields(m, m')
  {
    var compiled := RunMavenCompileAndExtractErrors(env.mavenOutput(fs), roots);
    if compiled.Failure? {
      return BuildFailed(compiled.error), fs, m;
    }
    var errors := compiled.value;
    if |errors| == 0 {
      assert errors == map[];
      return Clean, fs, m;
    }
    var steps;
    fs', steps, m' := ProcessFiles(fs, errors, env, m);
    round := Repaired(errors, steps);
  }

  /** `states[k]` is the project before round `k`, and `states[k + 1]` what that round left. */
  ghost predicate StatesFollow(states: seq<FileSystem>, rounds: seq<Round>, env: Env, roots: SourceRoots) {
    && |states| == |rounds| + 1
    && forall k :: 0 <= k < |rounds| ==> RoundOn(states[k], states[k + 1], rounds[k], env, roots)
  }

  lemma StatesAppend(states: seq<FileSystem>, rounds: seq<Round>, fs': FileSystem, round: Round, env: Env, roots: SourceRoots)
    requires StatesFollow(states, rounds, env, roots)
    requires RoundOn(states[|rounds|], fs', round, env, roots)
    ensures StatesFollow(states + [fs'], rounds + [round], env, roots)
    ensures (states + [fs'])[0] == states[0] && (states + [fs'])[|rounds| + 1] == fs'
  {
    var st, rs := states + [fs'], rounds + [round];
    forall k | 0 <= k < |rs| ensures RoundOn(st[k], st[k + 1], rs[k], env, roots) {
      if k < |rounds| {
        assert st[k] == states[k] && st[k + 1] == states[k + 1] && rs[k] == rounds[k];
      }
    }
  }

  /** How a round ends the loop, if it does: an exception, a clean build, or no file modified. */
  function StatusAfter(round: Round): Status {
    match round
    case BuildFailed(e) => Aborted(e)
    case Clean => Compiled
    case Repaired(_, steps) => if AnyModified(steps) then OutOfIterations else Stuck
  }

  /**
   * What `run()` guarantees: between one and `MaxIterations` rounds, each
   * counted; metrics tracked as in `RunTracks`; no file created or removed;
   * every round but the last repaired and modified some file; the status
   * says how the last round ended; a reported success means the final
   * project compiles without errors; and each round worked on the project
   * the previous one left, starting from `fs0` and ending in `r.fs`.
   */
  ghost predicate Outcome(r: RunResult, fs0: FileSystem, roots: SourceRoots, totalLines: int, env: Env, m0: CompilationMetrics) {
    && 1 <= |r.rounds| <= MaxIterations
    && StatesFollow(r.states, r.rounds, env, roots) && r.states[0] == fs0 && r.states[|r.rounds|] == r.fs
    && r.metrics.iterationCount == |r.rounds|
    && RunTracks(m0, r.metrics, r.rounds, CountAllJavaFiles(roots), totalLines)
    && r.fs.Keys == fs0.Keys
    && Continued(r.rounds[..|r.rounds| - 1]) && RoundsWellFormed(r.rounds, fs0.Keys)
    && (r.status == Compiled <==> r.rounds[|r.rounds| - 1].Clean?)
    && (r.status.Aborted? <==> r.rounds[|r.rounds| - 1].BuildFailed?)
    && (r.status.Aborted? ==> r.rounds[|r.rounds| - 1].failure == r.status.failure)
    && (r.status == Stuck <==> r.rounds[|r.rounds| - 1].Repaired? && !AnyModified(r.rounds[|r.rounds| - 1].steps))
    && (r.status == OutOfIterations ==> |r.rounds| == MaxIterations)
    && (r.status == Compiled ==> RunMavenCompileAndExtractErrors(env.mavenOutput(r.fs), roots) == Success(map[]))
  }

  /** The loop stops after a round that ends it. */
  lemma EndsWith(rounds: seq<Round>, states: seq<FileSystem>, round: Round, fs: FileSystem, fs': FileSystem,
                 m': CompilationMetrics, fs0: FileSystem, roots: SourceRoots, totalLines: int, env: Env, m0: CompilationMetrics)
    requires |rounds| < MaxIterations && m'.iterationCount == |rounds| + 1
    requires StatesFollow(states, rounds + [round], env, roots) && states[0] == fs0 && states[|rounds| + 1] == fs'
    requires RunTracks(m0, m', rounds + [round], CountAllJavaFiles(roots), totalLines)
    requires fs.Keys == fs0.Keys && fs'.Keys == fs.Keys
    requires Continued(rounds) && RoundsWellFormed(rounds + [round], fs0.Keys)
    requires round.Clean? ==> RunMavenCompileAndExtractErrors(env.mavenOutput(fs), roots) == Success(map[])
    requires !round.Repaired? ==> fs' == fs
    requires StatusAfter(round) != OutOfIterations
    ensures Outcome(RunResult(StatusAfter(round), rounds + [round], states, fs', m'), fs0, roots, totalLines, env, m0)
  {
    assert (rounds + [round])[..|rounds|] == rounds;
  }

  /** The loop runs out after `MaxIterations` rounds that each modified some file. */
  lemma EndsOut(rounds: seq<Round>, states: seq<FileSystem>, fs: FileSystem, m: CompilationMetrics,
                fs0: FileSystem, roots: SourceRoots, totalLines: int, env: Env, m0: CompilationMetrics)
    requires |rounds| == MaxIterations && m.iterationCount == |rounds|
    requires StatesFollow(states, rounds, env, roots) && states[0] == fs0 && states[|rounds|] == fs
    requires RunTracks(m0, m, rounds, CountAllJavaFiles(roots), totalLines)
    requires fs.Keys == fs0.Keys
    requires Continued(rounds) && RoundsWellFormed(rounds, fs0.Keys)
    ensures Outcome(RunResult(OutOfIterations, rounds, states, fs, m), fs0, roots, totalLines, env, m0)
  {
    assert rounds[|rounds| - 1].Repaired? && AnyModified(rounds[|rounds| - 1].steps);
  }

  /** `run()`, from a fresh project state to the end of the loop. */
  method Run(fs0: FileSystem, roots: SourceRoots, totalLines: int, env: Env, m0: CompilationMetrics)
    returns (r: RunResult)
    ensures Outcome(r, fs0, roots, totalLines, env, m0)
  {
    var totalFiles := CountAllJavaFiles(roots);
    var m := SetTotalLines(SetTotalFiles(m0, totalFiles), totalLines);
    var fs := fs0;
    var rounds: seq<Round> := [];
    var states: seq<FileSystem> := [fs0];
    var iteration := 1;
    while iteration <= MaxIterations
      invariant 1 <= iteration <= MaxIterations + 1
      invariant |rounds| == iteration - 1
      invariant iteration > 1 ==> m.iterationCount == |rounds|
      invariant RunTracks(m0, m, rounds, totalFiles, totalLines)
      invariant fs.Keys == fs0.Keys
      invariant StatesFollow(states, rounds, env, roots) && states[0] == fs0 && states[|rounds|] == fs
      invariant Continued(rounds) && RoundsWellFormed(rounds, fs0.Keys)
      decreases MaxIterations - iteration
    {
      var counted := SetIterationCount(m, iteration);
      var round, fs', m' := Iterate(fs, roots, env, counted);
      RoundTracks(m0, m, m', rounds, round, totalFiles, totalLines);
      RoundsAppend(rounds, round, fs0.Keys);
      StatesAppend(states, rounds, fs', round, env, roots);
      if StatusAfter(round) != OutOfIterations {
        EndsWith(rounds, states + [fs'], round, fs, fs', m', fs0, roots, totalLines, env, m0);
        return RunResult(StatusAfter(round), rounds + [round], states + [fs'], fs', m');
      }
      rounds, states, fs, m := rounds + [round], states + [fs'], fs', m';
      iteration := iteration + 1;
    }
    EndsOut(rounds, states, fs, m, fs0, roots, totalLines, env, m0);
    return RunResult(OutOfIterations, rounds, states, fs, m);
  }
}

=== FILE: completion.dfy ===
/**
 * `fixIncompleteMethods`: after the deletions, every method with a non-void
 * return type is visited in model order. A method without a body, with an
 * empty body, with no `return` anywhere in its body, or with a top-level
 * statement after a top-level `return` gets a default `return` appended (a
 * body-less method first gets a fresh, position-less block). Each addition is
 * counted under "CtReturn (added)".
 *
 * The methods are collected before any is changed, and an addition only ever
 * appends a position-less `return` holding a literal to the method's own
 * block, so every method is judged on its body as it was before the sweep.
 */
module Completion {
  import opened Wrappers
  import opened Syntax
  import opened DefaultValue
  import opened Metrics

  /** The histogram key of a synthesised `return`. */
  const AddedReturn: string := "CtReturn (added)"

  /** A top-level statement follows a top-level `return`. */
  predicate DeadCode(stmts: seq<Element>) {
    exists i, j :: 0 <= i < j < |stmts| && IsReturn(stmts[i]) && !IsReturn(stmts[j])
  }

  /** `hasUnreachableCodeAfterReturn(block)`: one pass over the top-level statements. */
  method HasUnreachableCodeAfterReturn(stmts: seq<Element>) returns (b: bool)
    ensures b <==> DeadCode(stmts)
  {
    var foundReturn := false;
    var k := 0;
    while k < |stmts|
      invariant 0 <= k <= |stmts|
      invariant foundReturn <==> exists i :: 0 <= i < k && IsReturn(stmts[i])
      invariant forall i, j :: 0 <= i < j < k ==> !(IsReturn(stmts[i]) && !IsReturn(stmts[j]))
    {
      if IsReturn(stmts[k]) {
        foundReturn := true;
      } else if foundReturn {
        return true;
      }
      k := k + 1;
    }
    return false;
  }

  /** The statements of a method body; a missing body has none. */
  function Stmts(body: Option<Block>): seq<Element> {
    if body.Some? then body.value.stmts else []
  }

  /** The sweep adds a default `return` to this method. */
  predicate NeedsFix(m: Element) {
    && m.Method?
    && NonVoid(m.returnType)
    && (|| m.body.None?
        || m.body.value.stmts == []
        || !ContainsReturn(m.body.value.stmts)
        || DeadCode(m.body.value.stmts))
  }

  /** The forest after the sweep: each element swept in place. */
  function SweptSeq(es: seq<Element>): (r: seq<Element>)
    ensures |r| == |es|
    ensures forall k :: 0 <= k < |es| ==> r[k] == SweptOf(es[k])
  {
    if es == [] then [] else [SweptOf(es[0])] + SweptSeq(es[1..])
  }

  function SweptOf(e: Element): (r: Element)
    ensures Kind(r) == Kind(e) && r.pos == e.pos
    ensures IsReturn(r) <==> IsReturn(e)
    ensures e.Method? ==> r.Method? && r.returnType == e.returnType
    ensures e.Method? ==> |Stmts(r.body)| == |Stmts(e.body)| + (if NeedsFix(e) then 1 else 0)
    ensures NeedsFix(e) ==> r.body.Some? && r.body.value.stmts[|r.body.value.stmts| - 1] == DefaultReturn(e.returnType.value)
    ensures e.Method? && !NeedsFix(e) ==> r.body.Some? == e.body.Some?
    ensures e.Method? ==> r.header == SweptSeq(e.header)
    ensures e.Method? && e.body.Some? ==>
      && r.body.Some? && r.body.value.pos == e.body.value.pos
      && |e.body.value.stmts| <= |r.body.value.stmts|
      && r.body.value.stmts[..|e.body.value.stmts|] == SweptSeq(e.body.value.stmts)
    ensures e.Node? ==> r.Node? && r.children == SweptSeq(e.children)
    ensures e.Lit? ==> r == e
  {
    match e
    case Node(kind, pos, children) => Node(kind, pos, SweptSeq(children))
    case Lit(_, _) => e
    case Method(pos, returnType, header, body) =>
      var inner := SweptBody(body);
      if NeedsFix(e) then Method(pos, returnType, SweptSeq(header), Some(Completed(inner, returnType.value)))
      else Method(pos, returnType, SweptSeq(header), inner)
  }

  /** The body with the methods nested in it swept. */
  function SweptBody(body: Option<Block>): (r: Option<Block>)
    ensures r.Some? == body.Some? && |Stmts(r)| == |Stmts(body)|
    ensures body.Some? ==> r.value.pos == body.value.pos
  {
    match body
    case None => None
    case Some(b) => Some(Block(b.pos, SweptSeq(b.stmts)))
  }

  /** `body.addStatement(return <default>)`, creating a position-less block first when there is none. */
  function Completed(body: Option<Block>, returnType: string): (r: Block)
    ensures |r.stmts| == |Stmts(body)| + 1
    ensures r.stmts[..|r.stmts| - 1] == Stmts(body) && r.stmts[|r.stmts| - 1] == DefaultReturn(returnType)
  {
    match body
    case None => Block(None, [DefaultReturn(returnType)])
    case Some(b) => Block(b.pos, b.stmts + [DefaultReturn(returnType)])
  }

  /** The number of methods in `ms` that the sweep changes. */
  function FixCount(ms: seq<Element>): nat {
    if ms == [] then 0 else (if NeedsFix(ms[0]) then 1 else 0) + FixCount(ms[1..])
  }

  lemma {:induction false} FixCountPositive(ms: seq<Element>)
    ensures FixCount(ms) > 0 <==> exists k :: 0 <= k < |ms| && NeedsFix(ms[k])
  {
    if ms != [] {
      FixCountPositive(ms[1..]);
      if exists k :: 0 <= k < |ms| && NeedsFix(ms[k]) {
        var k :| 0 <= k < |ms| && NeedsFix(ms[k]);
        if k > 0 { assert ms[1..][k - 1] == ms[k]; }
      }
      if exists k :: 0 <= k < |ms[1..]| && NeedsFix(ms[1..][k]) {
        var k :| 0 <= k < |ms[1..]| && NeedsFix(ms[1..][k]);
        assert ms[k + 1] == ms[1..][k];
      }
    }
  }

  /** The outcome of the sweep: the types, the metrics, and whether anything changed. */
  datatype Sweep = Sweep(types: seq<Element>, metrics: CompilationMetrics, modified: bool)

  /** `fixIncompleteMethods(launcher, model, metrics)` */
  function FixIncompleteMethods(types: seq<Element>, m: CompilationMetrics): (r: Sweep)
    ensures r.modified <==> exists k :: 0 <= k < |Methods(types)| && NeedsFix(Methods(types)[k])
    ensures r.metrics.deletedElements == m.deletedElements + FixCount(Methods(types))
    ensures CountOf(r.metrics, AddedReturn) == CountOf(m, AddedReturn) + FixCount(Methods(types))
    ensures forall u :: u != AddedReturn ==> CountOf(r.metrics, u) == CountOf(m, u)
    ensures r.metrics.(deletedElements := m.deletedElements, deletedElementsByType := m.deletedElementsByType) == m
    ensures Valid(m) ==> Valid(r.metrics)
    ensures |r.types| == |types|
    ensures r.types == SweptSeq(types)
  {
    var n := FixCount(Methods(types));
    FixCountPositive(Methods(types));
    Sweep(SweptSeq(types), IncrementTimes(m, AddedReturn, n), n > 0)
  }

  // ---------------------------------------------------------------------------
  // The sweep and the method listing

  /** `ms2` lists the swept versions of the methods of `ms`, in the same order. */
  ghost predicate SweptList(ms: seq<Element>, ms2: seq<Element>) {
    |ms2| == |ms| && forall k :: 0 <= k < |ms| ==> ms2[k] == SweptOf(ms[k])
  }

  lemma SweptListAppend(a: seq<Element>, a2: seq<Element>, b: seq<Element>, b2: seq<Element>)
    requires SweptList(a, a2) && SweptList(b, b2)
    ensures SweptList(a + b, a2 + b2)
  {
    forall k | 0 <= k < |a + b| ensures (a2 + b2)[k] == SweptOf((a + b)[k]) {
      if k < |a| {
        assert (a2 + b2)[k] == a2[k] && (a + b)[k] == a[k];
      } else {
        assert (a2 + b2)[k] == b2[k - |a|] && (a + b)[k] == b[k - |a|];
      }
    }
  }

  /** Sweeping commutes with listing the methods: the swept forest's methods are the swept methods. */
  lemma {:induction false} MethodsSwept(es: seq<Element>)
    ensures SweptList(Methods(es), Methods(SweptSeq(es)))
  {
    if es != [] {
      var r := SweptSeq(es);
      assert r[0] == SweptOf(es[0]) && r[1..] == SweptSeq(es[1..]);
      MethodsOfSwept(es[0]);
      MethodsSwept(es[1..]);
      SweptListAppend(MethodsOf(es[0]), MethodsOf(r[0]), Methods(es[1..]), Methods(r[1..]));
    }
  }

  lemma {:induction false} MethodsOfSwept(e: Element)
    ensures SweptList(MethodsOf(e), MethodsOf(SweptOf(e)))
  {
    match e
    case Node(_, _, children) => MethodsSwept(children);
    case Lit(_, _) =>
    case Method(_, _, header, body) =>
      MethodsSwept(header);
      var r := SweptOf(e);
      BodyMethodsSwept(e, r);
      SweptListAppend([e], [r], Methods(header), Methods(r.header));
      SweptListAppend([e] + Methods(header), [r] + Methods(r.header), BodyMethods(body), BodyMethods(r.body));
  }

  /** The body of a swept method lists the swept versions of the body's methods; an added `return` adds none. */
  lemma {:induction false} BodyMethodsSwept(e: Element, r: Element)
    requires e.Method? && r == SweptOf(e)
    ensures r.header == SweptSeq(e.header)
    ensures SweptList(BodyMethods(e.body), BodyMethods(r.body))
    decreases e, 0
  {
    var inner := SweptBody(e.body);
    if e.body.Some? {
      MethodsSwept(e.body.value.stmts);
    }
    assert SweptList(BodyMethods(e.body), BodyMethods(inner));
    if NeedsFix(e) {
      var ret := DefaultReturn(e.returnType.value);
      MethodsAppend(Stmts(inner), [ret]);
      assert Completed(inner, e.returnType.value).stmts == Stmts(inner) + [ret];
    }
  }

  // ---------------------------------------------------------------------------
  // What the sweep guarantees, and what a second sweep does

  /** Every method with a non-void return type has a body holding a `return`. */
  ghost predicate AllComplete(es: seq<Element>) {
    forall k :: 0 <= k < |Methods(es)| && Methods(es)[k].Method? && NonVoid(Methods(es)[k].returnType) ==>
      Methods(es)[k].body.Some? && ContainsReturn(Methods(es)[k].body.value.stmts)
  }

  /** The sweep only adds: a `return` anywhere in a forest is still there afterwards. */
  lemma {:induction false} SweptKeepsReturns(es: seq<Element>)
    requires ContainsReturn(es)
    ensures ContainsReturn(SweptSeq(es))
  {
    var r := SweptSeq(es);
    assert r[0] == SweptOf(es[0]) && r[1..] == SweptSeq(es[1..]);
    if ContainsReturnOf(es[0]) {
      SweptOfKeepsReturns(es[0]);
    } else {
      SweptKeepsReturns(es[1..]);
    }
  }

  lemma {:induction false} SweptOfKeepsReturns(e: Element)
    requires ContainsReturnOf(e)
    ensures ContainsReturnOf(SweptOf(e))
  {
    match e
    case Node(_, _, children) =>
      if !IsReturn(e) {
        SweptKeepsReturns(children);
      }
    case Lit(_, _) =>
    case Method(_, _, header, body) =>
      var r := SweptOf(e);
      if ContainsReturn(header) {
        BodyMethodsSwept(e, r);
        SweptKeepsReturns(header);
      } else {
        SweptKeepsReturns(body.value.stmts);
        if NeedsFix(e) {
          ContainsReturnAppend(SweptSeq(body.value.stmts), [DefaultReturn(e.returnType.value)]);
          assert r.body.value.stmts == SweptSeq(body.value.stmts) + [DefaultReturn(e.returnType.value)];
        }
      }
  }

  /** A swept method with a non-void return type has a body holding a `return`. */
  lemma SweptMethodComplete(m: Element)
    requires m.Method? && NonVoid(m.returnType)
    ensures SweptOf(m).body.Some? && ContainsReturn(SweptOf(m).body.value.stmts)
  {
    var r := SweptOf(m);
    if NeedsFix(m) {
      var s := r.body.value.stmts;
      var ret := s[|s| - 1];
      assert s == s[..|s| - 1] + [ret];
      assert ContainsReturnOf(ret);
      assert ContainsReturn([ret]);
      ContainsReturnAppend(s[..|s| - 1], [ret]);
    } else {
      SweptKeepsReturns(m.body.value.stmts);
    }
  }

  /** After the sweep no method with a non-void return type lacks a body or a `return`. */
  lemma SweepCompletes(es: seq<Element>)
    ensures AllComplete(SweptSeq(es))
  {
    MethodsSwept(es);
    MethodsAreMethods(es);
    var ms, ms2 := Methods(es), Methods(SweptSeq(es));
    forall k | 0 <= k < |ms2| && ms2[k].Method? && NonVoid(ms2[k].returnType)
      ensures ms2[k].body.Some? && ContainsReturn(ms2[k].body.value.stmts)
    {
      assert ms2[k] == SweptOf(ms[k]);
      SweptMethodComplete(ms[k]);
    }
  }

  /** Appending a `return` neither creates nor removes dead code. */
  lemma DeadCodeAppendReturn(stmts: seq<Element>, ret: Element)
    requires IsReturn(ret)
    ensures DeadCode(stmts + [ret]) <==> DeadCode(stmts)
  {
    var s := stmts + [ret];
    if DeadCode(s) {
      var i, j :| 0 <= i < j < |s| && IsReturn(s[i]) && !IsReturn(s[j]);
      assert j < |stmts|;
      assert stmts[i] == s[i] && stmts[j] == s[j];
    }
    if DeadCode(stmts) {
      var i, j :| 0 <= i < j < |stmts| && IsReturn(stmts[i]) && !IsReturn(stmts[j]);
      assert stmts[i] == s[i] && stmts[j] == s[j];
    }
  }

  /** Sweeping keeps every top-level statement's kind, so it keeps dead code. */
  lemma DeadCodeSwept(stmts: seq<Element>)
    ensures DeadCode(SweptSeq(stmts)) <==> DeadCode(stmts)
  {
    var s := SweptSeq(stmts);
    if DeadCode(s) {
      var i, j :| 0 <= i < j < |s| && IsReturn(s[i]) && !IsReturn(s[j]);
      assert IsReturn(stmts[i]) && !IsReturn(stmts[j]);
    }
    if DeadCode(stmts) {
      var i, j :| 0 <= i < j < |stmts| && IsReturn(stmts[i]) && !IsReturn(stmts[j]);
      assert IsReturn(s[i]) && !IsReturn(s[j]);
    }
  }

  /** A method with a non-void return type whose body has a statement after a `return`. */
  predicate DeadCodeMethod(m: Element) {
    m.Method? && NonVoid(m.returnType) && m.body.Some? && DeadCode(m.body.value.stmts)
  }

  /** A swept method is flagged again exactly when it had dead code: the added `return` does not cure it. */
  lemma SweptNeedsFix(m: Element)
    ensures NeedsFix(SweptOf(m)) <==> DeadCodeMethod(m)
  {
    if m.Method? && NonVoid(m.returnType) {
      var r := SweptOf(m);
      SweptMethodComplete(m);
      var s := r.body.value.stmts;
      if NeedsFix(m) {
        var ret := s[|s| - 1];
        assert s == s[..|s| - 1] + [ret];
        DeadCodeAppendReturn(s[..|s| - 1], ret);
        if m.body.Some? {
          DeadCodeSwept(m.body.value.stmts);
          assert s[..|s| - 1] == SweptSeq(m.body.value.stmts);
        } else {
          assert s[..|s| - 1] == [];
        }
      } else {
        DeadCodeSwept(m.body.value.stmts);
      }
    }
  }

  function DeadCodeCount(ms: seq<Element>): nat {
    if ms == [] then 0 else (if DeadCodeMethod(ms[0]) then 1 else 0) + DeadCodeCount(ms[1..])
  }

  lemma {:induction false} FixCountSwept(ms: seq<Element>, ms2: seq<Element>)
    requires SweptList(ms, ms2)
    ensures FixCount(ms2) == DeadCodeCount(ms)
  {
    if ms != [] {
      SweptNeedsFix(ms[0]);
      assert SweptList(ms[1..], ms2[1..]) by {
        forall k | 0 <= k < |ms[1..]| ensures ms2[1..][k] == SweptOf(ms[1..][k]) {
          assert ms2[1..][k] == ms2[k + 1] && ms[1..][k] == ms[k + 1];
        }
      }
      FixCountSwept(ms[1..], ms2[1..]);
    }
  }

  /**
   * A second sweep adds one more `return` to every method with dead code and
   * changes nothing else, so the sweep is idempotent exactly when no method
   * has dead code.
   */
  lemma SecondSweep(types: seq<Element>, m: CompilationMetrics)
    ensures FixCount(Methods(SweptSeq(types))) == DeadCodeCount(Methods(types))
    ensures !FixIncompleteMethods(SweptSeq(types), m).modified <==> DeadCodeCount(Methods(types)) == 0
  {
    MethodsSwept(types);
    FixCountSwept(Methods(types), Methods(SweptSeq(types)));
    FixCountPositive(Methods(SweptSeq(types)));
  }

  /** `int f() { return 0; g(); }` gains a second `return` on every sweep. */
  lemma DeadCodeNotCured()
    ensures var m := Method(Some(Pos(1, 1)), Some("int"), [],
                            Some(Block(Some(Pos(1, 1)), [Node(ReturnKind, Some(Pos(1, 1)), []),
                                                         Node("CtInvocationImpl", Some(Pos(1, 1)), [])])));
      NeedsFix(m) && NeedsFix(SweptOf(m)) && SweptOf(SweptOf(m)) != SweptOf(m)
  {
    var m := Method(Some(Pos(1, 1)), Some("int"), [],
                    Some(Block(Some(Pos(1, 1)), [Node(ReturnKind, Some(Pos(1, 1)), []),
                                                 Node("CtInvocationImpl", Some(Pos(1, 1)), [])])));
    assert DeadCodeMethod(m) by {
      assert IsReturn(m.body.value.stmts[0]) && !IsReturn(m.body.value.stmts[1]);
    }
    SweptNeedsFix(m);
    assert |Stmts(SweptOf(SweptOf(m)).body)| == |Stmts(SweptOf(m).body)| + 1;
  }

  /** A method without a body, such as an abstract or interface method, gets a body holding only the default `return`. */
  lemma AbstractMethodGetsBody(m: Element)
    requires m.Method? && NonVoid(m.returnType) && m.body.None?
    ensures SweptOf(m).body == Some(Block(None, [DefaultReturn(m.returnType.value)]))
  {
  }

  /** The sweep adds no positioned element: every line's targets are unchanged. */
  lemma {:induction false} SweepKeepsTargets(es: seq<Element>, line: int)
    ensures TargetKinds(SweptSeq(es), line) == TargetKinds(es, line)
    decreases es
  {
    if es != [] {
      var r := SweptSeq(es);
      assert r[0] == SweptOf(es[0]) && r[1..] == SweptSeq(es[1..]);
      SweptOfKeepsTargets(es[0], line);
      SweepKeepsTargets(es[1..], line);
    }
  }

  lemma {:induction false} SweptOfKeepsTargets(e: Element, line: int)
    ensures TargetKindsOf(SweptOf(e), line) == TargetKindsOf(e, line)
    decreases e, 1
  {
    match e
    case Node(_, _, children) => SweepKeepsTargets(children, line);
    case Lit(_, _) =>
    case Method(_, _, header, body) =>
      var r := SweptOf(e);
      BodyMethodsSwept(e, r);
      SweepKeepsTargets(header, line);
      SweptBodyKeepsTargets(e, r, line);
  }

  lemma {:induction false} SweptBodyKeepsTargets(e: Element, r: Element, line: int)
    requires e.Method? && r == SweptOf(e)
    ensures BodyTargetKinds(r.body, line) == BodyTargetKinds(e.body, line)
    decreases e, 0
  {
    var inner := SweptBody(e.body);
    if e.body.Some? {
      SweepKeepsTargets(e.body.value.stmts, line);
    }
    assert BodyTargetKinds(inner, line) == BodyTargetKinds(e.body, line);
    if NeedsFix(e) {
      assert r.body == Some(Completed(inner, e.returnType.value));
      CompletedKeepsTargets(inner, e.returnType.value, line);
    } else {
      assert r.body == inner;
    }
  }

  /** Appending the default `return` (in a new position-less block if need be) adds no target. */
  lemma CompletedKeepsTargets(body: Option<Block>, returnType: string, line: int)
    ensures BodyTargetKinds(Some(Completed(body, returnType)), line) == BodyTargetKinds(body, line)
  {
    var ret := DefaultReturn(returnType);
    TargetKindsAppend(Stmts(body), [ret], line);
    assert Completed(body, returnType).stmts == Stmts(body) + [ret];
  }
}

=== FILE: default_value.dfy ===
/**
 * `createDefaultValue`: the literal placed in a synthesised `return`, chosen
 * by the simple name of the unboxed return type, and what the Java compiler
 * accepts in a `return` of a method with a given return type.
 */
module DefaultValue {
  import opened Wrappers
  import opened Syntax

  /** The wrapper classes of the primitive types. */
  predicate IsBox(t: string) {
    t in {"Boolean", "Character", "Byte", "Short", "Integer", "Long", "Float", "Double"}
  }

  /** The wrapper class of a primitive type (section 5.1.7 of the Java Language Specification). */
  function BoxOf(p: string): string {
    match p
    case "boolean" => "Boolean"
    case "char" => "Character"
    case "byte" => "Byte"
    case "short" => "Short"
    case "int" => "Integer"
    case "long" => "Long"
    case "float" => "Float"
    case "double" => "Double"
    case _ => p
  }

  /** `CtTypeReference.unbox()` on a simple name: a wrapper class becomes its primitive. */
  function Unbox(typeName: string): string {
    match typeName
    case "Boolean" => "boolean"
    case "Character" => "char"
    case "Byte" => "byte"
    case "Short" => "short"
    case "Integer" => "int"
    case "Long" => "long"
    case "Float" => "float"
    case "Double" => "double"
    case _ => typeName
  }

  predicate IsNumericPrimitive(t: string) {
    t in {"byte", "short", "int", "long", "float", "double"}
  }

  predicate IsPrimitive(t: string) {
    t == "boolean" || t == "char" || IsNumericPrimitive(t)
  }

  /**
   * `createDefaultValue(launcher, returnType)`: false for boolean, '\0' for
   * char, 0 for every numeric primitive, each also through its wrapper, and
   * null for any other type.
   */
  function CreateDefaultValue(returnType: string): Literal {
    match Unbox(returnType)
    case "boolean" => BoolLit(false)
    case "char" => CharLit('\0')
    case "byte" => IntLit(0)
    case "short" => IntLit(0)
    case "int" => IntLit(0)
    case "long" => IntLit(0)
    case "float" => IntLit(0)
    case "double" => IntLit(0)
    case _ => NullLit
  }

  /** Unboxing maps a wrapper class to its primitive, whose wrapper it is, and leaves any other name alone. */
  lemma UnboxSpec(typeName: string)
    ensures IsBox(typeName) ==> IsPrimitive(Unbox(typeName)) && BoxOf(Unbox(typeName)) == typeName
    ensures !IsBox(typeName) ==> Unbox(typeName) == typeName
  {
  }

  /** The default is one of four literals, each chosen by exactly its types. */
  lemma CreateDefaultValueSpec(returnType: string)
    ensures CreateDefaultValue(returnType) == BoolLit(false) <==> returnType in {"boolean", "Boolean"}
    ensures CreateDefaultValue(returnType) == CharLit('\0') <==> returnType in {"char", "Character"}
    ensures CreateDefaultValue(returnType) == IntLit(0) <==>
      returnType in {"byte", "short", "int", "long", "float", "double", "Byte", "Short", "Integer", "Long", "Float", "Double"}
    ensures CreateDefaultValue(returnType) == NullLit <==> !IsPrimitive(returnType) && !IsBox(returnType)
    ensures CreateDefaultValue(returnType) in {BoolLit(false), CharLit('\0'), IntLit(0), NullLit}
  {
  }

  /** The synthesised `return <default>;`; neither it nor its literal has a source position. */
  function DefaultReturn(returnType: string): (r: Element)
    ensures IsReturn(r) && r.pos == None
    ensures Methods([r]) == []
    ensures forall line :: TargetKinds([r], line) == []
  {
    var lit := Lit(CreateDefaultValue(returnType), None);
    var r := Node(ReturnKind, None, [lit]);
    assert [r][1..] == [] && [lit][1..] == [];
    assert Methods([lit]) == MethodsOf(lit) + Methods([]) == [];
    assert Methods([r]) == MethodsOf(r) + Methods([]);
    forall line ensures TargetKinds([r], line) == [] {
      assert TargetKinds([lit], line) == TargetKindsOf(lit, line) + TargetKinds([], line) == [];
      assert TargetKinds([r], line) == TargetKindsOf(r, line) + TargetKinds([], line);
    }
    r
  }

  /**
   * Whether `return v;` compiles in a method whose return type has this simple
   * name, for the literals a default value can be: the part of assignment
   * conversion (section 5.2 of the Java Language Specification) made of
   * primitive widening, narrowing of an `int` constant to byte/short/char and
   * their boxes, boxing to the literal's own box, and `null` for any reference
   * type. Two further conversions of that section are not included: a `char`
   * constant narrowed to byte/short, and boxing followed by widening to a
   * supertype such as `Object` or `Number`. So a `false` is not shown to be
   * acceptable as an `Object`, which the default never needs, since it is
   * `null` there.
   */
  predicate Accepts(returnType: string, v: Literal) {
    match v
    case BoolLit(_) => returnType == "boolean" || returnType == "Boolean"
    case CharLit(_) =>
      returnType in {"char", "Character", "int", "long", "float", "double"}
    case IntLit(_) =>
      returnType in {"byte", "short", "char", "int", "long", "float", "double", "Byte", "Short", "Character", "Integer"}
    case NullLit => !IsPrimitive(returnType) && returnType != "void"
  }

  /** The default value compiles for every non-void return type except `Long`, `Float` and `Double`. */
  lemma DefaultValueAccepted(returnType: string)
    requires returnType != "void"
    requires returnType !in {"Long", "Float", "Double"}
    ensures Accepts(returnType, CreateDefaultValue(returnType))
  {
  }

  /** `Long` unboxes to `long`, so the default is the `int` literal 0, which `Long` does not accept. */
  lemma BoxedLongRejectsDefault()
    ensures CreateDefaultValue("Long") == IntLit(0)
    ensures !Accepts("Long", CreateDefaultValue("Long"))
  {
  }

  /** The default is `null` exactly for types that are neither primitives nor their boxes. */
  lemma NullDefaultIffReference(returnType: string)
    ensures CreateDefaultValue(returnType) == NullLit <==> !IsPrimitive(Unbox(returnType))
  {
  }
}

=== FILE: deletion.dfy ===
/**
 * The deletion step of `processErrorFile` for one error line: every element
 * whose valid position starts on the line is deleted together with its
 * subtree, and each of them (nested ones included) is counted under its
 * runtime class name.
 *
 * `getElements` collects the targets before any is deleted, so a target
 * nested inside another target is still counted although deleting its
 * ancestor already detached it. Deleting a method's body block leaves the
 * method without a body.
 */
module Deletion {
  import opened Wrappers
  import opened Syntax

  /**
   * The number of elements a deletion on `line` detaches: the whole subtree of
   * each outermost element starting on the line (a body block on the line
   * takes its statements along), and nothing else.
   */
  function CoveredSize(es: seq<Element>, line: int): nat {
    if es == [] then 0 else CoveredSizeOf(es[0], line) + CoveredSize(es[1..], line)
  }

  function CoveredSizeOf(e: Element, line: int): nat {
    if StartsOn(e.pos, line) then Size(e)
    else
      match e
      case Node(_, _, children) => CoveredSize(children, line)
      case Lit(_, _) => 0
      case Method(_, _, header, body) => CoveredSize(header, line) + BodyCoveredSize(body, line)
  }

  function BodyCoveredSize(body: Option<Block>, line: int): nat {
    match body
    case None => 0
    case Some(b) => if StartsOn(b.pos, line) then BodySize(body) else CoveredSize(b.stmts, line)
  }

  /**
   * Every element of `es` that starts on `line`, with its subtree, removed:
   * exactly the covered elements disappear, so no other element is deleted.
   * `PruneSurvivors` states which elements remain and where.
   */
  function Prune(es: seq<Element>, line: int): (r: seq<Element>)
    ensures TargetKinds(r, line) == []
    ensures TargetKinds(es, line) == [] ==> r == es
    ensures |TargetKinds(es, line)| <= SeqSize(es) - SeqSize(r)
    ensures SeqSize(es) - SeqSize(r) == CoveredSize(es, line)
  {
    if es == [] then []
    else
      var rest := Prune(es[1..], line);
      if StartsOn(es[0].pos, line) then
        TargetKindsAtMostSize(es[0], line);
        rest
      else
        var kept := PruneOf(es[0], line);
        assert ([kept] + rest)[0] == kept && ([kept] + rest)[1..] == rest;
        [kept] + rest
  }

  /** An element not itself on `line`, with every target inside it removed. */
  function PruneOf(e: Element, line: int): (r: Element)
    requires !StartsOn(e.pos, line)
    ensures r.pos == e.pos && Kind(r) == Kind(e)
    ensures TargetKindsOf(r, line) == []
    ensures TargetKindsOf(e, line) == [] ==> r == e
    ensures |TargetKindsOf(e, line)| <= Size(e) - Size(r)
    ensures Size(e) - Size(r) == CoveredSizeOf(e, line)
    ensures e.Node? ==> r.Node? && r.children == Prune(e.children, line)
    ensures e.Lit? ==> r == e
    ensures e.Method? ==>
      && r.Method? && r.returnType == e.returnType
      && r.header == Prune(e.header, line) && r.body == PruneBody(e.body, line)
  {
    match e
    case Node(kind, pos, children) => Node(kind, pos, Prune(children, line))
    case Lit(_, _) => e
    case Method(pos, returnType, header, body) =>
      Method(pos, returnType, Prune(header, line), PruneBody(body, line))
  }

  /** A method body: gone when the block itself starts on `line`, pruned otherwise. */
  function PruneBody(body: Option<Block>, line: int): (r: Option<Block>)
    ensures BodyTargetKinds(r, line) == []
    ensures BodyTargetKinds(body, line) == [] ==> r == body
    ensures |BodyTargetKinds(body, line)| <= BodySize(body) - BodySize(r)
    ensures BodySize(body) - BodySize(r) == BodyCoveredSize(body, line)
    ensures body.None? ==> r.None?
    ensures body.Some? && StartsOn(body.value.pos, line) ==> r.None?
    ensures body.Some? && !StartsOn(body.value.pos, line) ==>
      r == Some(Block(body.value.pos, Prune(body.value.stmts, line)))
  {
    match body
    case None => None
    case Some(b) =>
      if StartsOn(b.pos, line) then
        TargetKindsBound(b.stmts, line);
        None
      else Some(Block(b.pos, Prune(b.stmts, line)))
  }

  /** The number of elements of `es` that do not themselves start on `line`. */
  function KeptCount(es: seq<Element>, line: int): nat {
    if es == [] then 0 else (if StartsOn(es[0].pos, line) then 0 else 1) + KeptCount(es[1..], line)
  }

  /** Where the `k`-th element lands when it survives: the number of survivors before it. */
  function Rank(es: seq<Element>, line: int, k: nat): nat
    requires k <= |es|
  {
    KeptCount(es[..k], line)
  }

  lemma RankCons(es: seq<Element>, line: int, k: nat)
    requires 0 < k <= |es|
    ensures Rank(es, line, k) == (if StartsOn(es[0].pos, line) then 0 else 1) + Rank(es[1..], line, k - 1)
  {
    assert es[..k][1..] == es[1..][..k - 1];
  }

  /**
   * The elements that survive a deletion, in their order: the result holds
   * one entry per element not starting on `line`, and the element at rank
   * `Rank(es, line, k)` is the `k`-th element with its own targets pruned.
   * So no other element is deleted, and nothing is reordered.
   */
  lemma {:induction false} PruneSurvivors(es: seq<Element>, line: int)
    ensures |Prune(es, line)| == KeptCount(es, line)
    ensures forall k :: 0 <= k < |es| && !StartsOn(es[k].pos, line) ==>
      Rank(es, line, k) < |Prune(es, line)| && Prune(es, line)[Rank(es, line, k)] == PruneOf(es[k], line)
  {
    if es != [] {
      var r, rest := Prune(es, line), Prune(es[1..], line);
      PruneSurvivors(es[1..], line);
      forall k | 0 <= k < |es| && !StartsOn(es[k].pos, line)
        ensures Rank(es, line, k) < |r| && r[Rank(es, line, k)] == PruneOf(es[k], line)
      {
        if k == 0 {
          assert es[..0] == [];
          assert r == [PruneOf(es[0], line)] + rest;
        } else {
          RankCons(es, line, k);
          assert es[1..][k - 1] == es[k];
          if StartsOn(es[0].pos, line) {
            assert r == rest;
          } else {
            assert r == [PruneOf(es[0], line)] + rest;
          }
        }
      }
    }
  }

  /** Each element contributes at most one kind: no more targets than elements. */
  lemma {:induction false} TargetKindsBound(es: seq<Element>, line: int)
    ensures |TargetKinds(es, line)| <= SeqSize(es)
  {
    if es != [] {
      TargetKindsAtMostSize(es[0], line);
      TargetKindsBound(es[1..], line);
    }
  }

  lemma {:induction false} TargetKindsAtMostSize(e: Element, line: int)
    ensures |TargetKindsOf(e, line)| <= Size(e)
  {
    match e
    case Node(_, _, children) => TargetKindsBound(children, line);
    case Lit(_, _) =>
    case Method(_, _, header, body) =>
      TargetKindsBound(header, line);
      if body.Some? {
        TargetKindsBound(body.value.stmts, line);
      }
  }

  /** Deletion never makes an element appear on any line: a line without targets stays without. */
  lemma {:induction false} PruneKeepsClearLines(es: seq<Element>, line: int, other: int)
    requires TargetKinds(es, other) == []
    ensures TargetKinds(Prune(es, line), other) == []
  {
    if es != [] {
      PruneKeepsClearLines(es[1..], line, other);
      if !StartsOn(es[0].pos, line) {
        var kept := PruneOf(es[0], line);
        PruneOfKeepsClearLines(es[0], line, other);
        assert ([kept] + Prune(es[1..], line))[0] == kept;
        assert ([kept] + Prune(es[1..], line))[1..] == Prune(es[1..], line);
      }
    }
  }

  lemma {:induction false} PruneOfKeepsClearLines(e: Element, line: int, other: int)
    requires !StartsOn(e.pos, line)
    requires TargetKindsOf(e, other) == []
    ensures TargetKindsOf(PruneOf(e, line), other) == []
  {
    match e
    case Node(_, _, children) =>
      PruneKeepsClearLines(children, line, other);
    case Lit(_, _) =>
    case Method(_, _, header, body) =>
      PruneKeepsClearLines(header, line, other);
      if body.Some? && !StartsOn(body.value.pos, line) {
        PruneKeepsClearLines(body.value.stmts, line, other);
      }
  }

  /** Deleting the elements of a line a second time deletes nothing more. */
  lemma PruneIdempotent(es: seq<Element>, line: int)
    ensures Prune(Prune(es, line), line) == Prune(es, line)
  {
  }
}

=== FILE: error_file_processor.dfy ===
/**
 * `ErrorFileProcessor.processErrorFile`: repair one Java file from the error
 * lines the compiler reported for it.
 *
 * 1. For each error line (in the iteration order of the line set): delete
 *    every element starting on it, or, when there is none, give the first
 *    eligible enclosing method a default `return`.
 * 2. Sweep the methods (`fixIncompleteMethods`).
 * 3. Remove the imports on error lines; when anything changed, print the
 *    unit, write it over the file and add the drop in line count to the
 *    deleted lines.
 *
 * Reading the file and building the model are an input (`None` when either
 * failed); printing is a parameter; writing may fail. Any exception makes the
 * call report "not modified", keeping the counts already recorded.
 */
module ErrorFileProcessor {
  import opened Wrappers
  import opened Syntax
  import opened Metrics
  import opened ErrorInfos
  import opened FileUtility
  import opened Deletion
  import opened Fallback
  import opened Completion
  import opened Imports

  /** A file as read from disk and its Spoon model. */
  datatype Source = Source(content: string, unit: Unit)

  /** The state threaded through the error lines. */
  datatype Pass = Pass(types: seq<Element>, metrics: CompilationMetrics, modified: bool)

  /**
   * The outcome for one file: whether it counts as modified, the repaired
   * unit that was printed and written (if any), and the metrics.
   */
  datatype FileOutcome = FileOutcome(modified: bool, saved: Option<Unit>, metrics: CompilationMetrics)

  /** `order` lists every line of the set exactly once: a `HashSet` iteration. */
  predicate Enumerates(order: seq<int>, lines: set<int>) {
    && (forall l :: l in order ==> l in lines)
    && (forall l :: l in lines ==> l in order)
    && (forall a, b :: 0 <= a < b < |order| ==> order[a] != order[b])
  }

  /** Only the deletion counters may differ: the run-level fields are untouched. */
  predicate OnlyCounts(m: CompilationMetrics, r: CompilationMetrics) {
    && r.iterationCount == m.iterationCount
    && r.modifiedFiles == m.modifiedFiles
    && r.totalFiles == m.totalFiles
    && r.totalLines == m.totalLines
  }

  /**
   * The body of the loop over error lines, for one line: every element starting
   * on it is deleted and counted once under its kind.
   */
  function DeleteLine(p: Pass, line: int): (r: Pass)
    ensures TargetKinds(p.types, line) != [] ==> r.modified && TargetKinds(r.types, line) == []
    ensures TargetKinds(p.types, line) != [] ==>
      r.metrics.deletedElements == p.metrics.deletedElements + |TargetKinds(p.types, line)|
    ensures TargetKinds(p.types, line) != [] ==>
      forall u :: CountOf(r.metrics, u) == CountOf(p.metrics, u) + Occurrences(TargetKinds(p.types, line), u)
    ensures TargetKinds(p.types, line) == [] ==>
      r.metrics.deletedElements == p.metrics.deletedElements + (if AnyEligible(Methods(p.types), line) then 1 else 0)
    ensures TargetKinds(p.types, line) == [] ==>
      forall u :: CountOf(r.metrics, u) ==
        CountOf(p.metrics, u) + (if u == AddedReturn && AnyEligible(Methods(p.types), line) then 1 else 0)
    ensures r.metrics.deletedElements >= p.metrics.deletedElements
    ensures r.modified <==> p.modified || r.metrics.deletedElements > p.metrics.deletedElements
    ensures r.metrics.deletedLines == p.metrics.deletedLines && OnlyCounts(p.metrics, r.metrics)
    ensures Valid(p.metrics) ==> Valid(r.metrics)
    ensures TargetKinds(p.types, line) != [] ==> r.types == Prune(p.types, line)
    ensures TargetKinds(p.types, line) == [] ==> r.types == FallbackSeq(p.types, line).0
  {
    var targets := TargetKinds(p.types, line);
    if targets != [] then
      Pass(Prune(p.types, line), IncrementAll(p.metrics, targets), true)
    else
      FallbackSeqSpec(p.types, line);
      var (types, found) := FallbackSeq(p.types, line);
      Pass(types, if found then IncrementDeletedElements(p.metrics, AddedReturn) else p.metrics, found || p.modified)
  }

  /** The loop over the error lines, in the given order. */
  function DeleteLines(p: Pass, order: seq<int>): (r: Pass)
    ensures r.metrics.deletedElements >= p.metrics.deletedElements
    ensures r.modified <==> p.modified || r.metrics.deletedElements > p.metrics.deletedElements
    ensures r.metrics.deletedLines == p.metrics.deletedLines && OnlyCounts(p.metrics, r.metrics)
    ensures Valid(p.metrics) ==> Valid(r.metrics)
  {
    if order == [] then p
    else DeleteLine(DeleteLines(p, order[..|order| - 1]), order[|order| - 1])
  }

  /**
   * On an error line with no element, the pass records a change exactly when
   * some method in model order is eligible; then the first eligible one, and
   * nothing else in the forest, gains a default return. Otherwise the forest
   * is left as it was.
   */
  lemma DeleteLineFallback(p: Pass, line: int)
    requires TargetKinds(p.types, line) == []
    ensures DeleteLine(p, line).modified <==> p.modified || AnyEligible(Methods(p.types), line)
    ensures AnyEligible(Methods(p.types), line) ==>
      UpdatedFirst(Methods(p.types), Methods(DeleteLine(p, line).types), line)
    ensures AnyEligible(Methods(p.types), line) ==>
      ReplacedSeq(p.types, DeleteLine(p, line).types, Chosen(Methods(p.types), line))
    ensures !AnyEligible(Methods(p.types), line) ==> DeleteLine(p, line).types == p.types
  {
    FallbackSeqSpec(p.types, line);
    if AnyEligible(Methods(p.types), line) {
      FallbackSeqReplaces(p.types, line);
    }
  }

  /** After a line is handled nothing starts on it, and a line that was clear stays clear. */
  lemma DeleteLineClears(p: Pass, line: int, other: int)
    requires other == line || TargetKinds(p.types, other) == []
    ensures TargetKinds(DeleteLine(p, line).types, other) == []
  {
    if TargetKinds(p.types, line) != [] {
      if other != line {
        PruneKeepsClearLines(p.types, line, other);
      }
    } else {
      FallbackKeepsTargets(p.types, line, other);
    }
  }

  /** After the loop, no element starts on any of the lines handled. */
  lemma {:induction false} DeleteLinesClears(p: Pass, order: seq<int>, other: int)
    requires other in order
    ensures TargetKinds(DeleteLines(p, order).types, other) == []
  {
    var last := order[|order| - 1];
    var front := order[..|order| - 1];
    assert order == front + [last];
    if other in front {
      DeleteLinesClears(p, front, other);
    }
    DeleteLineClears(DeleteLines(p, front), last, other);
  }

  /** `processErrorFile(file, errorInfo, metrics)` */
  function ProcessErrorFile(input: Option<Source>, info: ErrorInfo, order: seq<int>,
                            prettyPrint: Unit -> string, canWrite: bool, m: CompilationMetrics): (r: FileOutcome)
    requires Enumerates(order, info.errorLines)
    ensures input.None? ==> r == FileOutcome(false, None, m)
    ensures r.saved.Some? ==> r.modified && canWrite && input.Some?
    ensures r.saved.Some? ==> r.saved.value.fileName == info.fileName == input.value.unit.fileName
    ensures input.Some? && input.value.unit.fileName == info.fileName && canWrite ==> (r.saved.Some? <==> r.modified)
    ensures input.Some? && input.value.unit.fileName == info.fileName && !canWrite ==> !r.modified
    ensures input.Some? && canWrite ==> (r.modified <==> r.metrics.deletedElements > m.deletedElements)
    ensures r.metrics.deletedElements >= m.deletedElements
    ensures r.saved.None? ==> r.metrics.deletedLines == m.deletedLines
    ensures r.saved.Some? ==>
      r.metrics.deletedLines == m.deletedLines + CalculateDeletedLines(input.value.content, prettyPrint(r.saved.value))
    ensures OnlyCounts(m, r.metrics)
    ensures Valid(m) ==> Valid(r.metrics)
    ensures r.saved.Some? ==> r.saved.value == input.value.unit.(
      types := SweptSeq(DeleteLines(Pass(input.value.unit.types, m, false), order).types),
      imports := RemoveAll(input.value.unit.imports, Flagged(input.value.unit.imports, info.errorLines)))
  {
    if input.None? then FileOutcome(false, None, m)
    else
      var src := input.value;
      var del := DeleteLines(Pass(src.unit.types, m, false), order);
      var sweep := FixIncompleteMethods(del.types, del.metrics);
      var modified := sweep.modified || del.modified;
      var unit := src.unit.(types := sweep.types);
      if unit.fileName != info.fileName then FileOutcome(modified, None, sweep.metrics)
      else
        var flagged := Flagged(unit.imports, info.errorLines);
        var counted := IncrementTimes(sweep.metrics, ImportKind, |flagged|);
        var repaired := unit.(imports := RemoveAll(unit.imports, flagged));
        if !(modified || |flagged| > 0) then FileOutcome(false, None, counted)
        else if !canWrite then FileOutcome(false, None, counted)
        else
          var text := prettyPrint(repaired);
          FileOutcome(true, Some(repaired), AddDeletedLines(counted, CalculateDeletedLines(src.content, text)))
  }

  /**
   * The histogram after one file: the deletions and the sweep as they
   * counted, plus one "CtImport" per collected import when the unit is the
   * reported file (nothing for imports otherwise); the lines deleted do not
   * touch the per-kind counts.
   */
  lemma ProcessErrorFileCounts(input: Option<Source>, info: ErrorInfo, order: seq<int>,
                               prettyPrint: Unit -> string, canWrite: bool, m: CompilationMetrics)
    requires Enumerates(order, info.errorLines)
    requires input.Some?
    ensures var r := ProcessErrorFile(input, info, order, prettyPrint, canWrite, m);
      var d := DeleteLines(Pass(input.value.unit.types, m, false), order);
      var sweep := FixIncompleteMethods(d.types, d.metrics).metrics;
      var n := if input.value.unit.fileName == info.fileName
               then |Flagged(input.value.unit.imports, info.errorLines)| else 0;
      && r.metrics.deletedElements == d.metrics.deletedElements + FixCount(Methods(d.types)) + n
      && CountOf(r.metrics, ImportKind) == CountOf(d.metrics, ImportKind) + n
      && (forall u :: u != ImportKind ==> CountOf(r.metrics, u) == CountOf(sweep, u))
  {
    var d := DeleteLines(Pass(input.value.unit.types, m, false), order);
    assert ImportKind != AddedReturn;
  }

  /** Nothing starts on an error line, no import stands on one, and every value-returning method returns. */
  ghost predicate Repaired(u: Unit, errorLines: set<int>) {
    && (forall l :: l in errorLines ==> TargetKinds(u.types, l) == [])
    && (forall k :: 0 <= k < |u.imports| ==> !OnErrorLine(u.imports[k], errorLines))
    && AllComplete(u.types)
  }

  /** What is written back is repaired, whatever the line order. */
  lemma ProcessErrorFileRepairs(input: Option<Source>, info: ErrorInfo, order: seq<int>,
                                prettyPrint: Unit -> string, canWrite: bool, m: CompilationMetrics)
    requires Enumerates(order, info.errorLines)
    ensures var r := ProcessErrorFile(input, info, order, prettyPrint, canWrite, m);
      r.saved.Some? ==> Repaired(r.saved.value, info.errorLines)
  {
    var r := ProcessErrorFile(input, info, order, prettyPrint, canWrite, m);
    if r.saved.Some? {
      var src := input.value;
      var del := DeleteLines(Pass(src.unit.types, m, false), order);
      var types := SweptSeq(del.types);
      assert r.saved.value.types == types;
      forall l | l in info.errorLines ensures TargetKinds(types, l) == [] {
        DeleteLinesClears(Pass(src.unit.types, m, false), order, l);
        SweepKeepsTargets(del.types, l);
      }
      SweepCompletes(del.types);
      var imports := src.unit.imports;
      var flagged := Flagged(imports, info.errorLines);
      var kept := r.saved.value.imports;
      assert kept == RemoveAll(imports, flagged);
    }
  }

  /** A file with no error line is still rewritten when a value-returning method has no body. */
  lemma NoErrorLinesStillRewritten(content: string, prettyPrint: Unit -> string, m: CompilationMetrics)
    ensures var abstractMethod := Method(Some(Pos(3, 3)), Some("int"), [], None);
      var unit := Unit("A.java", [], [Node("CtClassImpl", Some(Pos(1, 4)), [abstractMethod])]);
      var r := ProcessErrorFile(Some(Source(content, unit)), ErrorInfo("A.java", "src/A.java", {}), [], prettyPrint, true, m);
      r.modified && r.saved.Some?
  {
    var abstractMethod := Method(Some(Pos(3, 3)), Some("int"), [], None);
    var types := [Node("CtClassImpl", Some(Pos(1, 4)), [abstractMethod])];
    assert Methods([abstractMethod]) == [abstractMethod] + Methods([]);
    assert Methods(types) == Methods([abstractMethod]) + Methods([]);
    assert NeedsFix(Methods(types)[0]);
  }

  /** A unit whose file name differs from the reported one is never written, yet may count as modified. */
  lemma UnmatchedUnitModifiedButNotWritten(content: string, prettyPrint: Unit -> string, m: CompilationMetrics)
    ensures var abstractMethod := Method(Some(Pos(3, 3)), Some("int"), [], None);
      var unit := Unit("B.java", [], [Node("CtClassImpl", Some(Pos(1, 4)), [abstractMethod])]);
      var r := ProcessErrorFile(Some(Source(content, unit)), ErrorInfo("A.java", "src/A.java", {}), [], prettyPrint, true, m);
      r.modified && r.saved.None?
  {
    var abstractMethod := Method(Some(Pos(3, 3)), Some("int"), [], None);
    var types := [Node("CtClassImpl", Some(Pos(1, 4)), [abstractMethod])];
    assert Methods([abstractMethod]) == [abstractMethod] + Methods([]);
    assert Methods(types) == Methods([abstractMethod]) + Methods([]);
    assert NeedsFix(Methods(types)[0]);
  }
}

=== FILE: error_info.dfy ===
/**
 * The per-file diagnostic record: a file name, the path it was resolved to, and
 * the set of line numbers the compiler complained about.
 */
module ErrorInfos {

  datatype ErrorInfo = ErrorInfo(fileName: string, filePath: string, errorLines: set<int>)

  /** A fresh record: the given name and path, no error line yet. */
  function NewErrorInfo(fileName: string, filePath: string): (r: ErrorInfo)
    ensures r.fileName == fileName && r.filePath == filePath
    ensures |r.errorLines| == 0
  {
    ErrorInfo(fileName, filePath, {})
  }

  /** Records one more error line; duplicates collapse because the lines form a set. */
  function AddErrorLine(e: ErrorInfo, lineNumber: int): (r: ErrorInfo)
    ensures lineNumber in r.errorLines
    ensures forall n :: n != lineNumber ==> (n in r.errorLines <==> n in e.errorLines)
    ensures |r.errorLines| == |e.errorLines| + (if lineNumber in e.errorLines then 0 else 1)
    ensures r.fileName == e.fileName && r.filePath == e.filePath
  {
    var lines := e.errorLines + {lineNumber};
    assert lineNumber in e.errorLines ==> lines == e.errorLines;
    e.(errorLines := lines)
  }

  function SetFileName(e: ErrorInfo, fileName: string): (r: ErrorInfo)
    ensures r.fileName == fileName
    ensures r.filePath == e.filePath && r.errorLines == e.errorLines
  {
    e.(fileName := fileName)
  }

  function SetFilePath(e: ErrorInfo, filePath: string): (r: ErrorInfo)
    ensures r.filePath == filePath
    ensures r.fileName == e.fileName && r.errorLines == e.errorLines
  {
    e.(filePath := filePath)
  }

  /** Adding a line that is already recorded changes nothing. */
  lemma AddErrorLineIdempotent(e: ErrorInfo, lineNumber: int)
    ensures AddErrorLine(AddErrorLine(e, lineNumber), lineNumber) == AddErrorLine(e, lineNumber)
  {
  }

  /** The final line set does not depend on the order in which lines are reported. */
  lemma AddErrorLineCommutes(e: ErrorInfo, a: int, b: int)
    ensures AddErrorLine(AddErrorLine(e, a), b) == AddErrorLine(AddErrorLine(e, b), a)
  {
  }
}

=== FILE: error_pattern.dfy ===
/**
 * `Matcher.find()` for the compiler-error pattern
 *
 *     ([^\\/:*?"<>|]+\.java).*?\[(\d+),
 *
 * computed directly instead of by a backtracking engine. `Decomposition`
 * states, independently of the search, what it means for the pattern to match
 * with group 1 spanning `line[s..k]` and the `[` of group 2 at `p`; `Find`
 * returns the match Java's engine reports: the leftmost start, then the
 * longest group 1 (greedy `+`), then the nearest bracket (lazy `.*?`).
 */
module ErrorPattern {
  import opened Wrappers
  import opened JavaText

  /** The characters `[^\\/:*?"<>|]` accepts. */
  predicate InNameClass(c: char) {
    c !in "\\/:*?\"<>|"
  }

  /** The characters `.` refuses (no DOTALL flag). */
  predicate IsLineTerminator(c: char) {
    c == '\n' || c == '\r' || c == '\U{85}' || c == '\U{2028}' || c == '\U{2029}'
  }

  /** End of the run of name-class characters starting at `s`. */
  function NameRunEnd(line: string, s: nat): (e: nat)
    requires s <= |line|
    ensures s <= e <= |line|
    ensures forall i :: s <= i < e ==> InNameClass(line[i])
    ensures e == |line| || !InNameClass(line[e])
    decreases |line| - s
  {
    if s == |line| || !InNameClass(line[s]) then s else NameRunEnd(line, s + 1)
  }

  /** End of the run of ASCII digits starting at `i`. */
  function DigitRunEnd(line: string, i: nat): (q: nat)
    requires i <= |line|
    ensures i <= q <= |line|
    ensures forall j :: i <= j < q ==> IsDigit(line[j])
    ensures q == |line| || !IsDigit(line[q])
    decreases |line| - i
  {
    if i == |line| || !IsDigit(line[i]) then i else DigitRunEnd(line, i + 1)
  }

  /** `\[(\d+),` matches at `p`: backtracking `\d+` cannot help, so the digit run must be maximal. */
  predicate BracketAt(line: string, p: nat) {
    p < |line| && line[p] == '[' &&
    var q := DigitRunEnd(line, p + 1);
    q > p + 1 && q < |line| && line[q] == ','
  }

  predicate NoTerminator(line: string, from: nat, to: nat)
    requires from <= to <= |line|
  {
    forall i :: from <= i < to ==> !IsLineTerminator(line[i])
  }

  /** The pattern matches with group 1 = `line[s..k]` and the bracket of group 2 at `p`. */
  predicate Decomposition(line: string, s: int, k: int, p: int) {
    && 0 <= s && s + 6 <= k <= p < |line|
    && (forall i :: s <= i < k ==> InNameClass(line[i]))
    && line[k - 5..k] == ".java"
    && NoTerminator(line, k, p)
    && BracketAt(line, p)
  }

  /** `.*?\[(\d+),` from `k`: the nearest bracket reachable without crossing a line terminator. */
  function LazyBracket(line: string, k: nat): (r: Option<nat>)
    requires k <= |line|
    ensures r.Some? ==> k <= r.value < |line| && BracketAt(line, r.value) && NoTerminator(line, k, r.value)
    ensures r.Some? ==> forall p :: k <= p < r.value ==> !BracketAt(line, p)
    ensures r.None? ==> forall p :: k <= p < |line| && BracketAt(line, p) ==> !NoTerminator(line, k, p)
    decreases |line| - k
  {
    if k == |line| then None
    else if BracketAt(line, k) then Some(k)
    else if IsLineTerminator(line[k]) then None
    else
      var r := LazyBracket(line, k + 1);
      assert forall p :: k + 1 <= p <= |line| && NoTerminator(line, k + 1, p) ==> NoTerminator(line, k, p);
      r
  }

  /** A match with group 1 starting at `s` and ending at `k` exists exactly when the lazy search succeeds. */
  lemma DecompositionAtEnd(line: string, s: nat, k: nat)
    requires s + 6 <= k <= |line|
    requires forall i :: s <= i < k ==> InNameClass(line[i])
    requires line[k - 5..k] == ".java"
    ensures LazyBracket(line, k).Some? <==> exists p :: Decomposition(line, s, k, p)
    ensures LazyBracket(line, k).Some? ==> Decomposition(line, s, k, LazyBracket(line, k).value)
    ensures LazyBracket(line, k).Some? ==> forall p :: p < LazyBracket(line, k).value ==> !Decomposition(line, s, k, p)
  {
    var r := LazyBracket(line, k);
    if r.Some? {
      assert Decomposition(line, s, k, r.value);
    }
  }

  /** A `.java` ending at `k` extends the name run that reaches it. */
  lemma JavaEndInRun(line: string, s: nat, k: nat)
    requires s + 6 <= k <= |line| && line[k - 5..k] == ".java"
    requires forall i :: s <= i < k - 5 ==> InNameClass(line[i])
    ensures forall i :: s <= i < k ==> InNameClass(line[i])
  {
    forall i | k - 5 <= i < k ensures InNameClass(line[i]) {
      assert line[i] == ".java"[i - (k - 5)];
    }
  }

  /** Group 1 cannot end at `k` when no `.java` with a reachable bracket ends there. */
  lemma NoEndAt(line: string, s: nat, k: nat)
    requires s + 6 <= k
    requires forall i :: s <= i < k - 5 && i < |line| ==> InNameClass(line[i])
    requires !(k <= |line| && line[k - 5..k] == ".java" && LazyBracket(line, k).Some?)
    ensures forall p :: !Decomposition(line, s, k, p)
  {
    if k <= |line| && line[k - 5..k] == ".java" {
      JavaEndInRun(line, s, k);
      DecompositionAtEnd(line, s, k);
    }
  }

  /** `[^...]+` is greedy: try every position `j` of `\.java`, from the end of the name run backwards. */
  function GreedyName(line: string, s: nat, j: nat): (r: Option<(nat, nat)>)
    requires s <= j <= |line|
    requires forall i :: s <= i < j ==> InNameClass(line[i])
    ensures r.Some? ==> Decomposition(line, s, r.value.0, r.value.1)
    ensures r.Some? ==> forall p :: p < r.value.1 ==> !Decomposition(line, s, r.value.0, p)
    ensures r.Some? ==> forall k, p :: r.value.0 < k <= j + 5 ==> !Decomposition(line, s, k, p)
    ensures r.None? ==> forall k, p :: k <= j + 5 ==> !Decomposition(line, s, k, p)
    decreases j
  {
    if j <= s then
      None
    else if j + 5 <= |line| && line[j..j + 5] == ".java" && LazyBracket(line, j + 5).Some? then
      var k := j + 5;
      assert line[k - 5..k] == ".java";
      JavaEndInRun(line, s, k);
      DecompositionAtEnd(line, s, k);
      Some((k, LazyBracket(line, k).value))
    else
      var k := j + 5;
      NoEndAt(line, s, k);
      GreedyName(line, s, j - 1)
  }

  /** A decomposition's group 1 lies inside the name run from its start. */
  lemma DecompositionWithinRun(line: string, s: nat, k: nat, p: nat)
    requires Decomposition(line, s, k, p)
    ensures k <= NameRunEnd(line, s)
  {
  }

  /** The leftmost-longest-nearest match starting exactly at `s`, if any. */
  function MatchAt(line: string, s: nat): (r: Option<(nat, nat)>)
    requires s <= |line|
    ensures r.Some? ==> Decomposition(line, s, r.value.0, r.value.1)
    ensures r.Some? ==> forall p :: p < r.value.1 ==> !Decomposition(line, s, r.value.0, p)
    ensures r.Some? ==> forall k, p :: r.value.0 < k ==> !Decomposition(line, s, k, p)
    ensures r.None? ==> forall k, p :: !Decomposition(line, s, k, p)
  {
    var e := NameRunEnd(line, s);
    var r := GreedyName(line, s, e);
    assert forall k, p :: Decomposition(line, s, k, p) ==> k <= e + 5 by {
      forall k, p | Decomposition(line, s, k, p) ensures k <= e + 5 {
        DecompositionWithinRun(line, s, k, p);
      }
    }
    r
  }

  /** A match of the pattern as `find()` reports it: group 1 is `line[start..nameEnd]`, group 2's `[` is at `bracket`. */
  datatype Span = Span(start: nat, nameEnd: nat, bracket: nat)

  function FindFrom(line: string, s: nat): (r: Option<Span>)
    requires s <= |line|
    ensures r.Some? ==> s <= r.value.start && Decomposition(line, r.value.start, r.value.nameEnd, r.value.bracket)
    ensures r.Some? ==> forall s', k, p :: s <= s' < r.value.start ==> !Decomposition(line, s', k, p)
    ensures r.Some? ==> forall k, p :: r.value.nameEnd < k ==> !Decomposition(line, r.value.start, k, p)
    ensures r.Some? ==> forall p :: p < r.value.bracket ==> !Decomposition(line, r.value.start, r.value.nameEnd, p)
    ensures r.None? ==> forall s', k, p :: s <= s' ==> !Decomposition(line, s', k, p)
    decreases |line| - s
  {
    match MatchAt(line, s)
    case Some((k, p)) => Some(Span(s, k, p))
    case None =>
      if s == |line| then None else FindFrom(line, s + 1)
  }

  /** `Matcher.find()` on one line of build output. */
  function Find(line: string): (r: Option<Span>)
    ensures r.None? <==> forall s, k, p :: !Decomposition(line, s, k, p)
    ensures r.Some? ==> Decomposition(line, r.value.start, r.value.nameEnd, r.value.bracket)
    ensures r.Some? ==> forall s, k, p :: s < r.value.start ==> !Decomposition(line, s, k, p)
    ensures r.Some? ==> forall k, p :: r.value.nameEnd < k ==> !Decomposition(line, r.value.start, k, p)
    ensures r.Some? ==> forall p :: p < r.value.bracket ==> !Decomposition(line, r.value.start, r.value.nameEnd, p)
  {
    FindFrom(line, 0)
  }

  /** The two captured groups: the source file name and the digits of the line number. */
  datatype ErrorMatch = ErrorMatch(fileName: string, lineDigits: string)

  predicate WellFormedMatch(m: ErrorMatch) {
    && EndsWith(m.fileName, ".java") && |m.fileName| >= 6
    && (forall i :: 0 <= i < |m.fileName| ==> InNameClass(m.fileName[i]))
    && |m.lineDigits| > 0 && AllDigits(m.lineDigits)
  }

  /** `m.group(1)` and `m.group(2)` after a successful `find()`. */
  function MatchLine(line: string): (r: Option<ErrorMatch>)
    ensures r.None? <==> forall s, k, p :: !Decomposition(line, s, k, p)
    ensures r.Some? ==> WellFormedMatch(r.value)
  {
    match Find(line)
    case None => None
    case Some(Span(s, k, p)) =>
      var q := DigitRunEnd(line, p + 1);
      var name := line[s..k];
      assert name[|name| - 5..] == line[k - 5..k];
      Some(ErrorMatch(name, line[p + 1..q]))
  }

  // ---------------------------------------------------------------------------
  // A worked line: the name after the last path separator, the digits after the bracket.

  const ExampleLine: string := "/src/Foo.java:[12,5]"

  lemma SlashNotInName()
    ensures !InNameClass('/')
  {
    assert "\\/:*?\"<>|"[1] == '/';
  }

  lemma ExampleNoEarlierStart()
    ensures forall s, k, p :: s < 5 ==> !Decomposition(ExampleLine, s, k, p)
  {
    SlashNotInName();
    assert ExampleLine[4] == '/';
  }

  lemma ExampleGroups()
    ensures ExampleLine[5..13] == "Foo.java" && ExampleLine[15..17] == "12"
  {
  }

  /** Group 1 starts after the last '/', because '/' is outside the name class; group 2 is "12". */
  lemma ExampleMatch()
    ensures MatchLine(ExampleLine) == Some(ErrorMatch("Foo.java", "12"))
  {
    var line := ExampleLine;
    assert line[15] == '1' && line[16] == '2' && line[17] == ',';
    assert DigitRunEnd(line, 17) == 17;
    assert DigitRunEnd(line, 15) == 17;
    assert BracketAt(line, 14);
    assert line[8..13] == ".java";
    assert Decomposition(line, 5, 13, 14);
    var r := Find(line);
    ExampleNoEarlierStart();
    assert r.value.start == 5;
    assert line[13] == ':';
    assert r.value.nameEnd == 13;
    assert r.value.bracket == 14;
    ExampleGroups();
  }
}

=== FILE: fallback.dfy ===
/**
 * `handleMissingElement`: when nothing starts on an error line, the first
 * method in model order whose span contains the line, whose return type is
 * present and not "void", and which has a body, gets a default `return`
 * appended to its body. At most one method changes.
 */
module Fallback {
  import opened Wrappers
  import opened Syntax
  import opened DefaultValue

  /** The method's valid span contains `line`, it returns a value, and it has a body. */
  predicate Eligible(m: Element, line: int) {
    && m.Method?
    && m.pos.Some? && m.pos.value.line <= line <= m.pos.value.endLine
    && NonVoid(m.returnType)
    && m.body.Some?
  }

  predicate AnyEligible(ms: seq<Element>, line: int) {
    exists k :: 0 <= k < |ms| && Eligible(ms[k], line)
  }

  /** The index of the first eligible method. */
  function FirstEligible(ms: seq<Element>, line: int): (i: nat)
    requires AnyEligible(ms, line)
    ensures i < |ms| && Eligible(ms[i], line)
    ensures forall j :: 0 <= j < i ==> !Eligible(ms[j], line)
  {
    if Eligible(ms[0], line) then 0
    else
      assert AnyEligible(ms[1..], line) by {
        var k :| 0 <= k < |ms| && Eligible(ms[k], line);
        assert ms[1..][k - 1] == ms[k];
      }
      1 + FirstEligible(ms[1..], line)
  }

  /** `body.addStatement(returnStmt)` on an eligible method. */
  function AppendDefault(m: Element): (r: Element)
    requires m.Method? && NonVoid(m.returnType) && m.body.Some?
    ensures r.Method? && r.pos == m.pos && r.returnType == m.returnType && r.header == m.header
    ensures r.body == Some(Block(m.body.value.pos, m.body.value.stmts + [DefaultReturn(m.returnType.value)]))
  {
    var b := m.body.value;
    m.(body := Some(b.(stmts := b.stmts + [DefaultReturn(m.returnType.value)])))
  }

  /** The forest after the fallback for `line`, and whether some method was changed. */
  function FallbackSeq(es: seq<Element>, line: int): (r: (seq<Element>, bool))
    ensures !r.1 ==> r.0 == es
  {
    if es == [] then ([], false)
    else
      var (h, found) := FallbackOf(es[0], line);
      if found then ([h] + es[1..], true)
      else
        var (t, foundLater) := FallbackSeq(es[1..], line);
        assert [es[0]] + es[1..] == es;
        ([es[0]] + t, foundLater)
  }

  function FallbackOf(e: Element, line: int): (r: (Element, bool))
    ensures !r.1 ==> r.0 == e
  {
    if Eligible(e, line) then (AppendDefault(e), true)
    else
      match e
      case Node(kind, pos, children) =>
        var (c, found) := FallbackSeq(children, line);
        (Node(kind, pos, c), found)
      case Lit(_, _) => (e, false)
      case Method(pos, returnType, header, body) =>
        var (h, found) := FallbackSeq(header, line);
        if found then (Method(pos, returnType, h, body), true)
        else if body.None? then (e, false)
        else
          var (s, foundInBody) := FallbackSeq(body.value.stmts, line);
          (Method(pos, returnType, header, Some(Block(body.value.pos, s))), foundInBody)
  }

  /** `ms2` is `ms` with the first eligible method given a default return and every later one unchanged. */
  ghost predicate UpdatedFirst(ms: seq<Element>, ms2: seq<Element>, line: int)
    requires AnyEligible(ms, line)
  {
    var i := FirstEligible(ms, line);
    && |ms2| == |ms|
    && ms2[i] == AppendDefault(ms[i])
    && forall j :: i < j < |ms| ==> ms2[j] == ms[j]
  }

  /** The first eligible method of a concatenation is found in the first part if it has one. */
  lemma FirstEligibleAppend(a: seq<Element>, b: seq<Element>, line: int)
    ensures AnyEligible(a + b, line) <==> AnyEligible(a, line) || AnyEligible(b, line)
    ensures AnyEligible(a, line) ==> FirstEligible(a + b, line) == FirstEligible(a, line)
    ensures !AnyEligible(a, line) && AnyEligible(b, line) ==>
      FirstEligible(a + b, line) == |a| + FirstEligible(b, line)
  {
    if AnyEligible(a + b, line) {
      var k :| 0 <= k < |a + b| && Eligible((a + b)[k], line);
      if k >= |a| { assert b[k - |a|] == (a + b)[k]; }
    }
    if AnyEligible(a, line) {
      var k :| 0 <= k < |a| && Eligible(a[k], line);
      assert (a + b)[k] == a[k];
      var i := FirstEligible(a, line);
      assert (a + b)[i] == a[i];
    }
    if AnyEligible(b, line) {
      var k :| 0 <= k < |b| && Eligible(b[k], line);
      assert (a + b)[|a| + k] == b[k];
      if !AnyEligible(a, line) {
        var i := FirstEligible(b, line);
        assert (a + b)[|a| + i] == b[i];
      }
    }
  }

  /** Changing the first part of a concatenation where the first eligible method lies. */
  lemma UpdatedFirstInPrefix(a: seq<Element>, a2: seq<Element>, b: seq<Element>, line: int)
    requires AnyEligible(a, line) && UpdatedFirst(a, a2, line)
    ensures AnyEligible(a + b, line) && UpdatedFirst(a + b, a2 + b, line)
  {
    FirstEligibleAppend(a, b, line);
    var i := FirstEligible(a, line);
    assert (a2 + b)[i] == a2[i] && (a + b)[i] == a[i];
    forall j | i < j < |a + b| ensures (a2 + b)[j] == (a + b)[j] {
      if j < |a| {
        assert (a2 + b)[j] == a2[j];
      }
    }
  }

  /** Changing the second part of a concatenation whose first part has no eligible method. */
  lemma UpdatedFirstInSuffix(a: seq<Element>, b: seq<Element>, b2: seq<Element>, line: int)
    requires !AnyEligible(a, line) && AnyEligible(b, line) && UpdatedFirst(b, b2, line)
    ensures AnyEligible(a + b, line) && UpdatedFirst(a + b, a + b2, line)
  {
    FirstEligibleAppend(a, b, line);
    var i := FirstEligible(b, line);
    assert (a + b2)[|a| + i] == b2[i] && (a + b)[|a| + i] == b[i];
    forall j | |a| + i < j < |a + b| ensures (a + b2)[j] == (a + b)[j] {
      assert (a + b2)[j] == b2[j - |a|];
    }
  }

  /**
   * The fallback changes a method exactly when some method in model order is
   * eligible, and then it is the first eligible one that gains the default
   * return: no method before it is eligible, and every method after it in
   * model order is unchanged.
   */
  lemma {:induction false} FallbackSeqSpec(es: seq<Element>, line: int)
    ensures FallbackSeq(es, line).1 <==> AnyEligible(Methods(es), line)
    ensures FallbackSeq(es, line).1 ==> UpdatedFirst(Methods(es), Methods(FallbackSeq(es, line).0), line)
  {
    if es != [] {
      var e, rest := es[0], es[1..];
      assert Methods(es) == MethodsOf(e) + Methods(rest);
      FallbackOfSpec(e, line);
      FirstEligibleAppend(MethodsOf(e), Methods(rest), line);
      var (h, found) := FallbackOf(e, line);
      if found {
        assert ([h] + rest)[0] == h && ([h] + rest)[1..] == rest;
        assert Methods([h] + rest) == MethodsOf(h) + Methods(rest);
        UpdatedFirstInPrefix(MethodsOf(e), MethodsOf(h), Methods(rest), line);
      } else {
        FallbackSeqSpec(rest, line);
        var (t, foundLater) := FallbackSeq(rest, line);
        if foundLater {
          assert ([e] + t)[0] == e && ([e] + t)[1..] == t;
          assert Methods([e] + t) == MethodsOf(e) + Methods(t);
          UpdatedFirstInSuffix(MethodsOf(e), Methods(rest), Methods(t), line);
        }
      }
    }
  }

  lemma {:induction false} FallbackOfSpec(e: Element, line: int)
    ensures FallbackOf(e, line).1 <==> AnyEligible(MethodsOf(e), line)
    ensures FallbackOf(e, line).1 ==> UpdatedFirst(MethodsOf(e), MethodsOf(FallbackOf(e, line).0), line)
  {
    if Eligible(e, line) {
      EligibleSpec(e, line);
    } else {
      match e
      case Node(kind, pos, children) =>
        FallbackSeqSpec(children, line);
      case Lit(_, _) =>
      case Method(pos, returnType, header, body) =>
        FallbackSeqSpec(header, line);
        if body.Some? {
          FallbackSeqSpec(body.value.stmts, line);
        }
        MethodSpec(e, line);
    }
  }

  /** An eligible method is the first in its own subtree, and it is the one that changes. */
  lemma EligibleSpec(e: Element, line: int)
    requires Eligible(e, line)
    ensures AnyEligible(MethodsOf(e), line)
    ensures UpdatedFirst(MethodsOf(e), MethodsOf(AppendDefault(e)), line)
  {
    var rest := Methods(e.header) + Methods(e.body.value.stmts);
    MethodsOfMethod(e, line);
    AppendDefaultMethods(e);
    ConcatAssoc([e], Methods(e.header), Methods(e.body.value.stmts));
    ConcatAssoc([AppendDefault(e)], Methods(e.header), Methods(e.body.value.stmts));
    UpdatedHead(e, rest, line);
  }

  /** An eligible method in front is the first eligible one, and only it changes. */
  lemma UpdatedHead(x: Element, t: seq<Element>, line: int)
    requires Eligible(x, line)
    ensures AnyEligible([x] + t, line) && FirstEligible([x] + t, line) == 0
    ensures UpdatedFirst([x] + t, [AppendDefault(x)] + t, line)
  {
    assert ([x] + t)[0] == x;
    forall j | 0 < j < |[x] + t| ensures ([AppendDefault(x)] + t)[j] == ([x] + t)[j] {
      assert ([AppendDefault(x)] + t)[j] == t[j - 1] == ([x] + t)[j];
    }
  }

  /** Appending a `return` adds no method: the subtree's methods are the same after the first. */
  lemma AppendDefaultMethods(e: Element)
    requires e.Method? && NonVoid(e.returnType) && e.body.Some?
    ensures MethodsOf(AppendDefault(e)) == [AppendDefault(e)] + Methods(e.header) + Methods(e.body.value.stmts)
  {
    var b := e.body.value;
    var ret := DefaultReturn(e.returnType.value);
    MethodsAppend(b.stmts, [ret]);
    assert Methods(b.stmts + [ret]) == Methods(b.stmts);
  }

  /** Putting a method that is not eligible in front of a sequence moves its first eligible method by one. */
  lemma ConsUpdate(x: Element, y: Element, t: seq<Element>, t2: seq<Element>, line: int)
    requires !Eligible(x, line) && AnyEligible(t, line) && UpdatedFirst(t, t2, line)
    ensures AnyEligible([x] + t, line) && UpdatedFirst([x] + t, [y] + t2, line)
  {
    FirstEligibleAppend([x], t, line);
    var i := FirstEligible(t, line);
    var ms, ms2 := [x] + t, [y] + t2;
    assert FirstEligible(ms, line) == 1 + i;
    assert ms2[1 + i] == t2[i] && ms[1 + i] == t[i];
    forall j | 1 + i < j < |ms| ensures ms2[j] == ms[j] {
      assert ms2[j] == t2[j - 1] && ms[j] == t[j - 1];
    }
  }

  lemma ConcatAssoc<T>(a: seq<T>, b: seq<T>, c: seq<T>)
    ensures a + b + c == a + (b + c)
  {
  }

  /** The methods of a method's subtree: itself, those in its header, those in its body. */
  lemma MethodsOfMethod(e: Element, line: int)
    requires e.Method?
    ensures MethodsOf(e) == [e] + Methods(e.header) + BodyMethods(e.body)
    ensures e.body.Some? ==> BodyMethods(e.body) == Methods(e.body.value.stmts)
    ensures e.body.None? ==> BodyMethods(e.body) == []
    ensures !Eligible(e, line) ==> !AnyEligible([e], line)
  {
  }

  /** A method that is not eligible passes the search on to its header, then to its body. */
  lemma MethodSpec(e: Element, line: int)
    requires e.Method? && !Eligible(e, line)
    requires FallbackSeq(e.header, line).1 <==> AnyEligible(Methods(e.header), line)
    requires FallbackSeq(e.header, line).1 ==>
      UpdatedFirst(Methods(e.header), Methods(FallbackSeq(e.header, line).0), line)
    requires e.body.Some? ==> (FallbackSeq(e.body.value.stmts, line).1 <==> AnyEligible(Methods(e.body.value.stmts), line))
    requires e.body.Some? && FallbackSeq(e.body.value.stmts, line).1 ==>
      UpdatedFirst(Methods(e.body.value.stmts), Methods(FallbackSeq(e.body.value.stmts, line).0), line)
    ensures FallbackOf(e, line).1 <==> AnyEligible(MethodsOf(e), line)
    ensures FallbackOf(e, line).1 ==> UpdatedFirst(MethodsOf(e), MethodsOf(FallbackOf(e, line).0), line)
  {
    MethodsOfMethod(e, line);
    var hm, bm := Methods(e.header), BodyMethods(e.body);
    FirstEligibleAppend([e], hm, line);
    FirstEligibleAppend([e] + hm, bm, line);
    var (h, found) := FallbackSeq(e.header, line);
    if found {
      HeaderCase(e, h, line);
      assert FallbackOf(e, line).0 == Method(e.pos, e.returnType, h, e.body);
    } else if e.body.Some? {
      var (st, foundInBody) := FallbackSeq(e.body.value.stmts, line);
      if foundInBody {
        BodyCase(e, st, line);
        assert FallbackOf(e, line).0 == Method(e.pos, e.returnType, e.header, Some(Block(e.body.value.pos, st)));
      }
    }
  }

  /** The first eligible method lies in the header: the header's update is the subtree's update. */
  lemma HeaderCase(e: Element, h: seq<Element>, line: int)
    requires e.Method? && !Eligible(e, line)
    requires AnyEligible(Methods(e.header), line) && UpdatedFirst(Methods(e.header), Methods(h), line)
    ensures AnyEligible(MethodsOf(e), line)
    ensures UpdatedFirst(MethodsOf(e), MethodsOf(Method(e.pos, e.returnType, h, e.body)), line)
  {
    var e2 := Method(e.pos, e.returnType, h, e.body);
    MethodsOfMethod(e, line);
    MethodsOfMethod(e2, line);
    var hm, bm := Methods(e.header), BodyMethods(e.body);
    UpdatedFirstInPrefix(hm, Methods(h), bm, line);
    ConsUpdate(e, e2, hm + bm, Methods(h) + bm, line);
    ConcatAssoc([e], hm, bm);
    ConcatAssoc([e2], Methods(h), bm);
  }

  /** The first eligible method lies in the body: the body's update is the subtree's update. */
  lemma BodyCase(e: Element, st: seq<Element>, line: int)
    requires e.Method? && !Eligible(e, line) && e.body.Some?
    requires !AnyEligible(Methods(e.header), line)
    requires AnyEligible(Methods(e.body.value.stmts), line)
    requires UpdatedFirst(Methods(e.body.value.stmts), Methods(st), line)
    ensures AnyEligible(MethodsOf(e), line)
    ensures UpdatedFirst(MethodsOf(e), MethodsOf(Method(e.pos, e.returnType, e.header, Some(Block(e.body.value.pos, st)))), line)
  {
    var e2 := Method(e.pos, e.returnType, e.header, Some(Block(e.body.value.pos, st)));
    MethodsOfMethod(e, line);
    MethodsOfMethod(e2, line);
    var hm, bm := Methods(e.header), BodyMethods(e.body);
    UpdatedFirstInSuffix(hm, bm, Methods(st), line);
    ConsUpdate(e, e2, hm + bm, hm + Methods(st), line);
    ConcatAssoc([e], hm, bm);
    ConcatAssoc([e2], hm, Methods(st));
  }

  // ---------------------------------------------------------------------------
  // The whole forest: one method replaced, nothing else changed

  /** The method that gains the default return: the first eligible one in model order. */
  function Chosen(ms: seq<Element>, line: int): (m: Element)
    requires AnyEligible(ms, line)
    ensures Eligible(m, line)
  {
    ms[FirstEligible(ms, line)]
  }

  /**
   * `es2` is `es` with one occurrence of the method `m`, at any depth,
   * replaced by `m` with a default return appended; every other element,
   * position, kind and statement is the same.
   */
  ghost predicate ReplacedSeq(es: seq<Element>, es2: seq<Element>, m: Element) {
    && |es2| == |es|
    && exists k :: 0 <= k < |es| && ReplacedOf(es[k], es2[k], m) && Unchanged(es, es2, k)
  }

  /** Every position other than `k` holds the same element. */
  ghost predicate Unchanged(es: seq<Element>, es2: seq<Element>, k: int)
    requires |es2| == |es|
  {
    forall j :: 0 <= j < |es| && j != k ==> es2[j] == es[j]
  }

  ghost predicate ReplacedOf(e: Element, e2: Element, m: Element) {
    || (m.Method? && NonVoid(m.returnType) && m.body.Some? && e == m && e2 == AppendDefault(m))
    || (&& e.Node? && e2.Node? && e2.kind == e.kind && e2.pos == e.pos
        && ReplacedSeq(e.children, e2.children, m))
    || (&& e.Method? && e2.Method? && e2.pos == e.pos && e2.returnType == e.returnType
        && ((ReplacedSeq(e.header, e2.header, m) && e2.body == e.body)
            || (&& e2.header == e.header && e.body.Some? && e2.body.Some?
                && e2.body.value.pos == e.body.value.pos
                && ReplacedSeq(e.body.value.stmts, e2.body.value.stmts, m))))
  }

  /**
   * When some method in model order is eligible, the fallback changes the
   * forest in exactly one place: the first eligible method gains the default
   * return, and every other element stays as it was.
   */
  lemma {:induction false} FallbackSeqReplaces(es: seq<Element>, line: int)
    requires AnyEligible(Methods(es), line)
    ensures FallbackSeq(es, line).1
    ensures ReplacedSeq(es, FallbackSeq(es, line).0, Chosen(Methods(es), line))
  {
    var e, rest := es[0], es[1..];
    var a, b := MethodsOf(e), Methods(rest);
    assert Methods(es) == a + b;
    assert es == [e] + rest;
    FirstEligibleAppend(a, b, line);
    if AnyEligible(a, line) {
      FallbackOfReplaces(e, line);
      var i := FirstEligible(a, line);
      assert (a + b)[i] == a[i];
      ReplacedHead(e, FallbackOf(e, line).0, rest, Chosen(a, line));
    } else {
      FallbackOfSpec(e, line);
      FallbackSeqReplaces(rest, line);
      var i := FirstEligible(b, line);
      assert (a + b)[|a| + i] == b[i];
      ReplacedTail(e, rest, FallbackSeq(rest, line).0, Chosen(b, line));
    }
  }

  /** A replacement in the first element is a replacement in the sequence. */
  lemma ReplacedHead(x: Element, h: Element, rest: seq<Element>, m: Element)
    requires ReplacedOf(x, h, m)
    ensures ReplacedSeq([x] + rest, [h] + rest, m)
  {
    var es, r := [x] + rest, [h] + rest;
    assert es[0] == x && r[0] == h;
    forall j | 0 < j < |es| ensures r[j] == es[j] {
      assert r[j] == rest[j - 1];
    }
    assert Unchanged(es, r, 0);
  }

  /** A replacement behind an unchanged first element. */
  lemma ReplacedTail(x: Element, rest: seq<Element>, t: seq<Element>, m: Element)
    requires ReplacedSeq(rest, t, m)
    ensures ReplacedSeq([x] + rest, [x] + t, m)
  {
    var k :| 0 <= k < |rest| && ReplacedOf(rest[k], t[k], m) && Unchanged(rest, t, k);
    var es, r := [x] + rest, [x] + t;
    assert r[k + 1] == t[k] && es[k + 1] == rest[k];
    forall j | 0 <= j < |es| && j != k + 1 ensures r[j] == es[j] {
      if j > 0 {
        assert r[j] == t[j - 1] && es[j] == rest[j - 1];
      }
    }
    assert Unchanged(es, r, k + 1);
  }

  lemma {:induction false} FallbackOfReplaces(e: Element, line: int)
    requires AnyEligible(MethodsOf(e), line)
    ensures FallbackOf(e, line).1
    ensures ReplacedOf(e, FallbackOf(e, line).0, Chosen(MethodsOf(e), line))
  {
    if Eligible(e, line) {
      UpdatedHead(e, Methods(e.header) + BodyMethods(e.body), line);
      MethodsOfMethod(e, line);
      ConcatAssoc([e], Methods(e.header), BodyMethods(e.body));
    } else {
      match e
      case Node(kind, pos, children) =>
        FallbackSeqReplaces(children, line);
      case Method(pos, returnType, header, body) =>
        MethodsOfMethod(e, line);
        var hm, bm := Methods(header), BodyMethods(body);
        FirstEligibleAppend([e], hm, line);
        FirstEligibleAppend([e] + hm, bm, line);
        if AnyEligible(hm, line) {
          FallbackSeqReplaces(header, line);
          var i := FirstEligible(hm, line);
          assert ([e] + hm + bm)[1 + i] == hm[i];
        } else {
          FallbackSeqSpec(header, line);
          FallbackSeqReplaces(body.value.stmts, line);
          var i := FirstEligible(bm, line);
          assert ([e] + hm + bm)[1 + |hm| + i] == bm[i];
        }
    }
  }

  /** The fallback adds no positioned element: every line's targets are unchanged. */
  lemma {:induction false} FallbackKeepsTargets(es: seq<Element>, line: int, other: int)
    ensures TargetKinds(FallbackSeq(es, line).0, other) == TargetKinds(es, other)
  {
    if es != [] {
      FallbackOfKeepsTargets(es[0], line, other);
      var (h, found) := FallbackOf(es[0], line);
      if found {
        assert ([h] + es[1..])[0] == h && ([h] + es[1..])[1..] == es[1..];
      } else {
        FallbackKeepsTargets(es[1..], line, other);
        var t := FallbackSeq(es[1..], line).0;
        assert ([es[0]] + t)[0] == es[0] && ([es[0]] + t)[1..] == t;
      }
    }
  }

  lemma {:induction false} FallbackOfKeepsTargets(e: Element, line: int, other: int)
    ensures TargetKindsOf(FallbackOf(e, line).0, other) == TargetKindsOf(e, other)
  {
    if Eligible(e, line) {
      AppendDefaultKeepsTargets(e, other);
    } else {
      match e
      case Node(_, _, children) => FallbackKeepsTargets(children, line, other);
      case Lit(_, _) =>
      case Method(_, _, header, body) =>
        FallbackKeepsTargets(header, line, other);
        if body.Some? {
          FallbackKeepsTargets(body.value.stmts, line, other);
        }
    }
  }

  /** The appended `return` has no position, so it starts on no line. */
  lemma AppendDefaultKeepsTargets(e: Element, other: int)
    requires e.Method? && NonVoid(e.returnType) && e.body.Some?
    ensures TargetKindsOf(AppendDefault(e), other) == TargetKindsOf(e, other)
  {
    var b := e.body.value;
    TargetKindsAppend(b.stmts, [DefaultReturn(e.returnType.value)], other);
    assert BodyTargetKinds(AppendDefault(e).body, other) == BodyTargetKinds(e.body, other);
  }
}

=== FILE: file_utility.dfy ===
/**
 * File lookup and counting helpers. Directory walks are inputs: a walk is
 * either missing (the directory does not exist), failed (opening the walk threw
 * an IOException), or the entries `Files.walk` yields, in walk order.
 *
 * Line counting follows Java's `String.split("\\r?\\n")`: separators are found
 * leftmost-first, trailing empty pieces are dropped, and a text with no
 * separator at all counts as one piece (even the empty text).
 */
module FileUtility {
  import opened Wrappers
  import opened JavaText

  /** One path yielded by a walk: its string form, its last name component, and whether it is a regular file. */
  datatype WalkEntry = WalkEntry(path: string, fileName: string, isRegularFile: bool)

  datatype DirWalk = Missing | WalkFailed | Walked(entries: seq<WalkEntry>)

  /** The production root and the test root, searched in that order. */
  datatype SourceRoots = SourceRoots(src: DirWalk, test: DirWalk)

  predicate IsJavaFile(e: WalkEntry) {
    e.isRegularFile && EndsWith(e.path, ".java")
  }

  function CountJava(entries: seq<WalkEntry>): (r: nat)
    ensures r <= |entries|
    ensures r == 0 <==> forall i :: 0 <= i < |entries| ==> !IsJavaFile(entries[i])
    ensures r == |entries| <==> forall i :: 0 <= i < |entries| ==> IsJavaFile(entries[i])
  {
    if entries == [] then 0
    else
      var rest := CountJava(entries[1..]);
      assert forall i :: 1 <= i < |entries| ==> entries[i] == entries[1..][i - 1];
      (if IsJavaFile(entries[0]) then 1 else 0) + rest
  }

  /** The positions in the walk of the Java source files from `lo` on. */
  ghost function JavaIndicesFrom(entries: seq<WalkEntry>, lo: nat): set<nat> {
    set i: nat | lo <= i < |entries| && IsJavaFile(entries[i])
  }

  /** Counting the entries from `lo` on counts exactly the Java files among them. */
  lemma {:induction false} CountJavaFrom(entries: seq<WalkEntry>, lo: nat)
    requires lo <= |entries|
    ensures CountJava(entries[lo..]) == |JavaIndicesFrom(entries, lo)|
    decreases |entries| - lo
  {
    if lo == |entries| {
      assert JavaIndicesFrom(entries, lo) == {};
    } else {
      CountJavaFrom(entries, lo + 1);
      assert entries[lo..][1..] == entries[lo + 1..];
      var here: set<nat> := if IsJavaFile(entries[lo]) then {lo} else {};
      assert JavaIndicesFrom(entries, lo) == here + JavaIndicesFrom(entries, lo + 1);
      assert here !! JavaIndicesFrom(entries, lo + 1);
    }
  }

  /** Counting a walk in two parts adds up. */
  lemma {:induction false} CountJavaAppend(a: seq<WalkEntry>, b: seq<WalkEntry>)
    ensures CountJava(a + b) == CountJava(a) + CountJava(b)
    decreases |a|
  {
    if a == [] {
      assert a + b == b;
    } else {
      assert (a + b)[1..] == a[1..] + b;
      CountJavaAppend(a[1..], b);
    }
  }

  /** `countJavaFilesInDirectory`: regular files whose path ends in ".java"; 0 for a missing or unreadable directory. */
  function CountJavaFilesInDirectory(dir: DirWalk): (r: nat)
    ensures !dir.Walked? ==> r == 0
    ensures dir.Walked? ==> r == |set i: nat | i < |dir.entries| && IsJavaFile(dir.entries[i])|
    ensures dir.Walked? ==> r <= |dir.entries|
    ensures dir.Walked? ==> (r == 0 <==> forall i :: 0 <= i < |dir.entries| ==> !IsJavaFile(dir.entries[i]))
  {
    match dir
    case Walked(entries) =>
      CountJavaFrom(entries, 0);
      assert entries[0..] == entries;
      assert JavaIndicesFrom(entries, 0) == set i: nat | i < |entries| && IsJavaFile(entries[i]);
      CountJava(entries)
    case _ => 0
  }

  /** `countAllJavaFiles`: production root plus test root. */
  function CountAllJavaFiles(roots: SourceRoots): nat {
    CountJavaFilesInDirectory(roots.src) + CountJavaFilesInDirectory(roots.test)
  }

  predicate Named(e: WalkEntry, fileName: string) {
    e.isRegularFile && e.fileName == fileName
  }

  /** The path of the first entry, in walk order, that is a regular file with the given name. */
  function FirstNamed(entries: seq<WalkEntry>, fileName: string): (r: Option<string>)
    ensures r.None? <==> forall i :: 0 <= i < |entries| ==> !Named(entries[i], fileName)
    ensures r.Some? ==> exists i :: 0 <= i < |entries| && Named(entries[i], fileName)
                          && entries[i].path == r.value
                          && forall j :: 0 <= j < i ==> !Named(entries[j], fileName)
  {
    if entries == [] then None
    else if Named(entries[0], fileName) then Some(entries[0].path)
    else
      var r := FirstNamed(entries[1..], fileName);
      assert forall i :: 1 <= i < |entries| ==> entries[i] == entries[1..][i - 1];
      if r.Some? then
        ghost var i :| 0 <= i < |entries[1..]| && Named(entries[1..][i], fileName)
                       && entries[1..][i].path == r.value
                       && forall j :: 0 <= j < i ==> !Named(entries[1..][j], fileName);
        assert Named(entries[i + 1], fileName) && entries[i + 1].path == r.value;
        assert forall j :: 0 <= j < i + 1 ==> !Named(entries[j], fileName) by {
          forall j | 0 <= j < i + 1 ensures !Named(entries[j], fileName) {
            if j > 0 { assert entries[j] == entries[1..][j - 1]; }
          }
        }
        r
      else r
  }

  /** A walk result that contains a regular file of the given name. */
  predicate HasNamed(dir: DirWalk, fileName: string) {
    dir.Walked? && exists i :: 0 <= i < |dir.entries| && Named(dir.entries[i], fileName)
  }

  /** `findJavaFileInDirectory`: null for a missing or unreadable directory or when no regular file
      has that name; otherwise the first such file in walk order (duplicates only logged). */
  function FindJavaFileInDirectory(fileName: string, dir: DirWalk): (r: Option<string>)
    ensures r.None? <==> !HasNamed(dir, fileName)
    ensures r.Some? ==> exists i :: 0 <= i < |dir.entries| && Named(dir.entries[i], fileName)
                          && dir.entries[i].path == r.value
                          && forall j :: 0 <= j < i ==> !Named(dir.entries[j], fileName)
  {
    match dir
    case Walked(entries) => FirstNamed(entries, fileName)
    case _ => None
  }

  /** `findJavaFile`: the production root wins whenever it has the file; the test root is consulted only otherwise. */
  function FindJavaFile(fileName: string, roots: SourceRoots): (r: Option<string>)
    ensures HasNamed(roots.src, fileName) ==> r == FindJavaFileInDirectory(fileName, roots.src)
    ensures !HasNamed(roots.src, fileName) ==> r == FindJavaFileInDirectory(fileName, roots.test)
    ensures r.None? <==> !HasNamed(roots.src, fileName) && !HasNamed(roots.test, fileName)
  {
    var found := FindJavaFileInDirectory(fileName, roots.src);
    if found.Some? then found else FindJavaFileInDirectory(fileName, roots.test)
  }

  // ---------------------------------------------------------------------------
  // Line counting: String.split("\\r?\\n").length

  /** The pieces of `s` between matches of `\r?\n`, found leftmost-first, trailing empties kept. */
  function Segments(s: string): (r: seq<string>)
    ensures |r| >= 1
    decreases |s|
  {
    if s == [] then [[]]
    else if s[0] == '\n' then [[]] + Segments(s[1..])
    else if |s| >= 2 && s[0] == '\r' && s[1] == '\n' then [[]] + Segments(s[2..])
    else
      var rest := Segments(s[1..]);
      [[s[0]] + rest[0]] + rest[1..]
  }

  /** `split` with limit 0 drops every trailing empty piece. */
  function DropTrailingEmpty(pieces: seq<string>): (r: seq<string>)
    ensures |r| <= |pieces| && r == pieces[..|r|]
    ensures r == [] || r[|r| - 1] != []
    ensures forall i :: |r| <= i < |pieces| ==> pieces[i] == []
  {
    if pieces == [] then []
    else if pieces[|pieces| - 1] == [] then DropTrailingEmpty(pieces[..|pieces| - 1])
    else pieces
  }

  /**
   * `s.split("\\r?\\n").length`: with no separator the whole text is the
   * single piece; otherwise the pieces up to the last non-empty one.
   */
  function LineCount(s: string): (r: nat)
    ensures '\n' !in s ==> r == 1
    ensures '\n' in s ==> r <= |Segments(s)| && (r == 0 || Segments(s)[r - 1] != [])
    ensures '\n' in s ==> forall k :: r <= k < |Segments(s)| ==> Segments(s)[k] == []
  {
    if '\n' !in s then 1 else |DropTrailingEmpty(Segments(s))|
  }

  /** `calculateDeletedLines`: how many lines shorter the modified text is, never negative. */
  function CalculateDeletedLines(originalContent: string, modifiedContent: string): (r: nat)
    ensures LineCount(originalContent) > LineCount(modifiedContent) ==>
              r == LineCount(originalContent) - LineCount(modifiedContent)
    ensures LineCount(originalContent) <= LineCount(modifiedContent) ==> r == 0
  {
    var originalLines := LineCount(originalContent);
    var modifiedLines := LineCount(modifiedContent);
    if originalLines - modifiedLines > 0 then originalLines - modifiedLines else 0
  }

  /** Identical contents never count as deleted lines. */
  lemma DeletedLinesOfIdentical(content: string)
    ensures CalculateDeletedLines(content, content) == 0
  {
  }

  /** Every LF line break turned into CRLF. */
  function ToCrlf(s: string): string {
    if s == [] then []
    else if s[0] == '\n' then "\r\n" + ToCrlf(s[1..])
    else [s[0]] + ToCrlf(s[1..])
  }

  /** A text with LF line breaks splits into exactly the pieces of the same text with CRLF
      line breaks, so both count the same lines (provided the text has no stray carriage return). */
  lemma {:induction false} CrlfSplitsLikeLf(s: string)
    requires '\r' !in s
    ensures Segments(ToCrlf(s)) == Segments(s)
    ensures LineCount(ToCrlf(s)) == LineCount(s)
  {
    if s != [] {
      CrlfSplitsLikeLf(s[1..]);
      var t := ToCrlf(s);
      if s[0] == '\n' {
        assert t[2..] == ToCrlf(s[1..]);
      } else {
        assert t[1..] == ToCrlf(s[1..]);
        assert t[0] == s[0];
      }
      assert '\n' in t <==> '\n' in s by { NewlineInCrlf(s); }
    }
  }

  lemma {:induction false} NewlineInCrlf(s: string)
    ensures '\n' in ToCrlf(s) <==> '\n' in s
  {
    if s != [] {
      NewlineInCrlf(s[1..]);
      var t := ToCrlf(s);
      if s[0] == '\n' {
        assert t[2..] == ToCrlf(s[1..]);
        assert t[1] == '\n';
      } else {
        assert t == [s[0]] + ToCrlf(s[1..]);
        assert s == [s[0]] + s[1..];
      }
    }
  }

  /** One line without line-break characters. */
  predicate IsLine(l: string) {
    '\n' !in l && '\r' !in l
  }

  /** Lines each followed by "\n", as a file is usually written. */
  function Terminated(lines: seq<string>): string {
    if lines == [] then [] else lines[0] + "\n" + Terminated(lines[1..])
  }

  lemma {:induction false} SegmentsOfLine(l: string, rest: string)
    requires IsLine(l)
    ensures Segments(l + "\n" + rest) == [l] + Segments(rest)
    decreases |l|
  {
    var s := l + "\n" + rest;
    if l == [] {
      assert s[1..] == rest;
    } else {
      assert s[1..] == l[1..] + "\n" + rest;
      assert l[0] != '\n' && l[0] != '\r';
      SegmentsOfLine(l[1..], rest);
      assert [l[0]] + l[1..] == l;
    }
  }

  lemma {:induction false} SegmentsOfTerminated(lines: seq<string>)
    requires forall i :: 0 <= i < |lines| ==> IsLine(lines[i])
    ensures Segments(Terminated(lines)) == lines + [[]]
  {
    if lines != [] {
      SegmentsOfTerminated(lines[1..]);
      SegmentsOfLine(lines[0], Terminated(lines[1..]));
      assert lines[0] + "\n" + Terminated(lines[1..]) == Terminated(lines);
      assert [lines[0]] + (lines[1..] + [[]]) == lines + [[]];
    }
  }

  /** A file of n >= 1 newline-terminated lines whose last line is not blank counts n lines;
      so deleting whole lines from such a file is reported as exactly that many deleted lines. */
  lemma LineCountOfTerminated(lines: seq<string>)
    requires |lines| >= 1 && lines[|lines| - 1] != []
    requires forall i :: 0 <= i < |lines| ==> IsLine(lines[i])
    ensures LineCount(Terminated(lines)) == |lines|
  {
    SegmentsOfTerminated(lines);
    var pieces := lines + [[]];
    assert pieces[..|pieces| - 1] == lines;
    assert '\n' in Terminated(lines) by {
      assert Terminated(lines) == lines[0] + "\n" + Terminated(lines[1..]);
      assert Terminated(lines)[|lines[0]|] == '\n';
    }
  }

  lemma DeletedWholeLines(original: seq<string>, kept: seq<string>)
    requires |kept| >= 1 && |original| >= |kept|
    requires original[|original| - 1] != [] && kept[|kept| - 1] != []
    requires forall i :: 0 <= i < |original| ==> IsLine(original[i])
    requires forall i :: 0 <= i < |kept| ==> IsLine(kept[i])
    ensures CalculateDeletedLines(Terminated(original), Terminated(kept)) == |original| - |kept|
  {
    LineCountOfTerminated(original);
    LineCountOfTerminated(kept);
  }

  /** The edge cases of Java's split: a trailing newline adds no line, a lone newline counts none,
      and the empty text still counts one. */
  lemma LineCountEdgeCases()
    ensures LineCount("a\n") == 1
    ensures LineCount("a\r\n") == 1
    ensures LineCount("\n") == 0
    ensures LineCount("") == 1
    ensures LineCount("a\n\nb") == 3
  {
    assert "a\n"[1..] == "\n";
    assert "\n"[1..] == "";
    assert "a\r\n"[1..] == "\r\n";
    assert "\r\n"[2..] == "";
    assert "a\n\nb"[1..] == "\n\nb";
    assert "\n\nb"[1..] == "\nb";
    assert "\nb"[1..] == "b";
    assert "b"[1..] == "";
    assert '\n' in "a\n\nb" by { assert "a\n\nb"[1] == '\n'; }
    assert '\n' in "a\n" by { assert "a\n"[1] == '\n'; }
    assert '\n' in "a\r\n" by { assert "a\r\n"[2] == '\n'; }
    assert '\n' in "\n" by { assert "\n"[0] == '\n'; }
  }
}

=== FILE: imports.dfy ===
/**
 * The import step of `processImportsAndSave`: the imports of the file's
 * compilation unit whose valid position lies on an error line are collected
 * (each counted under "CtImport") and then removed with `List.removeAll`.
 *
 * `removeAll` compares with `equals`, and Spoon's element equality is
 * structural and ignores positions: it removes every import equal in content
 * to a collected one, wherever it stands.
 */
module Imports {
  import opened Wrappers
  import opened Syntax

  /** The histogram key of a removed import. */
  const ImportKind: string := "CtImport"

  /** The import has a valid position whose line is an error line. */
  predicate OnErrorLine(i: Import, errorLines: set<int>) {
    i.pos.Some? && i.pos.value.line in errorLines
  }

  /** The imports collected for removal, in the unit's order. */
  function Flagged(imports: seq<Import>, errorLines: set<int>): (r: seq<Import>)
    ensures |r| <= |imports|
    ensures forall k :: 0 <= k < |r| ==> r[k] in imports && OnErrorLine(r[k], errorLines)
    ensures forall k :: 0 <= k < |imports| && OnErrorLine(imports[k], errorLines) ==> imports[k] in r
  {
    if imports == [] then []
    else
      var rest := Flagged(imports[1..], errorLines);
      assert forall k :: 1 <= k < |imports| ==> imports[k] == imports[1..][k - 1];
      if OnErrorLine(imports[0], errorLines) then [imports[0]] + rest else rest
  }

  /** Collecting from two parts of the import list collects from each part, in order. */
  lemma {:induction false} FlaggedAppend(a: seq<Import>, b: seq<Import>, errorLines: set<int>)
    ensures Flagged(a + b, errorLines) == Flagged(a, errorLines) + Flagged(b, errorLines)
    decreases |a|
  {
    if a == [] {
      assert a + b == b;
    } else {
      assert (a + b)[1..] == a[1..] + b;
      FlaggedAppend(a[1..], b, errorLines);
    }
  }

  /**
   * Around any import, the collected list is what is collected before it,
   * then the import itself exactly when it stands on an error line, then
   * what is collected after it: the unit's order, each import once.
   */
  lemma FlaggedSplit(imports: seq<Import>, errorLines: set<int>, k: nat)
    requires k < |imports|
    ensures Flagged(imports, errorLines) ==
      Flagged(imports[..k], errorLines)
      + (if OnErrorLine(imports[k], errorLines) then [imports[k]] else [])
      + Flagged(imports[k + 1..], errorLines)
  {
    assert imports == imports[..k] + ([imports[k]] + imports[k + 1..]);
    FlaggedAppend(imports[..k], [imports[k]] + imports[k + 1..], errorLines);
    FlaggedAppend([imports[k]], imports[k + 1..], errorLines);
    assert [imports[k]][1..] == [];
  }

  /** The positions from `lo` on of the imports that stand on an error line. */
  ghost function FlaggedIndicesFrom(imports: seq<Import>, errorLines: set<int>, lo: nat): set<nat> {
    set k: nat | lo <= k < |imports| && OnErrorLine(imports[k], errorLines)
  }

  lemma {:induction false} FlaggedFrom(imports: seq<Import>, errorLines: set<int>, lo: nat)
    requires lo <= |imports|
    ensures |Flagged(imports[lo..], errorLines)| == |FlaggedIndicesFrom(imports, errorLines, lo)|
    decreases |imports| - lo
  {
    if lo == |imports| {
      assert FlaggedIndicesFrom(imports, errorLines, lo) == {};
    } else {
      FlaggedFrom(imports, errorLines, lo + 1);
      assert imports[lo..][1..] == imports[lo + 1..];
      var here: set<nat> := if OnErrorLine(imports[lo], errorLines) then {lo} else {};
      assert FlaggedIndicesFrom(imports, errorLines, lo) == here + FlaggedIndicesFrom(imports, errorLines, lo + 1);
      assert here !! FlaggedIndicesFrom(imports, errorLines, lo + 1);
    }
  }

  /** One "CtImport" per import that stands on an error line: the collected list has exactly that many entries. */
  lemma FlaggedCount(imports: seq<Import>, errorLines: set<int>)
    ensures |Flagged(imports, errorLines)| == |set k: nat | k < |imports| && OnErrorLine(imports[k], errorLines)|
  {
    FlaggedFrom(imports, errorLines, 0);
    assert imports[0..] == imports;
    assert FlaggedIndicesFrom(imports, errorLines, 0) == set k: nat | k < |imports| && OnErrorLine(imports[k], errorLines);
  }

  /** Some collected import has this content. */
  predicate Collected(flagged: seq<Import>, content: string) {
    exists k :: 0 <= k < |flagged| && flagged[k].content == content
  }

  /** `imports.removeAll(flagged)`: every import equal to a collected one goes, the rest stay. */
  function RemoveAll(imports: seq<Import>, flagged: seq<Import>): (r: seq<Import>)
    ensures |r| <= |imports|
    ensures forall k :: 0 <= k < |r| ==> r[k] in imports && !Collected(flagged, r[k].content)
    ensures forall k :: 0 <= k < |imports| && !Collected(flagged, imports[k].content) ==> imports[k] in r
  {
    if imports == [] then []
    else
      var rest := RemoveAll(imports[1..], flagged);
      assert forall k :: 1 <= k < |imports| ==> imports[k] == imports[1..][k - 1];
      if Collected(flagged, imports[0].content) then rest else [imports[0]] + rest
  }

  /** Removing from two parts of the import list removes from each part, in order. */
  lemma {:induction false} RemoveAllAppend(a: seq<Import>, b: seq<Import>, flagged: seq<Import>)
    ensures RemoveAll(a + b, flagged) == RemoveAll(a, flagged) + RemoveAll(b, flagged)
    decreases |a|
  {
    if a == [] {
      assert a + b == b;
    } else {
      assert (a + b)[1..] == a[1..] + b;
      RemoveAllAppend(a[1..], b, flagged);
    }
  }

  /**
   * Around any import, what remains is what remains before it, then the
   * import itself exactly when no collected import has its content, then
   * what remains after it: the survivors keep their order and multiplicity.
   */
  lemma RemoveAllSplit(imports: seq<Import>, flagged: seq<Import>, k: nat)
    requires k < |imports|
    ensures RemoveAll(imports, flagged) ==
      RemoveAll(imports[..k], flagged)
      + (if Collected(flagged, imports[k].content) then [] else [imports[k]])
      + RemoveAll(imports[k + 1..], flagged)
  {
    assert imports == imports[..k] + ([imports[k]] + imports[k + 1..]);
    RemoveAllAppend(imports[..k], [imports[k]] + imports[k + 1..], flagged);
    RemoveAllAppend([imports[k]], imports[k + 1..], flagged);
    RemoveAllSingle(imports[k], flagged);
  }

  lemma RemoveAllSingle(i: Import, flagged: seq<Import>)
    ensures RemoveAll([i], flagged) == if Collected(flagged, i.content) then [] else [i]
  {
    assert [i][1..] == [];
  }

  /** The positions from `lo` on of the imports that `removeAll` keeps. */
  ghost function KeptIndicesFrom(imports: seq<Import>, flagged: seq<Import>, lo: nat): set<nat> {
    set k: nat | lo <= k < |imports| && !Collected(flagged, imports[k].content)
  }

  lemma {:induction false} RemoveAllFrom(imports: seq<Import>, flagged: seq<Import>, lo: nat)
    requires lo <= |imports|
    ensures |RemoveAll(imports[lo..], flagged)| == |KeptIndicesFrom(imports, flagged, lo)|
    decreases |imports| - lo
  {
    if lo == |imports| {
      assert KeptIndicesFrom(imports, flagged, lo) == {};
    } else {
      RemoveAllFrom(imports, flagged, lo + 1);
      assert imports[lo..][1..] == imports[lo + 1..];
      var here: set<nat> := if Collected(flagged, imports[lo].content) then {} else {lo};
      assert KeptIndicesFrom(imports, flagged, lo) == here + KeptIndicesFrom(imports, flagged, lo + 1);
      assert here !! KeptIndicesFrom(imports, flagged, lo + 1);
    }
  }

  /** Exactly one entry remains per import whose content was not collected. */
  lemma RemoveAllCount(imports: seq<Import>, flagged: seq<Import>)
    ensures |RemoveAll(imports, flagged)| == |set k: nat | k < |imports| && !Collected(flagged, imports[k].content)|
  {
    RemoveAllFrom(imports, flagged, 0);
    assert imports[0..] == imports;
    assert KeptIndicesFrom(imports, flagged, 0) == set k: nat | k < |imports| && !Collected(flagged, imports[k].content);
  }

  /** Removing nothing keeps the imports as they are. */
  lemma {:induction false} RemoveNothing(imports: seq<Import>)
    ensures RemoveAll(imports, []) == imports
  {
    if imports != [] {
      RemoveNothing(imports[1..]);
    }
  }

  /** The imports with pairwise different contents (no import is written twice). */
  predicate DistinctContents(imports: seq<Import>) {
    forall a, b :: 0 <= a < b < |imports| ==> imports[a].content != imports[b].content
  }

  /** When no import is written twice, exactly the imports on error lines are removed. */
  lemma RemovesExactlyOnErrorLines(imports: seq<Import>, errorLines: set<int>)
    requires DistinctContents(imports)
    ensures forall k :: 0 <= k < |imports| ==>
      (imports[k] in RemoveAll(imports, Flagged(imports, errorLines)) <==> !OnErrorLine(imports[k], errorLines))
  {
    var flagged := Flagged(imports, errorLines);
    var r := RemoveAll(imports, flagged);
    forall k | 0 <= k < |imports|
      ensures imports[k] in r <==> !OnErrorLine(imports[k], errorLines)
    {
      if OnErrorLine(imports[k], errorLines) {
        var f :| 0 <= f < |flagged| && flagged[f] == imports[k];
        assert Collected(flagged, imports[k].content);
      }
    }
  }

  /** An import on no error line is still removed when the same import also stands on an error line. */
  lemma DuplicateImportRemoved()
    ensures var imports := [Import(Some(Pos(1, 1)), "java.util.List"), Import(Some(Pos(2, 2)), "java.util.List")];
      !OnErrorLine(imports[1], {1}) && RemoveAll(imports, Flagged(imports, {1})) == []
  {
    var imports := [Import(Some(Pos(1, 1)), "java.util.List"), Import(Some(Pos(2, 2)), "java.util.List")];
    assert OnErrorLine(imports[0], {1});
    var flagged := Flagged(imports, {1});
    assert flagged[0] == imports[0];
    assert Collected(flagged, "java.util.List");
    assert imports[1..][1..] == [];
  }
}

=== FILE: java_text.dfy ===
/**
 * Small facts about Java strings and `int` arithmetic that the model relies on:
 * `String.endsWith`, the ASCII class `\d`, `Integer.parseInt` on a run of digits,
 * and 32-bit two's-complement wrap-around.
 */
module JavaText {
  import opened Wrappers

  /** `\d` without UNICODE_CHARACTER_CLASS matches exactly the ASCII digits. */
  predicate IsDigit(c: char) {
    '0' <= c <= '9'
  }

  predicate AllDigits(s: string) {
    forall i :: 0 <= i < |s| ==> IsDigit(s[i])
  }

  /** `s.endsWith(suffix)` */
  predicate EndsWith(s: string, suffix: string) {
    |suffix| <= |s| && s[|s| - |suffix|..] == suffix
  }

  const IntMin: int := -0x8000_0000
  const IntMax: int := 0x7fff_ffff

  /** The value of a Java `int` expression whose exact value is `x`: two's-complement wrap-around. */
  function Int32(x: int): (r: int)
    ensures IntMin <= r <= IntMax
    ensures (r - x) % 0x1_0000_0000 == 0
    ensures IntMin <= x <= IntMax ==> r == x
  {
    (x - IntMin) % 0x1_0000_0000 + IntMin
  }

  /** Two exact values congruent modulo 2^32 wrap to the same `int`. */
  lemma Int32Congruent(x: int, y: int)
    requires (x - y) % 0x1_0000_0000 == 0
    ensures Int32(x) == Int32(y)
  {
    var a, b := Int32(x), Int32(y);
    var M := 0x1_0000_0000;
    var p, q, k := (a - x) / M, (b - y) / M, (x - y) / M;
    assert a - x == M * p;
    assert b - y == M * q;
    assert x - y == M * k;
    assert a - b == M * (p + k - q);
  }

  /** The decimal value of a run of ASCII digits (leading zeros allowed). */
  function DigitsValue(s: string): nat
    requires AllDigits(s)
  {
    if s == [] then 0
    else DigitsValue(s[..|s| - 1]) * 10 + (s[|s| - 1] as int - '0' as int)
  }

  /** `Integer.parseInt(s)` for a non-empty run of digits: `None` is the NumberFormatException
      thrown when the value does not fit in an `int`. */
  function ParseInt(s: string): (r: Option<int>)
    requires |s| > 0 && AllDigits(s)
    ensures r.Some? <==> DigitsValue(s) <= IntMax
    ensures r.Some? ==> 0 <= r.value <= IntMax && r.value == DigitsValue(s)
  {
    var v := DigitsValue(s);
    if v <= IntMax then Some(v) else None
  }
}

=== FILE: maven_compiler.dfy ===
/**
 * What `MavenCompiler` does with the build tool's output once the process has
 * been drained: the compile and test-compile error extraction (one fold, shared
 * by both goals) and the Surefire summary read by `runMavenTest`.
 *
 * The build output is the sequence of lines `readLine` returned. The file
 * system is the pair of walks `FileUtility.findJavaFile` searches.
 */
module MavenCompiler {
  import opened Wrappers
  import opened JavaText
  import opened ErrorPattern
  import opened ErrorInfos
  import opened FileUtility

  /** The only exception the line loops can raise: `Integer.parseInt` on digits beyond `int`. */
  datatype BuildFailure = NumberFormat(digits: string)

  // ---------------------------------------------------------------------------
  // Compile-error extraction

  /** Line `line` reports error line `n` in file `fileName`, and that file resolves. */
  predicate Reports(line: string, fileName: string, n: int, roots: SourceRoots) {
    var m := MatchLine(line);
    && m.Some? && m.value.fileName == fileName
    && ParseInt(m.value.lineDigits) == Some(n)
    && FindJavaFile(fileName, roots).Some?
  }

  /** Line `line` matches but its line number does not fit in an `int`. */
  predicate Overflows(line: string) {
    var m := MatchLine(line);
    m.Some? && ParseInt(m.value.lineDigits).None?
  }

  /** One iteration of the read loop: match, parse, resolve, then computeIfAbsent + addErrorLine. */
  function ExtractStep(acc: map<string, ErrorInfo>, line: string, roots: SourceRoots)
    : Result<map<string, ErrorInfo>, BuildFailure>
  {
    match MatchLine(line)
    case None => Success(acc)
    case Some(ErrorMatch(fileName, digits)) =>
      match ParseInt(digits)
      case None => Failure(NumberFormat(digits))
      case Some(n) =>
        match FindJavaFile(fileName, roots)
        case None => Success(acc)
        case Some(path) =>
          var info := if fileName in acc then acc[fileName] else NewErrorInfo(fileName, path);
          Success(acc[fileName := AddErrorLine(info, n)])
  }

  /** The error map built from the whole output; used for both `compile` and `test-compile`. */
  function ExtractErrors(output: seq<string>, roots: SourceRoots): Result<map<string, ErrorInfo>, BuildFailure>
    decreases |output|
  {
    if output == [] then Success(map[])
    else
      match ExtractErrors(output[..|output| - 1], roots)
      case Failure(e) => Failure(e)
      case Success(acc) => ExtractStep(acc, output[|output| - 1], roots)
  }

  /** `runMavenCompileAndExtractErrors` after the process output has been read. */
  function RunMavenCompileAndExtractErrors(output: seq<string>, roots: SourceRoots): Result<map<string, ErrorInfo>, BuildFailure> {
    ExtractErrors(output, roots)
  }

  /** `runMavenTestCompileAndExtractErrors`: the same pattern and the same aggregation. */
  function RunMavenTestCompileAndExtractErrors(output: seq<string>, roots: SourceRoots)
    : (r: Result<map<string, ErrorInfo>, BuildFailure>)
    ensures r.Failure? <==> AnyOverflow(output)
    ensures r.Success? ==> Aggregates(r.value, output, roots)
  {
    ExtractErrorsSpec(output, roots);
    ExtractErrors(output, roots)
  }

  /** Line `line` reports some error line in file `fileName`. */
  ghost predicate ReportsFile(line: string, fileName: string, roots: SourceRoots) {
    exists n :: Reports(line, fileName, n, roots)
  }

  /** Some line of `output` reports some error line in file `fileName`. */
  ghost predicate ReportedFile(output: seq<string>, fileName: string, roots: SourceRoots) {
    exists i :: 0 <= i < |output| && ReportsFile(output[i], fileName, roots)
  }

  /** Some line of `output` reports error line `n` in file `fileName`. */
  ghost predicate ReportedLine(output: seq<string>, fileName: string, n: int, roots: SourceRoots) {
    exists i :: 0 <= i < |output| && Reports(output[i], fileName, n, roots)
  }

  ghost predicate AnyOverflow(output: seq<string>) {
    exists i :: 0 <= i < |output| && Overflows(output[i])
  }

  /** The map `m` is exactly what `output` reports. */
  ghost predicate Aggregates(m: map<string, ErrorInfo>, output: seq<string>, roots: SourceRoots) {
    && (forall f :: f in m <==> ReportedFile(output, f, roots))
    && (forall f :: f in m ==> m[f].fileName == f && Some(m[f].filePath) == FindJavaFile(f, roots))
    && (forall f, n :: f in m ==> (n in m[f].errorLines <==> ReportedLine(output, f, n, roots)))
  }

  /** Whether some element of a non-empty sequence satisfies `p`: some earlier one, or the last. */
  lemma ExistsSplit<T>(s: seq<T>, p: T -> bool)
    requires s != []
    ensures (exists i :: 0 <= i < |s| && p(s[i])) <==>
      (exists i :: 0 <= i < |s| - 1 && p(s[i])) || p(s[|s| - 1])
  {
  }

  lemma OverflowSplit(output: seq<string>)
    requires output != []
    ensures AnyOverflow(output) <==> AnyOverflow(output[..|output| - 1]) || Overflows(output[|output| - 1])
  {
    PrefixExists(output, output[..|output| - 1], Overflows);
  }

  /** Something holds somewhere in `s` iff it holds in the prefix `pre` or at the last line. */
  lemma PrefixExists<T>(s: seq<T>, pre: seq<T>, p: T -> bool)
    requires s != [] && pre == s[..|s| - 1]
    ensures (exists i :: 0 <= i < |s| && p(s[i])) <==> (exists i :: 0 <= i < |pre| && p(pre[i])) || p(s[|s| - 1])
  {
    ExistsSplit(s, p);
    assert forall i :: 0 <= i < |pre| ==> pre[i] == s[i];
  }

  lemma ReportedFileSplit(output: seq<string>, f: string, roots: SourceRoots)
    requires output != []
    ensures ReportedFile(output, f, roots) <==>
      ReportedFile(output[..|output| - 1], f, roots) || ReportsFile(output[|output| - 1], f, roots)
  {
    PrefixExists(output, output[..|output| - 1], line => ReportsFile(line, f, roots));
  }

  lemma ReportedLineSplit(output: seq<string>, f: string, n: int, roots: SourceRoots)
    requires output != []
    ensures ReportedLine(output, f, n, roots) <==>
      ReportedLine(output[..|output| - 1], f, n, roots) || Reports(output[|output| - 1], f, n, roots)
  {
    PrefixExists(output, output[..|output| - 1], line => Reports(line, f, n, roots));
  }

  /** One read-loop step adds the line's report to the map, or raises the parse exception. */
  lemma StepSpec(acc: map<string, ErrorInfo>, line: string, roots: SourceRoots)
    ensures ExtractStep(acc, line, roots).Failure? <==> Overflows(line)
    ensures ExtractStep(acc, line, roots).Success? ==>
      var m := ExtractStep(acc, line, roots).value;
      && (forall f :: f in m <==> f in acc || ReportsFile(line, f, roots))
      && (forall f :: f in m && f !in acc ==> m[f].fileName == f && Some(m[f].filePath) == FindJavaFile(f, roots))
      && (forall f :: f in acc ==> m[f].fileName == acc[f].fileName && m[f].filePath == acc[f].filePath)
      && (forall f, n :: f in m ==> (n in m[f].errorLines <==> (f in acc && n in acc[f].errorLines) || Reports(line, f, n, roots)))
  {
    match MatchLine(line)
    case None =>
    case Some(em) =>
      match ParseInt(em.lineDigits)
      case None =>
      case Some(n) =>
        if FindJavaFile(em.fileName, roots).Some? {
          assert Reports(line, em.fileName, n, roots);
        }
  }

  /** What the aggregation promises: a parse failure surfaces iff some matching line overflows;
      otherwise there is one record per resolvable reported file, keyed by its name, holding the
      resolved path and exactly the reported line numbers. */
  lemma {:induction false} ExtractErrorsSpec(output: seq<string>, roots: SourceRoots)
    ensures ExtractErrors(output, roots).Failure? <==> AnyOverflow(output)
    ensures ExtractErrors(output, roots).Success? ==> Aggregates(ExtractErrors(output, roots).value, output, roots)
    decreases |output|
  {
    if output != [] {
      var pre := output[..|output| - 1];
      var last := output[|output| - 1];
      ExtractErrorsSpec(pre, roots);
      OverflowSplit(output);
      var r := ExtractErrors(pre, roots);
      if r.Success? {
        StepSpec(r.value, last, roots);
        if !Overflows(last) {
          var m := ExtractErrors(output, roots).value;
          forall f ensures f in m <==> ReportedFile(output, f, roots) {
            ReportedFileSplit(output, f, roots);
          }
          forall f, n | f in m ensures n in m[f].errorLines <==> ReportedLine(output, f, n, roots) {
            ReportedLineSplit(output, f, n, roots);
          }
        }
      }
    }
  }

  /** Output with no matching line yields an empty map. */
  lemma NoMatchNoErrors(output: seq<string>, roots: SourceRoots)
    requires forall i :: 0 <= i < |output| ==> MatchLine(output[i]).None?
    ensures ExtractErrors(output, roots) == Success(map[])
  {
    ExtractErrorsSpec(output, roots);
    var m := ExtractErrors(output, roots).value;
    assert m.Keys == {};
  }

  /** Every key of the map is a well-formed Java file name: it ends in ".java" and holds
      none of the characters the pattern excludes. */
  lemma ExtractedNamesWellFormed(output: seq<string>, roots: SourceRoots)
    requires ExtractErrors(output, roots).Success?
    ensures forall f :: f in ExtractErrors(output, roots).value ==>
      EndsWith(f, ".java") && forall j :: 0 <= j < |f| ==> InNameClass(f[j])
  {
    ExtractErrorsSpec(output, roots);
    var m := ExtractErrors(output, roots).value;
    forall f | f in m ensures EndsWith(f, ".java") && forall j :: 0 <= j < |f| ==> InNameClass(f[j]) {
      var i :| 0 <= i < |output| && ReportsFile(output[i], f, roots);
      assert WellFormedMatch(MatchLine(output[i]).value);
    }
  }

  // ---------------------------------------------------------------------------
  // Surefire summary: "Tests run: (\d+), Failures: (\d+), Errors: (\d+), Skipped: (\d+)"

  const TestsRun: string := "Tests run: "
  const FailuresSep: string := ", Failures: "
  const ErrorsSep: string := ", Errors: "
  const SkippedSep: string := ", Skipped: "

  datatype TestResult = TestResult(totalTests: int, passedTests: int, failedTests: int, skippedTests: int)

  /** The four captured digit runs of one summary match. */
  datatype SummaryMatch = SummaryMatch(run: string, failures: string, errors: string, skipped: string)

  predicate WellFormedSummary(m: SummaryMatch) {
    && |m.run| > 0 && AllDigits(m.run)
    && |m.failures| > 0 && AllDigits(m.failures)
    && |m.errors| > 0 && AllDigits(m.errors)
    && |m.skipped| > 0 && AllDigits(m.skipped)
  }

  predicate LiteralAt(line: string, i: nat, lit: string) {
    i + |lit| <= |line| && line[i..i + |lit|] == lit
  }

  /** Where the four groups of a match at `t` end. */
  function RunEnd(t: nat, m: SummaryMatch): nat { t + 11 + |m.run| }
  function FailuresEnd(t: nat, m: SummaryMatch): nat { RunEnd(t, m) + 12 + |m.failures| }
  function ErrorsEnd(t: nat, m: SummaryMatch): nat { FailuresEnd(t, m) + 10 + |m.errors| }
  function SkippedEnd(t: nat, m: SummaryMatch): nat { ErrorsEnd(t, m) + 11 + |m.skipped| }

  /**
   * The summary pattern matches at `t` with these four groups: the text
   * "Tests run: <run>, Failures: <failures>, Errors: <errors>, Skipped: <skipped>"
   * stands there, every group is a non-empty digit run, and the last group
   * is not followed by a digit (greedy `\d+` with nothing after it). The
   * earlier groups are followed by a comma, so they are maximal too.
   */
  predicate SummaryMatchAt(line: string, t: nat, m: SummaryMatch) {
    && WellFormedSummary(m)
    && LiteralAt(line, t, TestsRun) && LiteralAt(line, t + 11, m.run)
    && LiteralAt(line, RunEnd(t, m), FailuresSep) && LiteralAt(line, RunEnd(t, m) + 12, m.failures)
    && LiteralAt(line, FailuresEnd(t, m), ErrorsSep) && LiteralAt(line, FailuresEnd(t, m) + 10, m.errors)
    && LiteralAt(line, ErrorsEnd(t, m), SkippedSep) && LiteralAt(line, ErrorsEnd(t, m) + 11, m.skipped)
    && (SkippedEnd(t, m) < |line| ==> !IsDigit(line[SkippedEnd(t, m)]))
  }

  /** No summary match starts at a position in `[s, t)`. */
  ghost predicate NoSummaryBetween(line: string, s: nat, t: nat) {
    forall u: nat, m :: s <= u < t ==> !SummaryMatchAt(line, u, m)
  }

  /**
   * The groups the anchored summary pattern would capture at `s`: each `\d+`
   * takes the longest digit run (a shorter one never helps, since a literal
   * comma or nothing follows it), skipping the literal between runs.
   */
  function Candidate(line: string, s: nat): Option<SummaryMatch>
    requires s <= |line|
  {
    if s + 11 > |line| then None else
    var b := DigitRunEnd(line, s + 11);
    if b + 12 > |line| then None else
    var d := DigitRunEnd(line, b + 12);
    if d + 10 > |line| then None else
    var f := DigitRunEnd(line, d + 10);
    if f + 11 > |line| then None else
    var h := DigitRunEnd(line, f + 11);
    Some(SummaryMatch(line[s + 11..b], line[b + 12..d], line[d + 10..f], line[f + 11..h]))
  }

  /** The summary pattern anchored at `s`: the candidate groups, when the literals stand between them. */
  function SummaryAt(line: string, s: nat): (r: Option<SummaryMatch>)
    requires s <= |line|
    ensures r.Some? ==> SummaryMatchAt(line, s, r.value)
  {
    var c := Candidate(line, s);
    if c.Some? && SummaryMatchAt(line, s, c.value) then c else None
  }

  /** A digit run ending before a non-digit (or the end) is the run `DigitRunEnd` finds. */
  lemma {:induction false} DigitRunExact(line: string, i: nat, j: nat)
    requires i <= j <= |line|
    requires forall k :: i <= k < j ==> IsDigit(line[k])
    requires j < |line| ==> !IsDigit(line[j])
    ensures DigitRunEnd(line, i) == j
    decreases j - i
  {
    if i < j {
      DigitRunExact(line, i + 1, j);
    }
  }

  /** A group of digits standing at `i` and followed by a non-digit (or the end) is the greedy run there. */
  lemma GroupRun(line: string, i: nat, group: string)
    requires AllDigits(group) && LiteralAt(line, i, group)
    requires i + |group| < |line| ==> !IsDigit(line[i + |group|])
    ensures DigitRunEnd(line, i) == i + |group|
  {
    forall k | i <= k < i + |group| ensures IsDigit(line[k]) {
      assert line[i..i + |group|][k - i] == group[k - i];
    }
    DigitRunExact(line, i, i + |group|);
  }

  /** A separator starting with a comma at `j` is no digit. */
  lemma CommaAt(line: string, j: nat, sep: string)
    requires LiteralAt(line, j, sep) && |sep| > 0 && sep[0] == ','
    ensures j < |line| && !IsDigit(line[j])
  {
    assert line[j] == line[j..j + |sep|][0];
  }

  /** With the four greedy runs ending where the groups of `m` end, the candidate is `m`. */
  lemma CandidateRuns(line: string, s: nat, m: SummaryMatch)
    requires SkippedEnd(s, m) <= |line|
    requires DigitRunEnd(line, s + 11) == RunEnd(s, m)
    requires DigitRunEnd(line, RunEnd(s, m) + 12) == FailuresEnd(s, m)
    requires DigitRunEnd(line, FailuresEnd(s, m) + 10) == ErrorsEnd(s, m)
    requires DigitRunEnd(line, ErrorsEnd(s, m) + 11) == SkippedEnd(s, m)
    requires line[s + 11..RunEnd(s, m)] == m.run
    requires line[RunEnd(s, m) + 12..FailuresEnd(s, m)] == m.failures
    requires line[FailuresEnd(s, m) + 10..ErrorsEnd(s, m)] == m.errors
    requires line[ErrorsEnd(s, m) + 11..SkippedEnd(s, m)] == m.skipped
    ensures Candidate(line, s) == Some(m)
  {
    var b, d, f, h := RunEnd(s, m), FailuresEnd(s, m), ErrorsEnd(s, m), SkippedEnd(s, m);
    CandidateSlices(line, s, b, d, f, h);
  }

  /** With the four greedy runs ending at `b`, `d`, `f` and `h`, the candidate groups lie between them. */
  lemma CandidateSlices(line: string, s: nat, b: nat, d: nat, f: nat, h: nat)
    requires s + 11 <= |line| && DigitRunEnd(line, s + 11) == b
    requires b + 12 <= |line| && DigitRunEnd(line, b + 12) == d
    requires d + 10 <= |line| && DigitRunEnd(line, d + 10) == f
    requires f + 11 <= |line| && DigitRunEnd(line, f + 11) == h
    ensures Candidate(line, s) == Some(SummaryMatch(line[s + 11..b], line[b + 12..d], line[d + 10..f], line[f + 11..h]))
  {
  }

  /** A summary match at `s` is the one `SummaryAt` returns: there is at most one, and it is found. */
  lemma SummaryAtExact(line: string, s: nat, m: SummaryMatch)
    requires SummaryMatchAt(line, s, m)
    ensures SummaryAt(line, s) == Some(m)
  {
    CandidateIs(line, s, m);
  }

  /** The greedy candidate at a match is that match. */
  lemma CandidateIs(line: string, s: nat, m: SummaryMatch)
    requires SummaryMatchAt(line, s, m)
    ensures s <= |line| && Candidate(line, s) == Some(m)
  {
    SummaryRunEnds(line, s, m);
    SummaryGroups(line, s, m);
    CandidateRuns(line, s, m);
  }

  /** Each digit run of a match ends where its group ends. */
  lemma SummaryRunEnds(line: string, s: nat, m: SummaryMatch)
    requires SummaryMatchAt(line, s, m)
    ensures DigitRunEnd(line, s + 11) == RunEnd(s, m)
    ensures DigitRunEnd(line, RunEnd(s, m) + 12) == FailuresEnd(s, m)
    ensures DigitRunEnd(line, FailuresEnd(s, m) + 10) == ErrorsEnd(s, m)
    ensures DigitRunEnd(line, ErrorsEnd(s, m) + 11) == SkippedEnd(s, m)
  {
    var b, d, f := RunEnd(s, m), FailuresEnd(s, m), ErrorsEnd(s, m);
    CommaAt(line, b, FailuresSep);
    CommaAt(line, d, ErrorsSep);
    CommaAt(line, f, SkippedSep);
    GroupRun(line, s + 11, m.run);
    GroupRun(line, b + 12, m.failures);
    GroupRun(line, d + 10, m.errors);
    GroupRun(line, f + 11, m.skipped);
  }

  /** The slices between the literals of a match are its groups. */
  lemma SummaryGroups(line: string, s: nat, m: SummaryMatch)
    requires SummaryMatchAt(line, s, m)
    ensures SkippedEnd(s, m) <= |line|
    ensures line[s + 11..RunEnd(s, m)] == m.run
    ensures line[RunEnd(s, m) + 12..FailuresEnd(s, m)] == m.failures
    ensures line[FailuresEnd(s, m) + 10..ErrorsEnd(s, m)] == m.errors
    ensures line[ErrorsEnd(s, m) + 11..SkippedEnd(s, m)] == m.skipped
  {
  }

  function FindSummaryFrom(line: string, s: nat): (r: Option<SummaryMatch>)
    requires s <= |line|
    ensures r.Some? ==> WellFormedSummary(r.value)
    decreases |line| - s
  {
    var here := SummaryAt(line, s);
    if here.Some? then here
    else if s == |line| then None
    else FindSummaryFrom(line, s + 1)
  }

  /** When the anchored search fails at `s`, no summary match starts there. */
  lemma NoMatchAt(line: string, s: nat)
    requires s <= |line| && SummaryAt(line, s).None?
    ensures forall m :: !SummaryMatchAt(line, s, m)
  {
    forall m | SummaryMatchAt(line, s, m) ensures false {
      SummaryAtExact(line, s, m);
    }
  }

  /** No match starts in `[s, t)` and none at `t`: none starts in `[s, t + 1)`. */
  lemma NoSummaryExtend(line: string, s: nat, t: nat)
    requires NoSummaryBetween(line, s + 1, t) && forall m :: !SummaryMatchAt(line, s, m)
    ensures NoSummaryBetween(line, s, t)
  {
  }

  /** The search from `s` finds the leftmost summary match at or after `s`, and nothing when there is none. */
  lemma {:induction false} FindSummaryFromSpec(line: string, s: nat)
    requires s <= |line|
    ensures FindSummaryFrom(line, s).None? <==> NoSummaryBetween(line, s, |line| + 1)
    ensures FindSummaryFrom(line, s).Some? ==>
      exists t: nat :: s <= t <= |line| && SummaryMatchAt(line, t, FindSummaryFrom(line, s).value) && NoSummaryBetween(line, s, t)
    decreases |line| - s
  {
    var here := SummaryAt(line, s);
    if here.Some? {
      assert FindSummaryFrom(line, s) == here;
      assert NoSummaryBetween(line, s, s);
    } else {
      NoMatchAt(line, s);
      if s < |line| {
        FindSummaryFromSpec(line, s + 1);
        var r := FindSummaryFrom(line, s + 1);
        assert FindSummaryFrom(line, s) == r;
        if r.None? {
          NoSummaryExtend(line, s, |line| + 1);
        } else {
          var t: nat :| s + 1 <= t <= |line| && SummaryMatchAt(line, t, r.value) && NoSummaryBetween(line, s + 1, t);
          NoSummaryExtend(line, s, t);
        }
      } else {
        assert FindSummaryFrom(line, s).None?;
        assert NoSummaryBetween(line, s, |line| + 1);
      }
    }
  }

  /** `testSummaryPattern.matcher(line).find()` */
  function FindSummary(line: string): (r: Option<SummaryMatch>)
    ensures r.Some? ==> WellFormedSummary(r.value)
  {
    FindSummaryFrom(line, 0)
  }

  /** The summary search fails exactly when no summary match starts anywhere, and otherwise returns the leftmost one. */
  lemma FindSummarySpec(line: string)
    ensures FindSummary(line).None? <==> forall t: nat, m :: !SummaryMatchAt(line, t, m)
    ensures FindSummary(line).Some? ==>
      exists t: nat :: SummaryMatchAt(line, t, FindSummary(line).value) && NoSummaryBetween(line, 0, t)
  {
    FindSummaryFromSpec(line, 0);
    assert forall t: nat, m :: t > |line| ==> !SummaryMatchAt(line, t, m);
  }

  /** The leftmost summary match is the one the search returns. */
  lemma FindSummaryLeftmost(line: string, t: nat, m: SummaryMatch)
    requires SummaryMatchAt(line, t, m) && NoSummaryBetween(line, 0, t)
    ensures FindSummary(line) == Some(m)
  {
    FindSummarySpec(line);
    var r := FindSummary(line).value;
    var t': nat :| SummaryMatchAt(line, t', r) && NoSummaryBetween(line, 0, t');
    if t == t' {
      SummaryAtExact(line, t, m);
      SummaryAtExact(line, t, r);
    }
  }

  /** Passed, failed and skipped add up to the total, modulo `int` wrap-around. */
  predicate AddsUp(r: TestResult) {
    Int32(r.passedTests + r.failedTests + r.skippedTests) == Int32(r.totalTests)
  }

  /** The four setters applied for one summary, in Java `int` arithmetic. */
  function SummaryResult(run: int, failures: int, errors: int, skipped: int): (r: TestResult)
    ensures r.totalTests == run && r.skippedTests == skipped
    ensures AddsUp(r)
    ensures 0 <= failures && 0 <= errors && 0 <= skipped && failures + errors + skipped <= run <= IntMax ==>
      && r.failedTests == failures + errors
      && r.passedTests == run - failures - errors - skipped >= 0
      && r.passedTests + r.failedTests + r.skippedTests == r.totalTests
  {
    var failed := Int32(failures + errors);
    var passed := Int32(run - failures - errors - skipped);
    assert 0 <= failures && 0 <= errors && 0 <= skipped && failures + errors + skipped <= run <= IntMax ==>
      failed == failures + errors && passed == run - failures - errors - skipped;
    assert (passed + failed + skipped) - run == (passed - (run - failures - errors - skipped)) + (failed - (failures + errors));
    Int32Congruent(passed + failed + skipped, run);
    TestResult(run, passed, failed, skipped)
  }

  /** Parses the four groups left to right; the first overflow is the exception. */
  function ParseSummary(m: SummaryMatch): (r: Result<TestResult, BuildFailure>)
    requires WellFormedSummary(m)
    ensures r.Failure? <==> ParseInt(m.run).None? || ParseInt(m.failures).None?
                            || ParseInt(m.errors).None? || ParseInt(m.skipped).None?
    ensures r.Success? ==> r.value == SummaryResult(ParseInt(m.run).value, ParseInt(m.failures).value,
                                                    ParseInt(m.errors).value, ParseInt(m.skipped).value)
  {
    match ParseInt(m.run)
    case None => Failure(NumberFormat(m.run))
    case Some(run) =>
      match ParseInt(m.failures)
      case None => Failure(NumberFormat(m.failures))
      case Some(failures) =>
        match ParseInt(m.errors)
        case None => Failure(NumberFormat(m.errors))
        case Some(errors) =>
          match ParseInt(m.skipped)
          case None => Failure(NumberFormat(m.skipped))
          case Some(skipped) => Success(SummaryResult(run, failures, errors, skipped))
  }

  /** `runMavenTest` after the process output has been read: every summary line overwrites the result. */
  function RunMavenTest(output: seq<string>): (r: Result<TestResult, BuildFailure>)
    ensures r.Success? ==> AddsUp(r.value)
    decreases |output|
  {
    if output == [] then Success(TestResult(0, 0, 0, 0))
    else
      match RunMavenTest(output[..|output| - 1])
      case Failure(e) => Failure(e)
      case Success(acc) =>
        match FindSummary(output[|output| - 1])
        case None => Success(acc)
        case Some(m) => ParseSummary(m)
  }

  /** A summary line whose counts do not fit in an `int`. */
  predicate SummaryOverflows(line: string) {
    FindSummary(line).Some? && ParseSummary(FindSummary(line).value).Failure?
  }

  /** Some summary match starts somewhere on the line. */
  ghost predicate HasSummary(line: string) {
    exists t: nat, m :: SummaryMatchAt(line, t, m)
  }

  ghost predicate AnySummaryOverflow(output: seq<string>) {
    exists i :: 0 <= i < |output| && SummaryOverflows(output[i])
  }

  /** An unparsable summary line anywhere in the output is an exception, and only that. */
  lemma {:induction false} RunMavenTestFails(output: seq<string>)
    ensures RunMavenTest(output).Failure? <==> AnySummaryOverflow(output)
    decreases |output|
  {
    if output != [] {
      var pre := output[..|output| - 1];
      RunMavenTestFails(pre);
      ExistsSplit(output, SummaryOverflows);
      assert forall i :: 0 <= i < |pre| ==> pre[i] == output[i];
    }
  }

  /** With no summary line, all counts stay 0. */
  lemma {:induction false} RunMavenTestNoSummary(output: seq<string>)
    requires forall i :: 0 <= i < |output| ==> !HasSummary(output[i])
    ensures RunMavenTest(output) == Success(TestResult(0, 0, 0, 0))
    decreases |output|
  {
    if output != [] {
      var pre := output[..|output| - 1];
      assert forall i :: 0 <= i < |pre| ==> pre[i] == output[i];
      RunMavenTestNoSummary(pre);
      FindSummarySpec(output[|output| - 1]);
    }
  }

  /**
   * The last summary line wins, provided no earlier summary line raised: the
   * result is what its leftmost match `m`, at `t`, parses to.
   */
  lemma {:induction false} RunMavenTestLastWins(output: seq<string>, i: int, t: nat, m: SummaryMatch)
    requires 0 <= i < |output| && SummaryMatchAt(output[i], t, m) && NoSummaryBetween(output[i], 0, t)
    requires forall j :: i < j < |output| ==> !HasSummary(output[j])
    requires RunMavenTest(output).Success?
    ensures RunMavenTest(output) == ParseSummary(m)
    decreases |output|
  {
    var last := output[|output| - 1];
    if i < |output| - 1 {
      var pre := output[..|output| - 1];
      assert forall j :: 0 <= j < |pre| ==> pre[j] == output[j];
      FindSummarySpec(last);
      RunMavenTestLastWins(pre, i, t, m);
    } else {
      FindSummaryLeftmost(last, t, m);
    }
  }

  // ---------------------------------------------------------------------------
  // The summary of the example run

  const ExampleSummary: string :=
    TestsRun + "10" + FailuresSep + "2" + ErrorsSep + "1" + SkippedSep + "0"

  lemma ExampleSummaryParts()
    ensures LiteralAt(ExampleSummary, 0, TestsRun)
    ensures LiteralAt(ExampleSummary, 13, FailuresSep) && LiteralAt(ExampleSummary, 26, ErrorsSep)
    ensures LiteralAt(ExampleSummary, 37, SkippedSep)
    ensures ExampleSummary[11..13] == "10" && ExampleSummary[25..26] == "2"
    ensures ExampleSummary[36..37] == "1" && ExampleSummary[48..49] == "0" && |ExampleSummary| == 49
  {
  }

  lemma ExampleSummaryMatch()
    ensures FindSummary(ExampleSummary) == Some(SummaryMatch("10", "2", "1", "0"))
  {
    var line := ExampleSummary;
    ExampleSummaryParts();
    assert DigitRunEnd(line, 13) == 13;
    assert DigitRunEnd(line, 11) == 13;
    assert DigitRunEnd(line, 26) == 26;
    assert DigitRunEnd(line, 25) == 26;
    assert DigitRunEnd(line, 37) == 37;
    assert DigitRunEnd(line, 36) == 37;
    assert DigitRunEnd(line, 49) == 49;
    assert DigitRunEnd(line, 48) == 49;
    assert SummaryAt(line, 0) == Some(SummaryMatch("10", "2", "1", "0"));
  }

  /** 2 failures and 1 error are 3 failed tests; 10 - 2 - 1 - 0 = 7 passed. */
  lemma ExampleSummaryParse()
    ensures ParseSummary(SummaryMatch("10", "2", "1", "0")) == Success(TestResult(10, 7, 3, 0))
  {
    assert DigitsValue("1") == 1 && DigitsValue("10") == 10;
    assert DigitsValue("2") == 2 && DigitsValue("0") == 0;
  }

  /** "Tests run: 10, Failures: 2, Errors: 1, Skipped: 0" gives 10 total, 3 failed, 7 passed, 0 skipped. */
  lemma ExampleSummaryResult()
    ensures RunMavenTest([ExampleSummary]) == Success(TestResult(10, 7, 3, 0))
  {
    ExampleSummaryMatch();
    ExampleSummaryParse();
    assert [ExampleSummary][..0] == [];
  }

}

=== FILE: metrics.dfy ===
/**
 * The run's bookkeeping: iteration count, file and line totals, the set of
 * modified file names, deleted lines, and a per-kind histogram of deleted (or
 * synthesised) syntax elements next to their overall counter.
 *
 * The key invariant (`Valid`) is that the histogram sums to the counter and
 * holds only positive counts; every operation preserves it.
 */
module Metrics {

  datatype CompilationMetrics = CompilationMetrics(
    iterationCount: int,
    modifiedFiles: set<string>,
    totalFiles: int,
    totalLines: int,
    deletedLines: int,
    deletedElements: int,
    deletedElementsByType: map<string, int>)

  /** The sum of all counts in a histogram. */
  ghost function Total(counts: map<string, int>): int
    decreases |counts|
  {
    if |counts| == 0 then 0
    else
      var k := Pick(counts);
      counts[k] + Total(counts - {k})
  }

  /** Some key of a non-empty histogram. */
  ghost function Pick(counts: map<string, int>): (k: string)
    requires |counts| > 0
    ensures k in counts
  {
    assert counts.Keys != {};
    var k :| k in counts.Keys; k
  }

  ghost predicate Valid(m: CompilationMetrics) {
    && Total(m.deletedElementsByType) == m.deletedElements
    && forall t :: t in m.deletedElementsByType ==> m.deletedElementsByType[t] >= 1
  }

  /** A metrics object as the constructor leaves it. */
  function Fresh(): (m: CompilationMetrics)
    ensures m.iterationCount == 0 && m.totalFiles == 0 && m.totalLines == 0
    ensures m.deletedLines == 0 && m.deletedElements == 0
    ensures |m.modifiedFiles| == 0 && |m.deletedElementsByType| == 0
    ensures Valid(m)
  {
    CompilationMetrics(0, {}, 0, 0, 0, 0, map[])
  }

  /** The histogram count of `t`, zero when absent. */
  function CountOf(m: CompilationMetrics, t: string): int {
    if t in m.deletedElementsByType then m.deletedElementsByType[t] else 0
  }

  /** Removing any one key splits the total, whichever key `Total` happened to pick. */
  lemma {:induction false} TotalRemove(counts: map<string, int>, k: string)
    requires k in counts
    ensures Total(counts) == counts[k] + Total(counts - {k})
    decreases |counts|
  {
    assert |counts| > 0;
    var j := Pick(counts);
    if j != k {
      var rest := counts - {j};
      assert k in rest;
      TotalRemove(rest, k);
      var rest2 := counts - {k};
      assert j in rest2;
      TotalRemove(rest2, j);
      assert rest - {k} == rest2 - {j};
    }
  }

  /** Raising (or inserting with 1) one count raises the total by exactly one. */
  lemma TotalIncrement(counts: map<string, int>, t: string)
    ensures Total(counts[t := if t in counts then counts[t] + 1 else 1]) == Total(counts) + 1
  {
    var c' := counts[t := if t in counts then counts[t] + 1 else 1];
    TotalRemove(c', t);
    if t in counts {
      TotalRemove(counts, t);
      assert c' - {t} == counts - {t};
    } else {
      assert c' - {t} == counts;
    }
  }

  /** `incrementDeletedElements(t)`: one more element, counted under `t`. */
  function IncrementDeletedElements(m: CompilationMetrics, t: string): (r: CompilationMetrics)
    ensures r.deletedElements == m.deletedElements + 1
    ensures CountOf(r, t) == CountOf(m, t) + 1 && t in r.deletedElementsByType
    ensures forall u :: u != t ==> (u in r.deletedElementsByType <==> u in m.deletedElementsByType)
    ensures forall u :: u != t ==> CountOf(r, u) == CountOf(m, u)
    ensures r.iterationCount == m.iterationCount && r.modifiedFiles == m.modifiedFiles
    ensures r.totalFiles == m.totalFiles && r.totalLines == m.totalLines
    ensures r.deletedLines == m.deletedLines
    ensures Valid(m) ==> Valid(r)
  {
    var counts := m.deletedElementsByType;
    TotalIncrement(counts, t);
    m.(deletedElements := m.deletedElements + 1,
       deletedElementsByType := counts[t := if t in counts then counts[t] + 1 else 1])
  }

  /** `incrementDeletedElements(t)` called `n` times in a row. */
  function IncrementTimes(m: CompilationMetrics, t: string, n: nat): (r: CompilationMetrics)
    ensures r.deletedElements == m.deletedElements + n
    ensures CountOf(r, t) == CountOf(m, t) + n
    ensures forall u :: u != t ==> CountOf(r, u) == CountOf(m, u)
    ensures r.(deletedElements := m.deletedElements, deletedElementsByType := m.deletedElementsByType) == m
    ensures Valid(m) ==> Valid(r)
  {
    if n == 0 then m else IncrementDeletedElements(IncrementTimes(m, t, n - 1), t)
  }

  /** Number of occurrences of `t` in `kinds`. */
  function Occurrences(kinds: seq<string>, t: string): nat {
    if kinds == [] then 0
    else Occurrences(kinds[..|kinds| - 1], t) + (if kinds[|kinds| - 1] == t then 1 else 0)
  }

  /** `incrementDeletedElements` once per entry of `kinds`, in order. */
  function IncrementAll(m: CompilationMetrics, kinds: seq<string>): (r: CompilationMetrics)
    ensures r.deletedElements == m.deletedElements + |kinds|
    ensures forall u :: CountOf(r, u) == CountOf(m, u) + Occurrences(kinds, u)
    ensures r.(deletedElements := m.deletedElements, deletedElementsByType := m.deletedElementsByType) == m
    ensures Valid(m) ==> Valid(r)
  {
    if kinds == [] then m
    else IncrementDeletedElements(IncrementAll(m, kinds[..|kinds| - 1]), kinds[|kinds| - 1])
  }

  /** `addModifiedFile(name)`: set insertion. */
  function AddModifiedFile(m: CompilationMetrics, fileName: string): (r: CompilationMetrics)
    ensures fileName in r.modifiedFiles
    ensures forall f :: f != fileName ==> (f in r.modifiedFiles <==> f in m.modifiedFiles)
    ensures |r.modifiedFiles| == |m.modifiedFiles| + (if fileName in m.modifiedFiles then 0 else 1)
    ensures r.(modifiedFiles := m.modifiedFiles) == m
  {
    var files := m.modifiedFiles + {fileName};
    assert fileName in m.modifiedFiles ==> files == m.modifiedFiles;
    m.(modifiedFiles := files)
  }

  /** `addDeletedLines(k)` */
  function AddDeletedLines(m: CompilationMetrics, lines: int): (r: CompilationMetrics)
    ensures r.deletedLines == m.deletedLines + lines
    ensures r.(deletedLines := m.deletedLines) == m
  {
    m.(deletedLines := m.deletedLines + lines)
  }

  function SetIterationCount(m: CompilationMetrics, n: int): (r: CompilationMetrics)
    ensures r.iterationCount == n && r.(iterationCount := m.iterationCount) == m
  {
    m.(iterationCount := n)
  }

  function SetTotalFiles(m: CompilationMetrics, n: int): (r: CompilationMetrics)
    ensures r.totalFiles == n && r.(totalFiles := m.totalFiles) == m
  {
    m.(totalFiles := n)
  }

  function SetTotalLines(m: CompilationMetrics, n: int): (r: CompilationMetrics)
    ensures r.totalLines == n && r.(totalLines := m.totalLines) == m
  {
    m.(totalLines := n)
  }

  /** Every public mutator of the metrics object, as data. */
  datatype MetricsOp =
    | IncrementDeleted(elementType: string)
    | AddModified(fileName: string)
    | AddLines(lines: int)
    | SetIterations(iterations: int)
    | SetFiles(files: int)
    | SetLines(lines: int)

  function Apply(m: CompilationMetrics, op: MetricsOp): CompilationMetrics {
    match op
    case IncrementDeleted(t) => IncrementDeletedElements(m, t)
    case AddModified(f) => AddModifiedFile(m, f)
    case AddLines(k) => AddDeletedLines(m, k)
    case SetIterations(n) => SetIterationCount(m, n)
    case SetFiles(n) => SetTotalFiles(m, n)
    case SetLines(n) => SetTotalLines(m, n)
  }

  function ApplyAll(m: CompilationMetrics, ops: seq<MetricsOp>): CompilationMetrics
    decreases |ops|
  {
    if ops == [] then m else ApplyAll(Apply(m, ops[0]), ops[1..])
  }

  /** Whatever sequence of calls is made on a fresh object, the histogram sums to the counter,
      and the counter equals the number of increment calls. */
  lemma {:induction false} ValidAfterAnyCalls(m: CompilationMetrics, ops: seq<MetricsOp>)
    requires Valid(m)
    ensures Valid(ApplyAll(m, ops))
    ensures ApplyAll(m, ops).deletedElements == m.deletedElements + IncrementCalls(ops)
    decreases |ops|
  {
    if ops != [] {
      ValidAfterAnyCalls(Apply(m, ops[0]), ops[1..]);
    }
  }

  function IncrementCalls(ops: seq<MetricsOp>): nat {
    if ops == [] then 0 else (if ops[0].IncrementDeleted? then 1 else 0) + IncrementCalls(ops[1..])
  }

  /** Re-adding a file name already present leaves the set, and so its size, unchanged. */
  lemma AddModifiedFileTwice(m: CompilationMetrics, fileName: string)
    ensures AddModifiedFile(AddModifiedFile(m, fileName), fileName) == AddModifiedFile(m, fileName)
  {
  }
}

=== FILE: syntax.dfy ===
/**
 * The part of Spoon's model of one Java file that the repair policy looks at.
 *
 * An element has an optional source position (`None` is Spoon's missing or
 * invalid position; elements the repair synthesises have none). Methods are
 * distinguished because the policy reads their return type and body; every
 * other element is a `Node` known by its runtime class name
 * (`element.getClass().getSimpleName()`), or a literal. A method's `header`
 * holds its annotations, parameters and other non-body children, which the
 * model scanner visits before the body.
 */
module Syntax {
  import opened Wrappers

  /** A valid source position: the first and the last line the element spans. */
  datatype Pos = Pos(line: int, endLine: int)

  /** The literals `createDefaultValue` can produce. */
  datatype Literal = BoolLit(b: bool) | CharLit(c: char) | IntLit(i: int) | NullLit

  datatype Element =
    | Node(kind: string, pos: Option<Pos>, children: seq<Element>)
    | Lit(value: Literal, pos: Option<Pos>)
    | Method(pos: Option<Pos>, returnType: Option<string>, header: seq<Element>, body: Option<Block>)

  /** A method body (`CtBlock`). */
  datatype Block = Block(pos: Option<Pos>, stmts: seq<Element>)

  /** An import of the compilation unit; `content` is what Spoon's structural equality compares. */
  datatype Import = Import(pos: Option<Pos>, content: string)

  /** A compilation unit: its file name, its imports and its top-level types. */
  datatype Unit = Unit(fileName: string, imports: seq<Import>, types: seq<Element>)

  const ReturnKind: string := "CtReturnImpl"
  const MethodKind: string := "CtMethodImpl"
  const BlockKind: string := "CtBlockImpl"
  const LiteralKind: string := "CtLiteralImpl"

  /** The runtime class simple name the deletion step records. */
  function Kind(e: Element): string {
    match e
    case Node(kind, _, _) => kind
    case Lit(_, _) => LiteralKind
    case Method(_, _, _, _) => MethodKind
  }

  predicate IsReturn(e: Element) {
    e.Node? && e.kind == ReturnKind
  }

  /** A valid position whose start line is `line`. */
  predicate StartsOn(pos: Option<Pos>, line: int) {
    pos.Some? && pos.value.line == line
  }

  /** The return type is present and its simple name is not "void". */
  predicate NonVoid(returnType: Option<string>) {
    returnType.Some? && returnType.value != "void"
  }

  // ---------------------------------------------------------------------------
  // Sizes, for termination and for counting what a deletion removes

  function Size(e: Element): nat {
    match e
    case Node(_, _, children) => 1 + SeqSize(children)
    case Lit(_, _) => 1
    case Method(_, _, header, body) => 1 + SeqSize(header) + BodySize(body)
  }

  function BodySize(body: Option<Block>): nat {
    match body
    case None => 0
    case Some(b) => 1 + SeqSize(b.stmts)
  }

  function SeqSize(es: seq<Element>): nat {
    if es == [] then 0 else Size(es[0]) + SeqSize(es[1..])
  }

  lemma {:induction false} SeqSizeAppend(a: seq<Element>, b: seq<Element>)
    ensures SeqSize(a + b) == SeqSize(a) + SeqSize(b)
    decreases |a|
  {
    if a != [] {
      assert (a + b)[1..] == a[1..] + b;
      SeqSizeAppend(a[1..], b);
    } else {
      assert a + b == b;
    }
  }

  // ---------------------------------------------------------------------------
  // Pre-order traversals (the order of `CtModel.getElements`)

  /** The methods of a forest in pre-order: each method before the methods nested in it. */
  function Methods(es: seq<Element>): seq<Element> {
    if es == [] then [] else MethodsOf(es[0]) + Methods(es[1..])
  }

  function MethodsOf(e: Element): seq<Element> {
    match e
    case Node(_, _, children) => Methods(children)
    case Lit(_, _) => []
    case Method(_, _, header, body) => [e] + Methods(header) + BodyMethods(body)
  }

  function BodyMethods(body: Option<Block>): seq<Element> {
    match body
    case None => []
    case Some(b) => Methods(b.stmts)
  }

  lemma {:induction false} MethodsAppend(a: seq<Element>, b: seq<Element>)
    ensures Methods(a + b) == Methods(a) + Methods(b)
    decreases |a|
  {
    if a != [] {
      assert (a + b)[0] == a[0];
      assert (a + b)[1..] == a[1..] + b;
      MethodsAppend(a[1..], b);
    } else {
      assert a + b == b;
    }
  }

  /** Every element `Methods` lists is a method. */
  lemma {:induction false} MethodsAreMethods(es: seq<Element>)
    ensures forall k :: 0 <= k < |Methods(es)| ==> Methods(es)[k].Method?
  {
    if es != [] {
      MethodsOfAreMethods(es[0]);
      MethodsAreMethods(es[1..]);
    }
  }

  lemma {:induction false} MethodsOfAreMethods(e: Element)
    ensures forall k :: 0 <= k < |MethodsOf(e)| ==> MethodsOf(e)[k].Method?
  {
    match e
    case Node(_, _, children) => MethodsAreMethods(children);
    case Lit(_, _) =>
    case Method(_, _, header, body) =>
      MethodsAreMethods(header);
      if body.Some? {
        MethodsAreMethods(body.value.stmts);
        assert BodyMethods(body) == Methods(body.value.stmts);
      }
      var hs, bs := Methods(header), BodyMethods(body);
      assert MethodsOf(e) == [e] + hs + bs;
      forall k | 0 <= k < |MethodsOf(e)| ensures MethodsOf(e)[k].Method? {
        if k == 0 {
          assert MethodsOf(e)[k] == e;
        } else if k < 1 + |hs| {
          assert MethodsOf(e)[k] == hs[k - 1];
          assert hs[k - 1].Method?;
        } else {
          assert MethodsOf(e)[k] == bs[k - 1 - |hs|];
          assert bs[k - 1 - |hs|].Method?;
        }
      }
  }

  /** The runtime class names of the elements starting on `line`, in pre-order. */
  function TargetKinds(es: seq<Element>, line: int): seq<string> {
    if es == [] then [] else TargetKindsOf(es[0], line) + TargetKinds(es[1..], line)
  }

  function TargetKindsOf(e: Element, line: int): seq<string> {
    (if StartsOn(e.pos, line) then [Kind(e)] else []) +
    match e
    case Node(_, _, children) => TargetKinds(children, line)
    case Lit(_, _) => []
    case Method(_, _, header, body) => TargetKinds(header, line) + BodyTargetKinds(body, line)
  }

  function BodyTargetKinds(body: Option<Block>, line: int): seq<string> {
    match body
    case None => []
    case Some(b) => (if StartsOn(b.pos, line) then [BlockKind] else []) + TargetKinds(b.stmts, line)
  }

  lemma {:induction false} TargetKindsAppend(a: seq<Element>, b: seq<Element>, line: int)
    ensures TargetKinds(a + b, line) == TargetKinds(a, line) + TargetKinds(b, line)
    decreases |a|
  {
    if a != [] {
      assert (a + b)[0] == a[0];
      assert (a + b)[1..] == a[1..] + b;
      TargetKindsAppend(a[1..], b, line);
    } else {
      assert a + b == b;
    }
  }

  /** Some element of the forest, at any depth, is a `return` (`getElements(e -> e instanceof CtReturn)`). */
  predicate ContainsReturn(es: seq<Element>): (r: bool)
    ensures r <==> exists k :: 0 <= k < |es| && ContainsReturnOf(es[k])
  {
    if es == [] then false
    else
      var rest := ContainsReturn(es[1..]);
      assert forall k :: 1 <= k < |es| ==> es[k] == es[1..][k - 1];
      ContainsReturnOf(es[0]) || rest
  }

  predicate ContainsReturnOf(e: Element) {
    match e
    case Node(_, _, children) => IsReturn(e) || ContainsReturn(children)
    case Lit(_, _) => false
    case Method(_, _, header, body) => ContainsReturn(header) || (body.Some? && ContainsReturn(body.value.stmts))
  }

  lemma {:induction false} ContainsReturnAppend(a: seq<Element>, b: seq<Element>)
    ensures ContainsReturn(a + b) <==> ContainsReturn(a) || ContainsReturn(b)
    decreases |a|
  {
    if a != [] {
      assert (a + b)[0] == a[0];
      assert (a + b)[1..] == a[1..] + b;
      ContainsReturnAppend(a[1..], b);
    } else {
      assert a + b == b;
    }
  }
}

=== FILE: wrappers.dfy ===
/** Failure-carrying values used across the model in place of Java's null and exceptions. */
module Wrappers {

  /** `None` stands for a Java `null` result. */
  datatype Option<+T> = None | Some(value: T)

  /** `Failure` stands for an exception that propagates out of the modelled call. */
  datatype Result<+T, +E> = Success(value: T) | Failure(error: E)
}
